=== FILE: README.md ===
# s502 assembler and linker front end in Dafny

This project models the core of the s502 toolchain for the 6502 CPU:

- **The assembler's line machine.** The assembler scans a `.65a` source file
  token by token. Each token's handler (`s502-as/src/callbacks/`) updates one
  assembly context (`Program`). The end-of-line handler `eol` then turns the
  line's mnemonic and operand into an opcode (looked up in the table of
  `s502-as/src/opcodes.rs`) and operand bytes, and appends them to the
  active section.
- **The object writer.** `create_object` (`s502-as/src/output.rs`) writes the
  sections as a little-endian object file: headers, label records,
  reference records and the code padded to four bytes.
- **The linker front end.** `read_objects`, `read_object` and `read_symtab`
  (`s502-ln/src/object.rs`) read object files and symbol tables back and
  merge the sections that share a name. `read_script`, `read_group` and
  `set_offset` (`s502-ln/src/script.rs`) parse the linker script into
  relocation groups (`s502-ln/src/formats.rs`).

Every handler is a pure function from a context to `Result<Program,
AsmError>`; an `Err` is the source's `Filter::Emit` with the message the
source stores in `err`. An `unwrap` or an index that would panic in the
source is the error `Panic`. Readers work on byte sequences rather than
files, and each field is read whole: the model assumes that every `read`
fills its buffer. A file that ends before a field does is `Truncated`, and a
failed `FromPrimitive` conversion is `InvalidData`. The source's reads go
through a `BufReader` and can stop short at the buffer's end even on a
complete file; `Buffered` models that reader and shows where it happens
(see "## Findings").

The proofs connect the pieces:

- Every emitted opcode disassembles back to its mnemonic and address mode.
  The one exception is `ldx`'s duplicated zero-page encoding.
- Every keyword lexes to its own handler.
- Every successful assembly step keeps a section invariant: labels form a
  flattened forest with ordered offsets, code takes at most 0xffff bytes,
  and no reference is ever recorded.
- Whatever `create_object` writes for writable sections (`Interchange.Writable`),
  `read_object` reads back section by section as `Interchange.Decoded` of
  each: the code, the label map built from the label block, and the
  references. The label block, the reference block, the header and the
  payload each round-trip. A referred name is kept as its raw 64-byte
  buffer; read as the format documents it, as `parent` or `parent.child`,
  it gives back the names written. The decoded form is not the
  section itself: each child is read with its parent's offset and
  visibility, and the parent counts and child order collapse into one map
  from full names to records.
- The symbol table format round-trips exactly when its names are distinct.
- A merge keeps every label and reference on the byte it marked.
- The script parser lists every section name once per mention, starts every
  group with a fresh name, and only moves the address cursor on `. n`
  lines.

The source has five behaviours that the model keeps as written and that the
lemmas expose:

- No label reaches the object file. The label handlers never increment
  `num_parents`, and `create_object` writes that many parent records
  (`AsmInvariants.AssembledSections`, `Interchange.AssembledObjectReadable`).
- The handlers never push a reference. Because of that, `<` and `>` always
  fail: `unwrap` on the empty reference list panics
  (`AsmInvariants.ByteSelectorsNeverSucceed`).
- A directive line (`dfb`, `dfw`, `hlt`, `sct`) never completes. After the
  directive runs, `eol` falls through to the opcode table, whose directive
  rows are empty (`LineEnd.DirectiveLinesFail`).
- `create_object` writes each child record with its parent's offset and
  visibility rather than the child's own (`s502-as/src/output.rs:100-101`),
  so the linker reads every child at its parent's byte
  (`Interchange.ChildrenRoundTrip`).
- The line that ends a group in the linker script is not counted, so later
  error lines are too small (`LnScript.LineEndOfGroupUncounted`).

Where the source does not compile as written, the model follows its evident
meaning:

- `Program::active` is declared as an `Option` with `None` as the default,
  but the handlers use it directly as the key of the section map. The model
  keeps the all-zero name, which is the key `Program::default` inserts, as
  the active section from the start.
- `RelocGroup` is declared with `address` and `max_size`, but the script
  parser fills `offset` and `max_offset`. The model keeps the parser's
  names; comparison and equality look at the start offset either way.

## Model

| member | source | states |
|---|---|---|
| Ir.Destruct | s502-as/src/ir.rs:236-294 | finalising succeeds exactly for the complete operand states, whose value width matches the mode; the mode is the state's own (plain is zero page for a byte-width value, absolute otherwise); literals come out unchanged, implied and accumulator get a dummy byte, and a reference becomes a zero placeholder |
| Ir.PadName | s502-as/src/callbacks/labels.rs:38-43 | an identifier of at most 31 bytes is copied to the front of a 32-byte name and the rest is NUL |
| Ir.ActiveSection | s502-as/src/callbacks/mod.rs:22 | the active section is found exactly when its name is a key of the map, and is the section stored there; otherwise the lookup panics |
| Ir.UpdateActive | s502-as/src/callbacks/mod.rs:23-32 | writing the active section changes that section only and leaves every other section and field alone |
| Opcodes.OpcodeDisassembles | s502-as/src/opcodes.rs:7-68 | every valid (mnemonic, mode) entry decodes back to itself through the 16 x 16 inverse table, except `ldx` zero-page-X, which decodes as zero-page-Y |
| Opcodes.OpcodeInjective | s502-as/src/opcodes.rs:7-68 | apart from `ldx`'s duplicate, no two valid combinations share an opcode byte |
| Opcodes.LdxZeroPageDuplicate | s502-as/src/opcodes.rs:38 | `ldx` encodes zero-page-X and zero-page-Y as the same byte, 0xb6 |
| Opcodes.ValidModes | s502-as/src/opcodes.rs:7-68 | the set of a mnemonic's modes is exactly the modes whose table entry is present |
| Opcodes.BranchesAreZeroPageOnly | s502-as/src/opcodes.rs:11-20 | a mnemonic is a branch (`Mnemonic::is_branch`) exactly when zero page is its only valid mode |
| Opcodes.BranchColumns | s502-as/src/ir.rs:205-211 | every branch has a zero-page opcode and no other |
| Opcodes.ZeroPageHasAbsolute | s502-as/src/opcodes.rs:7-68 | every non-branch with a zero-page form also has an absolute form |
| Opcodes.DirectivesHaveNoOpcode | s502-as/src/opcodes.rs:64-67 | the four directive rows hold no opcode in any mode |
| Opcodes.LdaEncodings | s502-as/src/opcodes.rs:37 | `lda #` is 0xa9 and `lda` absolute is 0xad |
| Opcodes.AccumulatorOnlyForShifts | s502-as/src/opcodes.rs:7-68 | accumulator mode is valid exactly for `asl`, `lsr`, `rol` and `ror` |
| Opcodes.IndirectOnlyForJmp | s502-as/src/opcodes.rs:35-36 | indirect mode is valid only for `jmp` (0x6c), and `jsr` is valid only as absolute 0x20 |
| Opcodes.ZeroPageYOnlyForLdxStx | s502-as/src/opcodes.rs:7-68 | zero-page-Y is valid exactly for `ldx` and `stx`, with `stx` at 0x96 |
| Opcodes.ImpliedInstructions | s502-as/src/opcodes.rs:7-68 | implied mode is valid exactly for the operand-less instructions, which have no other mode, and `sta #` is invalid |
| Opcodes.ImpliedColumns | s502-as/src/opcodes.rs:7-68 | an operand-less instruction is valid as implied and in no other mode |
| Opcodes.OnlyMode | s502-as/src/opcodes.rs:7-68 | a mnemonic whose table row has one present entry has that one valid mode |
| Lexer.KeywordText | s502-as/src/token.rs:9-128 | every mnemonic's keyword is three characters |
| Lexer.KeywordOf | s502-as/src/token.rs:9-128 | a recognised keyword is three characters spelling its mnemonic's letters |
| Lexer.KeywordOfSound | s502-as/src/token.rs:9-128 | a recognised keyword is exactly the text of the mnemonic it gives |
| Lexer.KeywordRoundTrip | s502-as/src/token.rs:9-128 | every mnemonic is recognised from its own keyword |
| Lexer.KeywordTextInjective | s502-as/src/token.rs:9-128 | different mnemonics have different keywords |
| Lexer.KeywordStart | s502-as/src/token.rs:9-128 | a keyword is three characters long and starts with a lower-case letter |
| Lexer.Lex | s502-as/src/token.rs:8-165 | each token kind is produced only from a lexeme matching its pattern and carries that lexeme's text; an unrecognised lexeme matches none of the patterns |
| Lexer.LexSpell | s502-as/src/token.rs:8-165 | lexing the text of any well-formed token gives the token back |
| Lexer.LexNumber | s502-as/src/token.rs:151-155 | a lexeme of one of the four literal patterns is a number token |
| Lexer.LexIdent | s502-as/src/token.rs:156 | an identifier that is not a keyword or register lexes as a root identifier with its bytes |
| Lexer.LexChildIdent | s502-as/src/token.rs:157 | a period followed by identifier characters lexes as a child identifier with the bytes after the period |
| Lexer.LexComment | s502-as/src/token.rs:162 | a comment running to the end of its line lexes as a comment |
| Lexer.LexBlank | s502-as/src/token.rs:163 | spaces and tabs lex as skipped whitespace |
| Lexer.IdentBytes | s502-as/src/callbacks/labels.rs:40-42 | an identifier's bytes are its characters' codes, one per character |
| Lexer.IdentText | s502-as/src/callbacks/labels.rs:40-42 | the text of identifier bytes has one character per byte with the same code |
| Mnemonics.InsertMnem | s502-as/src/callbacks/mnemonics.rs:10-22 | a second mnemonic on a line, or one after the operand, is an error; otherwise the mnemonic is recorded, the line is no longer at its start, and nothing else changes |
| Operands.SelectByte | s502-as/src/callbacks/operands.rs:11-75 | `<` and `>` apply only after a whole-address reference in an operand, else "invalid byte selector"; they set the selector of the active section's last reference, change nothing else, and panic when there is none |
| Operands.AccReg | s502-as/src/callbacks/operands.rs:78-86 | `a` succeeds exactly on an empty operand, which becomes the accumulator |
| Operands.ImmeSign | s502-as/src/callbacks/operands.rs:155-163 | `#` succeeds exactly on an empty operand, which becomes the start of an immediate |
| Operands.LParen | s502-as/src/callbacks/operands.rs:211-219 | `(` succeeds exactly on an empty operand, which becomes the start of an indirect |
| Operands.IndexedBy | s502-as/src/callbacks/operands.rs:92-96 | an index register gives the zero-page form for a byte-width value and the absolute form otherwise, keeping the value |
| Operands.XReg | s502-as/src/callbacks/operands.rs:89-115 | `x` succeeds exactly after `val,` or `(val,`, giving the indexed or pre-indexed form, and keeps operand widths consistent |
| Operands.YReg | s502-as/src/callbacks/operands.rs:118-152 | `y` succeeds exactly after `val,` or after `(val),` holding a byte-width value, giving the indexed or post-indexed form |
| Operands.RParen | s502-as/src/callbacks/operands.rs:222-249 | `)` succeeds exactly after `(val` or `(val,x`: a word-width value becomes indirect, a byte-width one awaits `,y`, and `(val,x` becomes pre-indexed |
| Operands.Comma | s502-as/src/callbacks/operands.rs:252-280 | `,` succeeds exactly after a plain value, after `(val` with a byte-width value, or after `(val)`, and moves to the matching comma state |
| Operands.OpenWith | s502-as/src/callbacks/labels.rs:65-73 | a value opens an empty operand as plain, completes `#` as immediate and follows `(`; anything else rejects it |
| Operands.LiteralBase | s502-as/src/callbacks/operands.rs:167-172 | a literal's prefix selects base 2, 8 or 16, and no prefix means base 10 |
| Operands.LiteralValue | s502-as/src/callbacks/operands.rs:166-190 | a literal is valid exactly when its digits parse as a 16-bit number in its base; it is a word exactly when it exceeds 255 or has more digits than a byte needs, and the value is the parsed number |
| Operands.Number | s502-as/src/callbacks/operands.rs:166-208 | an invalid literal is "invalid number"; a valid one opens an empty operand, completes `#` only as a byte, or follows `(`, and anything else is "invalid placement of number"; only the operand changes |
| Labels.SetVisibility | s502-as/src/callbacks/labels.rs:5-25 | `!` and `!!` succeed exactly at the start of a line, set the pending visibility and leave the line start |
| Labels.RootLabel | s502-as/src/callbacks/labels.rs:28-77 | a too-long name and a full section are errors in that order; a declaration appends the label with the pending visibility (global by default) at the current size and makes it the last parent; in an operand it opens a whole-address reference at the current size, or is misplaced |
| Labels.ChildLabel | s502-as/src/callbacks/labels.rs:80-153 | a too-long name and a full section are errors in that order; a declaration with no parent yet is "no parent label has been created yet" and otherwise succeeds; no section is added or removed |
| Labels.ChildDeclared | s502-as/src/callbacks/labels.rs:97-116 | a child declaration counts one more child of the last parent, appends the child with the pending visibility (hidden by default) at the current size, and changes nothing else |
| Labels.ChildReferenced | s502-as/src/callbacks/labels.rs:117-150 | in an operand, a child name completes a plain root reference, or else refers to a child of the last parent, which must exist; only the operand changes |
| Labels.RootLabelKeepsTree | s502-as/src/callbacks/labels.rs:46-56 | a root declaration keeps the section's labels a flattened forest whose last parent is the last root |
| Labels.ChildLabelKeepsTree | s502-as/src/callbacks/labels.rs:97-116 | a child declaration keeps the section's labels a flattened forest |
| Labels.ForestConcat | s502-as/src/callbacks/labels.rs:46-116 | two label forests side by side form a forest |
| Labels.TreeShapedIsForest | s502-as/src/callbacks/labels.rs:46-116 | the labels of a tree-shaped section are a forest as a whole |
| Labels.ChildCountBounded | s502-as/src/callbacks/labels.rs:34-36 | with at most 256 labels in a section, no label counts more than 255 children |
| LineEnd.InsertBytes | s502-as/src/callbacks/mod.rs:20-44 | appending succeeds exactly when nothing is appended or the code stays within 0xffff bytes; the bytes go at the end of the code, nothing else changes, and a write at index 0xffff is "program is too large" |
| LineEnd.EmitActive | s502-as/src/callbacks/mod.rs:20-44 | bytes go to the end of the active section only, within the same size bound |
| LineEnd.Directive | s502-as/src/callbacks/mod.rs:54-102 | `dfb` emits a byte literal or a zero placeholder for a narrowed reference; `dfw` emits a word low byte first or two zeros for a whole-address reference; `sct` switches to the named section and creates it empty when new; other operands are the matching errors; other mnemonics pass through |
| LineEnd.OperandBytes | s502-as/src/callbacks/mod.rs:125-131 | implied and accumulator modes emit no operand; otherwise a byte is emitted as is and a word reads back as itself |
| LineEnd.Encoding | s502-as/src/callbacks/mod.rs:106-131 | an instruction has bytes exactly when its operand finalises and the table has an entry for the mode; the bytes are that opcode followed by the operand bytes |
| LineEnd.Eol | s502-as/src/callbacks/mod.rs:46-48 | a line without a mnemonic drops the pending operand and changes nothing else |
| LineEnd.EolErrors | s502-as/src/callbacks/mod.rs:106-121 | an instruction line fails with "invalid operand" when the operand does not finalise, with "invalid instruction and address mode combination" when the table has no entry, and with "program is too large" when the bytes do not fit; it succeeds exactly when the encoding exists and fits |
| LineEnd.EolEffect | s502-as/src/callbacks/mod.rs:106-136 | a completed line appends exactly the encoding to the active section, leaves every other section alone, advances the line by one, clears the mnemonic, operand and visibility, and returns to the start of a line |
| LineEnd.DirectiveLinesFail | s502-as/src/callbacks/mod.rs:54-121 | a directive line never completes: after the directive runs, the operand or the empty directive row of the table rejects it |
| LineEnd.EmittedInstructionDecodes | s502-as/src/callbacks/mod.rs:115-121 | the first byte a completed instruction line emits disassembles to its mnemonic and the operand's mode (zero-page-Y for `ldx` zero-page-X) |
| LineEnd.InstructionLength | s502-as/src/callbacks/mod.rs:125-131 | an implied or accumulator instruction is one byte, one with a byte operand two, and one with a word operand three |
| Assembler.StepFrame | s502-as/src/token.rs:8-165 | only the line-end handlers move to the next line, by one and only after an instruction; no other handler changes the line or the active section |
| Assembler.KeywordDispatch | s502-as/src/callbacks/mnemonics.rs:25-92 | each keyword's text reaches `insert_mnem` with its own mnemonic |
| Assembler.TokenDispatch | s502-as/src/token.rs:8-165 | lexing a token's text runs the same handler as the token |
| Assembler.LexemeDispatch | s502-as/src/token.rs:151-163 | literals reach `number`, identifiers `label`, child identifiers `child_label`, comments `eol`, and blanks are skipped |
| Assembler.RunLines | s502-as/src/output.rs:32-48 | an error is reported on a line no earlier than where scanning started, and a successful scan ends no earlier |
| Assembler.RunAppend | s502-as/src/output.rs:32-48 | scanning two token runs one after the other is scanning them joined, and the first error stops the scan |
| Assembler.Assemble | s502-as/src/output.rs:32-55 | an assembly succeeds exactly when every token's handler and the final `eol` succeed; a handler's failure is reported as the scan reported it, and a failing final `eol` is reported on the scan's last line with `eol`'s own error |
| AsmInvariants.DefaultInv | s502-as/src/ir.rs:106-136 | the initial context, whose active section is the empty all-zero section, satisfies the invariant |
| AsmInvariants.StepInv | s502-as/src/token.rs:8-165 | every successful handler keeps the invariant: the active section exists; every section has no references, a zero root count, at most 0xffff bytes of code, at most 256 labels in address order within the code, forming a flattened forest; and the operand's width is consistent |
| AsmInvariants.RunInv | s502-as/src/output.rs:32-48 | a successful scan keeps the invariant |
| AsmInvariants.EolInv | s502-as/src/callbacks/mod.rs:18-139 | a successful `eol` keeps the invariant |
| AsmInvariants.RootLabelInv | s502-as/src/callbacks/labels.rs:28-77 | a successful `label` keeps the invariant |
| AsmInvariants.ChildLabelInv | s502-as/src/callbacks/labels.rs:80-153 | a successful `child_label` keeps the invariant |
| AsmInvariants.AssembledSections | s502-as/src/output.rs:32-59 | every section of a successful assembly keeps the invariant, and the all-zero section is always among them |
| AsmInvariants.RunKeepsSections | s502-as/src/callbacks/mod.rs:93-95 | sections are only ever added, never removed |
| AsmInvariants.ByteSelectorsNeverSucceed | s502-as/src/callbacks/operands.rs:11-75 | because no reference is ever recorded, `<` and `>` never succeed |
| AsmInvariants.ChildCountsFit | s502-as/src/ir.rs:29 | no label ever counts more than 255 children, so the 32-bit child count cannot overflow |
| Output.VisCode | s502-as/src/ir.rs:50-56 | a visibility is written as a code below 3 |
| Output.SelectCode | s502-as/src/ir.rs:42-48 | a byte selector is written as a code below 3 |
| Output.BranchCode | s502-as/src/output.rs:123 | the branch flag is written as 1 exactly when it is set |
| Output.ParentRecord | s502-as/src/output.rs:93-96 | a parent record is 44 bytes |
| Output.ChildRecords | s502-as/src/output.rs:98-103 | the child records of a parent are 40 bytes each |
| Output.ChildRecordAt | s502-as/src/output.rs:98-103 | child record `j` holds the child's own name but the parent's offset and visibility |
| Output.LabelBlock | s502-as/src/output.rs:90-104 | the label walk succeeds with nothing for no parents, and otherwise needs a first label with its children present |
| Output.LabelBlockOfForest | s502-as/src/output.rs:90-104 | over a label forest whose parent count is its root count, the walk succeeds and writes 44 bytes per root and 40 per child |
| Output.FirstNul | s502-as/src/output.rs:109 | the position found is the first NUL byte of the name, and none means the name has no NUL |
| Output.ReferredBuffer | s502-as/src/output.rs:108-119 | the referred buffer exists exactly when the parent name has a NUL; it is 64 bytes holding the parent up to its NUL, then a period and 31 bytes of the child when there is one, then zeros |
| Output.ReferredWritesInBounds | s502-as/src/output.rs:113-118 | the child's bytes always fall inside the 64-byte buffer |
| Output.ReferenceRecord | s502-as/src/output.rs:106-124 | a reference record is 72 bytes, and it exists exactly when the parent name has a NUL |
| Output.ReferenceBlock | s502-as/src/output.rs:106-124 | the reference block exists exactly when every parent name has a NUL, and is 72 bytes per reference |
| Output.Payload | s502-as/src/output.rs:127 | the payload is the code followed by zeros up to the next multiple of four, and needs the padded length to fit the 65536-byte buffer |
| Output.SectionBytes | s502-as/src/output.rs:84-127 | a section is written exactly when its label walk, reference block and payload are; the bytes open with the name, the code size, the parent count and the reference count, and their length adds the label block, 72 bytes per reference and the padded code |
| Output.SectionsBytes | s502-as/src/output.rs:82-128 | writing the sections in the walk's order succeeds exactly when every visited section can be written |
| Output.CreateObject | s502-as/src/output.rs:77-132 | the object is written exactly when every section is, and starts with the section count as a little-endian u32 |
| Output.EnumerationCount | s502-as/src/output.rs:80-82 | the count written in the header is the number of sections the walk then visits |
| Output.SectionLength | s502-as/src/output.rs:84-127 | a section of size s with p parents, c children and f references takes 44 + 44p + 40c + 72f + s rounded up to four bytes |
| Bytes.LeU16 | s502-as/src/output.rs:122-123 | `to_le_bytes` of a u16: two bytes, low byte first |
| Bytes.LeU32 | s502-as/src/output.rs:80-87 | `(x as u32).to_le_bytes()`: four bytes holding x modulo 2^32, low byte first |
| Bytes.ReadU16 | s502-ln/src/object.rs:158-161 | reading a u16 needs two bytes and consumes exactly them |
| Bytes.ReadU32 | s502-ln/src/object.rs:91-101 | reading a u32 needs four bytes and consumes exactly them |
| Bytes.ReadBytes | s502-ln/src/object.rs:94 | reading n raw bytes needs n bytes and splits the input there |
| Bytes.U16RoundTrip | s502-ln/src/object.rs:158-161 | a written u16 reads back as itself and leaves the rest |
| Bytes.U32RoundTrip | s502-ln/src/object.rs:91-101 | a written u32 reads back as itself and leaves the rest |
| Bytes.U16Decodes | s502-ln/src/object.rs:158-161 | writing back a u16 that was read gives the bytes read |
| Bytes.U32Decodes | s502-ln/src/object.rs:91-101 | writing back a u32 that was read gives the bytes read |
| Bytes.BytesRoundTrip | s502-ln/src/object.rs:94 | raw bytes read back as themselves |
| Bytes.PaddedLen | s502-ln/src/formats.rs:87-89 | the padded payload is the smallest multiple of four not below the size |
| Bytes.PadAmount | s502-ln/src/formats.rs:87-89 | the padding is below four bytes and makes the size a multiple of four |
| Bytes.PadAmountBitwise | s502-as/src/output.rs:127 | in 32-bit arithmetic, `(4 - (size & 3)) & 3` equals the padding computed with remainders |
| Radix.DigitValue | s502-as/src/callbacks/operands.rs:179 | a digit's value is below the base |
| Radix.FromStrRadix | s502-as/src/callbacks/operands.rs:179 | `u16::from_str_radix`: a string parses exactly when it is not empty or a lone `+` and its digits, after one optional `+`, are all valid in the base and worth at most 0xffff; the number is their value |
| Radix.PaddedAndSigned | s502-as/src/callbacks/operands.rs:179 | leading zeros are accepted (`00ff` is 0xff), a leading `+` is accepted (`+7` is 7), and a lone `+` is rejected |
| Radix.DigitCharValue | s502-as/src/callbacks/operands.rs:179 | a formatted digit reads back as its value in any larger base |
| Radix.FormatParses | s502-as/src/callbacks/operands.rs:179 | the digits of a number in a base read back as that number |
| Radix.FromStrRadixOfFormat | s502-as/src/callbacks/operands.rs:179 | every 16-bit number written in a base from 2 to 16 parses back as itself |
| Radix.OverflowRejected | s502-as/src/callbacks/operands.rs:179 | digits whose value exceeds 0xffff are rejected |
| LnFormats.SelectFromCode | s502-ln/src/formats.rs:137-143 | codes 0, 1 and 2 are both, high and low, and no other code is a selector |
| LnFormats.VisFromCode | s502-ln/src/formats.rs:145-151 | codes 0, 1 and 2 are hidden, object and global, and no other code is a visibility |
| LnFormats.UntilNul | s502-ln/src/formats.rs:8 | the name is the prefix of the buffer before its first NUL |
| LnFormats.SplitAtPeriod | s502-ln/src/formats.rs:74-75 | a referred name splits at its first period into a parent without a period and the child after it |
| LnFormats.ReferredParts | s502-ln/src/formats.rs:74-75 | the referred buffer names a parent, or a parent and a child joined by a period, up to the first NUL |
| LnFormats.VisibilityNested | s502-ln/src/formats.rs:40-62 | wider visibility never loses a reference that resolved: hidden implies object implies global |
| LnFormats.Signed | s502-ln/src/formats.rs:83-85 | a byte's two's-complement value is in -128..127 and agrees with the byte modulo 256 |
| LnFormats.BranchDisplacement | s502-ln/src/formats.rs:83-85 | a branch gets the label's address less the reference's offset plus one, exactly when that fits one signed byte |
| LnFormats.SelectedBytes | s502-ln/src/formats.rs:77-82 | both bytes are written low byte first; the high or low selector writes that one byte of the address |
| LnFormats.HighLowRecombine | s502-ln/src/formats.rs:77-82 | the high and the low byte together give the address back |
| LnFormats.Patch | s502-ln/src/formats.rs:77-85 | a branch reference takes the signed displacement and ignores its selector; any other takes its selected bytes |
| LnFormats.BranchIgnoresSelector | s502-ln/src/formats.rs:83-85 | a branch patch does not depend on the byte selector |
| LnFormats.GroupCmp | s502-ln/src/formats.rs:181-185 | groups compare by start offset alone, equal exactly when `eq` holds |
| LnFormats.GroupOrderByOffset | s502-ln/src/formats.rs:167-185 | comparison and equality ignore the sections and the limit, so groups at one offset are equal |
| LnFormats.GroupOrderTotal | s502-ln/src/formats.rs:181-185 | the group order is antisymmetric and transitive |
| LnObject.LabelMap | s502-ln/src/object.rs:118-146 | inserting the label entries in order maps every key read to a record read for it, and a key to the record of its last entry: a later insert replaces an earlier one |
| LnObject.LabelMapStep | s502-ln/src/object.rs:118-146 | one more insertion keeps every key, a record read for every key, and the last entry's record for each key |
| LnObject.ReadChildren | s502-ln/src/object.rs:126-147 | n child records take 40 bytes each and are keyed by the parent's name, a period and the child's 32 name bytes |
| LnObject.ReadRoots | s502-ln/src/object.rs:106-148 | the root records yield at least one entry per root and leave a suffix of the input |
| LnObject.ReadReferences | s502-ln/src/object.rs:150-173 | n reference records take 72 bytes each and keep the 64-byte referred name |
| LnObject.ReadSection | s502-ln/src/object.rs:93-186 | a section read takes the name from the first 32 bytes, starts at base 0 with no contributing files, keeps at most 65536 bytes of code, and consumes input |
| LnObject.ReadSections | s502-ln/src/object.rs:92 | as many sections are read as the header announces |
| LnObject.ReadObject | s502-ln/src/object.rs:82-190 | an object read yields as many sections as its first four bytes announce |
| LnObject.BadVisibilityRejected | s502-ln/src/object.rs:115-116 | a root record whose visibility code is 3 or more is invalid data |
| LnObject.ReferenceRecordFields | s502-ln/src/object.rs:154-172 | a reference record whose selector code is 3 or more is invalid data, and any flag other than 1 is not a branch |
| LnObject.LastOccurrences | s502-ln/src/object.rs:186 | collecting sections into a map keeps one section per name, and every name read |
| LnObject.LastOccurrencesAreLast | s502-ln/src/object.rs:186 | the section kept for a name is the last one read with that name |
| LnObject.ReadSymbols | s502-ln/src/object.rs:205-221 | the symbols read have 64-byte names that are pairwise distinct and new, and 32-bit addresses |
| LnObject.ReadSymtab | s502-ln/src/object.rs:193-224 | a symbol table yields as many symbols as its header announces, with distinct names |
| LnObject.SymbolsRoundTrip | s502-ln/src/object.rs:205-221 | written symbol records read back as written when their names are fresh and distinct, and fail otherwise |
| LnObject.SymtabRoundTrip | s502-ln/src/object.rs:193-224 | a written symbol table is read back, and read back as written, exactly when its names are distinct |
| LnObject.ShiftLabels | s502-ln/src/object.rs:52-54 | shifting keeps every label's name and visibility and adds the shift to its offset |
| LnObject.ShiftReferences | s502-ln/src/object.rs:55-57 | shifting keeps every reference's fields and adds the shift to its offset |
| LnObject.Merge | s502-ln/src/object.rs:43-65 | two sections merge exactly when their sizes sum below 0x10000; the code is appended, labels and references are shifted past the existing code, and the file's byte range is recorded |
| LnObject.MergeKeepsLabelTargets | s502-ln/src/object.rs:48-62 | after a merge every label still marks the byte it marked in its own section |
| LnObject.MergeKeepsReferenceTargets | s502-ln/src/object.rs:48-63 | after a merge every reference still patches the byte it patched in its own section |
| LnObject.AddSection | s502-ln/src/object.rs:41-69 | a new name is inserted as read; a known name is merged and is "section is too large" when the merge does not fit |
| LnObject.AddSections | s502-ln/src/object.rs:41-70 | adding an object's sections adds exactly their names |
| LnObject.AddSymbols | s502-ln/src/object.rs:27-35 | a table's symbols are added exactly when none is already known, keeping the known ones; otherwise the error names a symbol both known and in the table |
| LnObject.TrimPath | s502-ln/src/object.rs:20-21 | `Path` ignores trailing separators and trailing `.` components: what is left is a prefix of the path that ends in neither `/` nor `/.` |
| LnObject.TrimSlash | s502-ln/src/object.rs:20-21 | a trailing separator does not change the trimmed path |
| LnObject.TrimDot | s502-ln/src/object.rs:20-21 | a trailing `/.` does not change the trimmed path |
| LnObject.LastComponent | s502-ln/src/object.rs:20-21 | the last component holds no slash, ends the path, and is preceded by a slash unless it is the whole path |
| LnObject.LastComponentAfterSlash | s502-ln/src/object.rs:20-21 | the last component of `dir/name` is `name` |
| LnObject.FileName | s502-ln/src/object.rs:20-21 | `Path::file_name`: the last component of the trimmed path, holding no slash; a path whose last component is empty, `.` or `..` has no file name |
| LnObject.LastPeriod | s502-ln/src/object.rs:20-22 | the position found is the file name's last period |
| LnObject.NameExtension | s502-ln/src/object.rs:20-22 | a file name's extension ends the name, holds no period, and leaves a non-empty stem before its period |
| LnObject.Extension | s502-ln/src/object.rs:20-22 | `Path::extension`: the extension holds no period and no slash, and only a path with a file name longer than the extension and its period has one |
| LnObject.SameFileName | s502-ln/src/object.rs:20-22 | paths that trim to the same path have the same extension |
| LnObject.TrailingSeparatorsIgnored | s502-ln/src/object.rs:20-22 | appending `/` or `/.` to a path does not change its extension |
| LnObject.ParentHasNoExtension | s502-ln/src/object.rs:20-22 | `..`, alone or after a directory, has no extension |
| LnObject.LeadingPeriodOnly | s502-ln/src/object.rs:20-22 | a name whose only period is the first character, such as `.65o`, has no extension |
| LnObject.PathEdgeCases | s502-ln/src/object.rs:20-22 | `a.65o/` and `a.65o/.` have the extension `65o`; `..`, `dir/..` and `.65o` have none |
| LnObject.ExtensionOf | s502-ln/src/object.rs:20-22 | the extension of `stem.ext` is `ext` for a non-empty stem, when neither holds a slash, `ext` holds no period and the path is not `..` |
| LnObject.ReadFile | s502-ln/src/object.rs:26-74 | a file whose filtered extension is neither `65s` nor `65o` is "wrong extension". An object that is added was read, and the section names become the old ones plus the object's. A symbol table that was read is added exactly when none of its names is already known; then the symbol names become the old ones plus the table's, each with its table address. No known symbol changes its address and no name is lost |
| LnObject.ReadFiles | s502-ln/src/object.rs:19-76 | reading the files in order never loses a section or symbol name, and never changes a known symbol's address |
| LnObject.ReadObjects | s502-ln/src/object.rs:9-79 | no files link to nothing; a successful read had only object and symbol table files, and holds every section name of every object and every symbol of every table with its address |
| LnObject.IntendedAdmitsOnlyInputs | s502-ln/src/object.rs:19-76 | with the intended filter, a successful read admitted only `65o` and `65s` files |
| LnObject.SectionNamesAt | s502-ln/src/object.rs:41 | the names of a list of sections are the names at its positions |
| LnObject.IncludedStays | s502-ln/src/object.rs:19-76 | what later files add keeps an earlier file's section names and symbol addresses |
| LnObject.ReadFileIncludes | s502-ln/src/object.rs:26-74 | a file read successfully has all its section names or symbols, with their addresses, in the result |
| LnObject.ReadFilesUnfold | s502-ln/src/object.rs:19-76 | a successful run read its first file and then the rest from there |
| LnObject.ReadFilesIncludesAll | s502-ln/src/object.rs:9-79 | after a successful run, every section name of every object and every symbol of every table, with its address, is in the result |
| LnObject.FilterIntended | s502-ln/src/object.rs:20-25 | the intended filter keeps an extension exactly when it is `65o` or `65s` |
| LnObject.FilterAsWrittenAdmitsNothing | s502-ln/src/object.rs:20-25 | the filter chain as written admits no extension at all |
| LnObject.ReadObjectsAsWrittenRejects | s502-ln/src/object.rs:13-79 | as written, every non-empty file list fails with "wrong extension" on its first file |
| LnObject.EmptyObjectExample | s502-ln/src/object.rs:13-79 | an object `prog.65o` holding no sections is rejected as written and links to nothing with the intended filter |
| LnObject.EmptyObjectRead | s502-ln/src/object.rs:13-79 | with the intended filter, the object `prog.65o` holding no sections links to nothing |
| LnObject.EmptyObjectFile | s502-ln/src/object.rs:37-71 | an object that declares no sections leaves what was read so far unchanged |
| LnObject.SingleFile | s502-ln/src/object.rs:19-76 | reading a list of one file is reading that file with its filtered extension |
| LnScript.ScriptLexClassifies | s502-ln/src/script.rs:63-79 | blanks and nothing else are skipped; a period, a line end or comment, a name of at most 31 characters, and a decimal or `0x` literal that fits 16 bits are those tokens |
| LnScript.ScriptTokens | s502-ln/src/script.rs:63-79 | a script gives no more tokens than lexemes |
| LnScript.ScriptTokensAppend | s502-ln/src/script.rs:63-79 | the tokens of joined lexemes are the tokens of each part joined |
| LnScript.OnlyBlanksDropped | s502-ln/src/script.rs:76-77 | without blanks every lexeme gives a token |
| LnScript.BlanksIgnored | s502-ln/src/script.rs:76-77 | a blank between lexemes does not change the tokens |
| LnScript.LineLength | s502-ln/src/script.rs:127-154 | the run of names and numbers that opens the tokens ends at the first other token |
| LnScript.GroupTail | s502-ln/src/script.rs:127-154 | reading a group's line consumes tokens, never drops a name, and reports errors on the group's line |
| LnScript.GroupTailReadsLine | s502-ln/src/script.rs:127-155 | a group line reads to its line end: the group gains the line's names in order, its limit is the start plus the last number, and everything after the line end is left; a line that ends otherwise is "unrecognized token" or "expected number or end of line" |
| LnScript.ReadGroup | s502-ln/src/script.rs:106-156 | a first name listed before is an error on the current line; a group read has at least one name and consumes tokens |
| LnScript.ReadGroupReadsLine | s502-ln/src/script.rs:106-156 | a group from a fresh first name starts at the cursor's offset with that name followed by the line's names, and records all of them as listed |
| LnScript.SetOffset | s502-ln/src/script.rs:159-176 | `.` succeeds exactly before a number, which becomes the offset; otherwise "unrecognized token" or "expected number in setting address" on the current line |
| LnScript.Script | s502-ln/src/script.rs:91-98 | every group read has a name, and errors are reported on the current line or later |
| LnScript.ReadScript | s502-ln/src/script.rs:84-103 | line numbers start at 1, and a script opening with a number or an unrecognised token stops |
| LnScript.ReadScriptText | s502-ln/src/script.rs:84-103 | every group read from a script text has a name |
| LnScript.ScriptOkStarts | s502-ln/src/script.rs:91-98 | a script that reads to the end opens with a name that reads as a group, a line end, or a period and a number |
| LnScript.ScriptAfterGroup | s502-ln/src/script.rs:93 | a group is followed by the groups of the rest of the script |
| LnScript.ScriptAtLineEnd | s502-ln/src/script.rs:94 | a line end between groups only counts the line |
| LnScript.ScriptAtPeriod | s502-ln/src/script.rs:95 | a period and a number move the cursor |
| LnScript.GroupsInScriptOrder | s502-ln/src/script.rs:84-156 | the groups list every section name of the script once per mention, in script order |
| LnScript.FirstNamesFresh | s502-ln/src/script.rs:112-120 | every group's first name is new: not listed before the script, nor in any earlier group |
| LnScript.OffsetOnlyMovesOnPeriod | s502-ln/src/script.rs:121-125 | without a period every group starts at the initial cursor |
| LnScript.SetOffsetThenRead | s502-ln/src/script.rs:159-161 | `. n` sets the cursor for what follows, whatever it was |
| LnScript.LimitedGroupLine | s502-ln/src/script.rs:138 | a line holding a name and a number is one group whose limit is its start plus the number |
| LnScript.NameLine | s502-ln/src/script.rs:121-139 | a line holding one name is a group with no limit at the cursor, followed by the rest of the script |
| LnScript.DocumentedScript | s502-ln/src/script.rs:3-14 | the documented example puts `text` at 0x1000 with no limit and `data` at 0x1000 limited to 0x1100 |
| LnScript.LineEndOfGroupUncounted | s502-ln/src/script.rs:139 | the line end that closes a group is not counted, so a name repeated on the third line is reported on line 2 |
| Interchange.VisOf | s502-ln/src/object.rs:115-116 | the linker reads the assembler's visibility code back as the same visibility |
| Interchange.SelOf | s502-ln/src/object.rs:159-160 | the linker reads the assembler's byte selector code back as the same selector |
| Interchange.ChildrenRoundTrip | s502-ln/src/object.rs:126-147 | written child records are read back as the children's full names with the parent's offset and visibility |
| Interchange.LabelBlockRoundTrip | s502-ln/src/object.rs:106-148 | a written label block is read back, parent by parent, as the entries of its parents and children |
| Interchange.ReferenceBlockRoundTrip | s502-ln/src/object.rs:150-173 | a written reference block is read back record by record |
| Interchange.ReferredNameRoundTrip | s502-as/src/output.rs:108-119 | the documented `parent` / `parent.child` reading of a written referred buffer recovers the parent's name and the child's name, when the parent has no period; the linker itself keeps the raw 64-byte buffer (`s502-ln/src/object.rs:154`) and never splits it |
| Interchange.SectionRoundTrip | s502-ln/src/object.rs:93-186 | a written section is read back whole, and the reader stops exactly at its end |
| Interchange.SectionsRoundTrip | s502-ln/src/object.rs:92-187 | written sections are read back in the order written |
| Interchange.ObjectRoundTrip | s502-as/src/output.rs:77-132 | an object whose sections are all writable is read back with one section per write, in order |
| Interchange.AssembledSectionWritable | s502-as/src/output.rs:86-104 | every assembled section is writable, and is read back with its code but without labels or references |
| Interchange.AssembledObjectReadable | s502-as/src/output.rs:58-59 | the object of a successful assembly is read back as the assembled code of every section, with no labels and no references |
| Buffered.Open | s502-ln/src/object.rs:83 | a reader just opened has read nothing and buffers nothing |
| Buffered.Read | s502-ln/src/object.rs:91 | `BufReader::read`: the bytes returned are the next ones of the file and at most the request; from a non-empty buffer it returns the request or what the buffer holds, whichever is less, without refilling |
| Buffered.ReadAll | s502-ln/src/object.rs:206-211 | one result per read, in the order issued, over the same file |
| Buffered.ReadAgreesWithReadBytes | s502-ln/src/object.rs:206-211 | a read the buffer covers returns exactly the next bytes that the byte-sequence decoders take, and leaves the rest |
| Buffered.BufferedReadsFull | s502-ln/src/object.rs:206-211 | non-empty reads that fit in what the buffer holds all come back whole, in sequence, without a refill |
| Buffered.ShortReadAtBoundary | s502-ln/src/object.rs:206-211 | a read that crosses the buffer's end returns only what is left in the buffer, fewer bytes than requested |
| Buffered.SymbolReads | s502-ln/src/object.rs:205-211 | the reads of k symbol records are 2k non-empty reads of 68k bytes in total |
| Buffered.SixtyFirstSymbolNameShort | s502-ln/src/object.rs:197-211 | through the 0x1000-byte buffer, the 61st symbol name of a table of 61 or more symbols is read as 12 bytes instead of 64 |
| Buffered.LargePayloadShort | s502-ln/src/object.rs:83-185 | through the 0x10000-byte buffer, a first section with no labels or references and a 0xfffc-byte payload gets only 65488 payload bytes |

## Left out

- File I/O, the command line and printed messages: the assembler takes tokens and the linker takes paths with byte contents. Errors are datatypes rather than formatted strings, and the line number comes with each assembler or script error.
- The scanner's splitting of text into lexemes: the model classifies complete lexemes and does not model longest-match splitting.
- A failing `eol` on a comment line: in the source the scanner reports it as an unrecognised token, because the comment pattern belongs to the error token. The model reports the `eol` error itself.
- Hash-map iteration order: `create_object` walks the sections in an order given as a parameter that visits each once. The linker reads sections and labels in file order and keeps the last of a repeated name.
- Opcodes: the table is written column by column (one function per address mode) rather than row by row; the entries are the same.
- Directive lines: only the observable outcome is modelled (the line always fails), since the opcode table has no directive entries.
- The linker's placement and resolution steps after reading (`s502-ln/src/linker.rs` is a stub), and the symbol-table writer: they are not part of this model. The resolution rules the format documents are stated as `LnFormats.Patch` and its lemmas.
- Short reads: `read_object` and `read_symtab` ignore the byte count that `read` returns. A `BufReader` read that crosses the end of its buffer returns only what the buffer holds, even on a complete file: a symbol table of 61 or more symbols, or an object whose payload reaches past the first 0x10000 bytes, is misread from that point on, and a truncated file leaves zeros or the previous field's bytes. The decoders of `LnObject` and `Interchange` assume that every `read` fills its buffer, so `LnObject.SymtabRoundTrip` and `Interchange.ObjectRoundTrip` state what the format promises, not what the source's reader delivers on such files; `Buffered` models the reader on its own and is not wired into the decoders.
- The 65536-byte code arrays: sections keep only their significant bytes, so writes past the end of an array are errors rather than panics.
- LnObject.ReadSections: does not state that each section name is 32 bytes; `LnObject.ReadSection` states it per section.
- LnObject.ReadRoots: states only that at least one entry is read per root; the exact entries written are stated by `Interchange.LabelBlockRoundTrip`.
- LnScript.ReadScript: a number or unrecognised token at the start of a line is an error `Unfinished`, where the source reaches `todo!()` and panics.
- Duplicate names later in a script line are only printed as a warning by the source; the model records them and goes on, as the source does, without the message.

## Findings

| source | as written | input that shows it | evidently intended | confidence | as-written member | corrected member |
|---|---|---|---|---|---|---|
| s502-ln/src/object.rs:206-211 | each field is read with one `read` whose byte count is ignored; a `BufReader` read that crosses the end of its 0x1000-byte buffer returns only the rest of the buffer, so the field is partly unread and every later field misaligned | a complete symbol table of 61 symbols (4152 bytes): the 61st name starts at byte 4084 and its read returns 12 bytes | read every field whole (`read_exact`), so a complete table is read as written | not executed | Buffered.SixtyFirstSymbolNameShort | LnObject.SymtabRoundTrip |
| s502-ln/src/object.rs:185 | the payload is read with one `read` whose byte count is ignored; through the 0x10000-byte buffer it stops at the buffer's end | an object whose first section has no labels, no references and a 0xfffc-byte payload: the payload starts at byte 48 and its read returns 65488 bytes, so the last 44 code bytes stay zero | read the payload whole (`read_exact`), so a written object is read back as written | not executed | Buffered.LargePayloadShort | Interchange.ObjectRoundTrip |
| s502-ln/src/object.rs:20-25 | the extension is filtered for `65o` and then for `65s`, so no extension passes both and every file is rejected | one object file `prog.65o` holding no sections, `[0, 0, 0, 0]` | keep an extension that is `65o` or `65s`, so objects and symbol tables are read | not executed | LnObject.ReadObjectsAsWrittenRejects | LnObject.IntendedAdmitsOnlyInputs |

=== FILE: asminv.dfy ===
/** What every successful step of the assembler keeps true of its context,
    and what follows from it for the assembled sections. */
module AsmInvariants {
  import opened Wrappers
  import opened Bytes
  import opened Ir
  import opened Operands
  import opened Labels
  import opened Mnemonics
  import opened LineEnd
  import opened Lexer
  import opened Assembler

  /** A section as the handlers leave it. No reference is ever recorded and no
      root is ever counted, because the handlers build references only inside
      operands and nothing increments the root count; the code takes at most
      0xffff bytes; at most 256 labels, in address order, none past the end of
      the code, forming a flattened forest. */
  predicate SectionInv(s: Section) {
    && |s.references| == 0
    && s.numParents == 0
    && |s.code| <= MaxSize
    && |s.labels| <= 256
    && TreeShaped(s)
    && (forall i :: 0 <= i < |s.labels| ==> s.labels[i].offset <= |s.code|)
    && (forall i, j :: 0 <= i < j < |s.labels| ==> s.labels[i].offset <= s.labels[j].offset)
  }

  predicate Inv(p: Program) {
    && p.active in p.sections
    && (forall n :: n in p.sections ==> SectionInv(p.sections[n]))
    && OptWidthConsistent(p.op)
  }

  lemma DefaultInv()
    ensures Inv(DefaultProgram)
  {
  }

  /** An append at the end of the code keeps the section's invariant. */
  lemma InsertBytesInv(s: Section, bs: seq<byte>)
    requires SectionInv(s) && InsertBytes(s, bs).Ok?
    ensures SectionInv(InsertBytes(s, bs).value)
  {
  }

  /** Replacing the active section by one that keeps the section invariant
      keeps the invariant. */
  lemma UpdateActiveInv(p: Program, t: Section)
    requires Inv(p) && SectionInv(t)
    ensures Inv(UpdateActive(p, t))
  {
  }

  /** Appending a label at the end of the code keeps the order of offsets. */
  lemma AppendLabelInv(s: Section, t: Section)
    requires SectionInv(s) && TreeShaped(t) && |s.labels| <= 255
    requires t.code == s.code && t.references == s.references && t.numParents == s.numParents
    requires |t.labels| == |s.labels| + 1 && t.labels[|s.labels|].offset == |s.code|
    requires forall i :: 0 <= i < |s.labels| ==> t.labels[i].offset == s.labels[i].offset
    ensures SectionInv(t)
  {
  }

  lemma RootLabelInv(p: Program, id: seq<byte>)
    requires Inv(p) && RootLabel(p, id).Ok?
    ensures Inv(RootLabel(p, id).value)
  {
    var r := RootLabel(p, id).value;
    if p.ins.None? {
      var s := p.sections[p.active];
      var t := r.sections[p.active];
      RootLabelKeepsTree(p, id);
      assert t.labels == s.labels + [Label(p.vis.GetOr(Global), PadName(id), 0, |s.code|)];
      AppendLabelInv(s, t);
      UpdateActiveInv(p, t);
    }
  }

  lemma ChildLabelInv(p: Program, id: seq<byte>)
    requires Inv(p) && ChildLabel(p, id).Ok?
    ensures Inv(ChildLabel(p, id).value)
  {
    var r := ChildLabel(p, id).value;
    if p.ins.None? {
      var s := p.sections[p.active];
      var t := r.sections[p.active];
      ChildDeclared(p, id);
      ChildLabelKeepsTree(p, id);
      AppendLabelInv(s, t);
      UpdateActiveInv(p, t);
    } else {
      ChildReferenced(p, id);
    }
  }

  /** Code appended behind the labels keeps the section's invariant, as
      long as it stays within the largest size. */
  lemma GrownSectionInv(s: Section, t: Section)
    requires SectionInv(s) && |t.code| <= MaxSize && |s.code| <= |t.code|
    requires t.(code := s.code) == s
    ensures SectionInv(t)
  {
    assert t.labels == s.labels && t.lastParent == s.lastParent;
  }

  lemma EolInv(p: Program)
    requires Inv(p) && Eol(p).Ok?
    ensures Inv(Eol(p).value)
  {
    if p.ins.Some? {
      EolEffect(p);
      var r := Eol(p).value;
      GrownSectionInv(p.sections[p.active], r.sections[p.active]);
      forall n | n in r.sections
        ensures SectionInv(r.sections[n])
      {
        if n != p.active {
          assert r.sections[n] == p.sections[n];
        }
      }
    }
  }

  /** Every successful step keeps the invariant. */
  lemma StepInv(p: Program, t: Token)
    requires Inv(p) && Step(p, t).Ok?
    ensures Inv(Step(p, t).value)
  {
    match t
    case Ident(b) => RootLabelInv(p, b);
    case ChildIdent(b) => ChildLabelInv(p, b);
    case Newline => EolInv(p);
    case Comment(_) => EolInv(p);
    case _ =>
  }

  lemma {:induction false} RunInv(p: Program, ts: seq<Token>)
    requires Inv(p) && Run(p, ts).Ok?
    ensures Inv(Run(p, ts).value)
    decreases |ts|
  {
    if |ts| > 0 {
      StepInv(p, ts[0]);
      RunInv(Step(p, ts[0]).value, ts[1..]);
    }
  }

  /** Every section of a successful assembly keeps the invariant: at most 0xffff
      bytes of code, at most 256 labels in a flattened forest, and no references. */
  lemma AssembledSections(ts: seq<Token>)
    requires Assemble(ts).Ok?
    ensures forall n :: n in Assemble(ts).value ==> SectionInv(Assemble(ts).value[n])
    ensures ZeroName in Assemble(ts).value
  {
    DefaultInv();
    RunInv(DefaultProgram, ts);
    var p := Run(DefaultProgram, ts).value;
    EolInv(p);
    if p.ins.Some? {
      EolEffect(p);
    }
    RunKeepsSections(DefaultProgram, ts);
  }

  /** Sections are only ever added. */
  lemma {:induction false} RunKeepsSections(p: Program, ts: seq<Token>)
    requires Run(p, ts).Ok?
    ensures p.sections.Keys <= Run(p, ts).value.sections.Keys
    decreases |ts|
  {
    if |ts| > 0 {
      StepKeepsSections(p, ts[0]);
      RunKeepsSections(Step(p, ts[0]).value, ts[1..]);
    }
  }

  lemma StepKeepsSections(p: Program, t: Token)
    requires Step(p, t).Ok?
    ensures p.sections.Keys <= Step(p, t).value.sections.Keys
  {
    if (t.Newline? || t.Comment?) && p.ins.Some? {
      EolEffect(p);
    }
  }

  /** `<` and `>` never succeed: they narrow the last recorded reference, and
      no reference is ever recorded. */
  lemma ByteSelectorsNeverSucceed(p: Program, sel: ByteSelect)
    requires Inv(p) && sel != Both
    ensures SelectByte(p, sel).Err?
  {
    assert p.sections[p.active].references == [];
  }

  /** No label ever counts more than 255 children, so the source's child
      counter cannot wrap. */
  lemma ChildCountsFit(p: Program, n: Name, j: nat)
    requires Inv(p) && n in p.sections && j < |p.sections[n].labels|
    ensures p.sections[n].labels[j].numChildren <= 255
  {
    ChildCountBounded(p.sections[n], j);
  }
}

=== FILE: assembler.dfy ===
/** The binding of tokens to handlers (`s502-as/src/token.rs`) and the
    assembly driver (`asm` in `s502-as/src/output.rs`): every token runs its
    handler over the context, the first failure stops assembly with the
    current line number, and a last `eol` finishes a final line that has no
    newline. */
module Assembler {
  import opened Wrappers
  import opened Bytes
  import opened Ir
  import opened Lexer
  import Operands
  import Labels
  import Mnemonics
  import LineEnd

  /** The handler a token is bound to. */
  function Step(p: Program, t: Token): AsmResult<Program> {
    match t
    case Keyword(m) => Mnemonics.InsertMnem(p, m)
    case RegA => Operands.AccReg(p)
    case RegX => Operands.XReg(p)
    case RegY => Operands.YReg(p)
    case Comma => Operands.Comma(p)
    case Hash => Operands.ImmeSign(p)
    case LParen => Operands.LParen(p)
    case RParen => Operands.RParen(p)
    case ByteHi => Operands.SelectByte(p, High)
    case ByteLo => Operands.SelectByte(p, Low)
    case VisObj => Labels.SetVisibility(p, Visibility.Object)
    case VisGlobal => Labels.SetVisibility(p, Visibility.Global)
    case Num(s) => Operands.Number(p, s)
    case Ident(b) => Labels.RootLabel(p, b)
    case ChildIdent(b) => Labels.ChildLabel(p, b)
    case Newline => LineEnd.Eol(p)
    case Comment(_) => LineEnd.Eol(p)
    case Whitespace(_) => Ok(p)
    case Unrecognized(_) => Err(UnrecognizedToken)
  }

  /** Only the handlers of line ends move to the next line, and only by one;
      no other handler switches sections (a line end can, through `sct`). */
  lemma StepFrame(p: Program, t: Token)
    requires Step(p, t).Ok?
    ensures !(t.Newline? || t.Comment?) ==> Step(p, t).value.line == p.line
    ensures !(t.Newline? || t.Comment?) ==> Step(p, t).value.active == p.active
    ensures (t.Newline? || t.Comment?) ==> Step(p, t).value.line == p.line + (if p.ins.Some? then 1 else 0)
  {
    if (t.Newline? || t.Comment?) && p.ins.Some? {
      LineEnd.EolEffect(p);
    }
  }

  /** Each keyword's text reaches `insert_mnem` with the mnemonic of the same
      name. */
  lemma KeywordDispatch(p: Program, m: Mnemonic)
    ensures Step(p, Lex(KeywordText(m))) == Mnemonics.InsertMnem(p, m)
  {
    KeywordRoundTrip(m);
  }

  /** Every token the scanner produces runs the handler its text is bound
      to. */
  lemma TokenDispatch(p: Program, t: Token)
    requires WellFormed(t)
    ensures Step(p, Lex(Spell(t))) == Step(p, t)
  {
    LexSpell(t);
  }

  /** Literals, identifiers, comments and blanks reach `number`, `label`,
      `child_label`, `eol` and nothing, respectively. */
  lemma LexemeDispatch(p: Program, s: string)
    ensures NumberLexeme(s) ==> Step(p, Lex(s)) == Operands.Number(p, s)
    ensures PlainIdent(s) ==> Step(p, Lex(s)) == Labels.RootLabel(p, IdentBytes(s))
    ensures ChildLexeme(s) ==> Step(p, Lex(s)) == Labels.ChildLabel(p, IdentBytes(s[1..]))
    ensures CommentLexeme(s) ==> Step(p, Lex(s)) == LineEnd.Eol(p)
    ensures BlankLexeme(s) ==> Step(p, Lex(s)) == Ok(p)
  {
    if NumberLexeme(s) {
      NumberDispatch(p, s);
    }
    if PlainIdent(s) {
      IdentDispatch(p, s);
    }
    if ChildLexeme(s) {
      ChildDispatch(p, s);
    }
    if CommentLexeme(s) {
      LexComment(s);
    }
    if BlankLexeme(s) {
      LexBlank(s);
    }
  }

  lemma NumberDispatch(p: Program, s: string)
    requires NumberLexeme(s)
    ensures Step(p, Lex(s)) == Operands.Number(p, s)
  {
    LexNumber(s);
  }

  lemma IdentDispatch(p: Program, s: string)
    requires PlainIdent(s)
    ensures Step(p, Lex(s)) == Labels.RootLabel(p, IdentBytes(s))
  {
    assert IdentText(IdentBytes(s)) == s;
    LexIdent(IdentBytes(s));
  }

  lemma ChildDispatch(p: Program, s: string)
    requires ChildLexeme(s)
    ensures Step(p, Lex(s)) == Labels.ChildLabel(p, IdentBytes(s[1..]))
  {
    var b := IdentBytes(s[1..]);
    assert "." + IdentText(b) == s;
    LexChildIdent(b);
  }

  /** The line an assembly error is reported on, and the error. */
  datatype AsmFailure = AsmFailure(line: nat, error: AsmError)

  /** The scanning loop: handlers run in order until one fails. */
  function Run(p: Program, ts: seq<Token>): Result<Program, AsmFailure>
    decreases |ts|
  {
    if |ts| == 0 then Ok(p)
    else
      match Step(p, ts[0])
      case Err(e) => Err(AsmFailure(p.line, e))
      case Ok(q) => Run(q, ts[1..])
  }

  /** The line of a failure is never before the line the run started on,
      and a run that succeeds ends on a line no earlier. */
  lemma {:induction false} RunLines(p: Program, ts: seq<Token>)
    ensures Run(p, ts).Err? ==> Run(p, ts).error.line >= p.line
    ensures Run(p, ts).Ok? ==> Run(p, ts).value.line >= p.line
    decreases |ts|
  {
    if |ts| > 0 {
      match Step(p, ts[0])
      case Err(_) =>
      case Ok(q) =>
        StepFrame(p, ts[0]);
        RunLines(q, ts[1..]);
    }
  }

  /** Running two token runs one after the other is running them joined. */
  lemma {:induction false} RunAppend(p: Program, a: seq<Token>, b: seq<Token>)
    ensures Run(p, a).Err? ==> Run(p, a + b) == Run(p, a)
    ensures Run(p, a).Ok? ==> Run(p, a + b) == Run(Run(p, a).value, b)
    decreases |a|
  {
    if |a| == 0 {
      assert a + b == b;
    } else {
      assert (a + b)[1..] == a[1..] + b;
      match Step(p, a[0])
      case Err(_) =>
      case Ok(q) => RunAppend(q, a[1..], b);
    }
  }

  /** `asm` between reading the file and writing the object: the sections of
      a successful assembly, or the first error and its line. */
  function Assemble(ts: seq<Token>): (r: Result<map<Name, Section>, AsmFailure>)
    ensures r.Ok? <==> Run(DefaultProgram, ts).Ok? && LineEnd.Eol(Run(DefaultProgram, ts).value).Ok?
    ensures Run(DefaultProgram, ts).Err? ==> r == Err(Run(DefaultProgram, ts).error)
    ensures r.Err? && Run(DefaultProgram, ts).Ok? ==>
      r.error.line == Run(DefaultProgram, ts).value.line
      && r.error.error == LineEnd.Eol(Run(DefaultProgram, ts).value).error
  {
    match Run(DefaultProgram, ts)
    case Err(f) => Err(f)
    case Ok(p) =>
      match LineEnd.Eol(p)
      case Err(e) => Err(AsmFailure(p.line, e))
      case Ok(q) => Ok(q.sections)
  }

  /** Assembling source text given as its lexemes. */
  function AssembleLexemes(ls: seq<string>): Result<map<Name, Section>, AsmFailure> {
    Assemble(seq(|ls|, i requires 0 <= i < |ls| => Lex(ls[i])))
  }
}

=== FILE: buffered.dfy ===
/** The buffered file reader the linker reads its inputs through
    (`BufReader::with_capacity` in `s502-ln/src/object.rs`), and what its
    `read` returns. The linker calls `read` once per field and ignores the
    count it returns, so a read that comes back short leaves the field
    partly unread and every later field misaligned. */
module Buffered {
  import opened Wrappers
  import opened Bytes

  /** A `BufReader` over a file's bytes: the caller has read `file[..pos]`,
      the buffer holds `file[pos..filled]`, and it holds at most `capacity`
      bytes. */
  datatype Reader = Reader(file: seq<byte>, capacity: nat, pos: nat, filled: nat)

  predicate Valid(r: Reader) {
    r.pos <= r.filled <= |r.file| && r.filled - r.pos <= r.capacity
  }

  function Min(a: nat, b: nat): nat {
    if a <= b then a else b
  }

  /** A reader just opened on a file: nothing read, nothing buffered. */
  function Open(file: seq<byte>, capacity: nat): (r: Reader)
    ensures Valid(r) && r.pos == 0 && r.file == file
  {
    Reader(file, capacity, 0, 0)
  }

  /** `Read::read` on a `BufReader`. With an empty buffer, a request at least
      as large as the buffer goes straight to the file; otherwise an empty
      buffer is first refilled with up to `capacity` bytes. The read then
      returns what the buffer holds, up to the request, and never refills in
      the middle. The file itself is taken to yield every byte asked for
      until its end. */
  function Read(r: Reader, n: nat): (res: (seq<byte>, Reader))
    requires Valid(r)
    ensures Valid(res.1) && res.1.file == r.file && res.1.capacity == r.capacity
    ensures |res.0| <= n && res.1.pos == r.pos + |res.0| && res.0 == r.file[r.pos..res.1.pos]
    ensures r.filled <= res.1.filled
    ensures r.pos < r.filled ==> |res.0| == Min(n, r.filled - r.pos) && res.1.filled == r.filled
  {
    if r.pos == r.filled && n >= r.capacity then
      var k := Min(n, |r.file| - r.pos);
      (r.file[r.pos..r.pos + k], r.(pos := r.pos + k, filled := r.pos + k))
    else
      var filled := if r.pos == r.filled then Min(r.filled + r.capacity, |r.file|) else r.filled;
      var k := Min(n, filled - r.pos);
      (r.file[r.pos..r.pos + k], r.(pos := r.pos + k, filled := filled))
  }

  /** Reads of the given sizes, one after another, as the linker issues them
      for consecutive fields. */
  function ReadAll(r: Reader, sizes: seq<nat>): (res: (seq<seq<byte>>, Reader))
    requires Valid(r)
    ensures Valid(res.1) && |res.0| == |sizes|
    ensures res.1.file == r.file && res.1.capacity == r.capacity && r.filled <= res.1.filled
    decreases |sizes|
  {
    if |sizes| == 0 then ([], r)
    else
      var (c, r1) := Read(r, sizes[0]);
      var (cs, r2) := ReadAll(r1, sizes[1..]);
      ([c] + cs, r2)
  }

  function Sum(sizes: seq<nat>): nat
    decreases |sizes|
  {
    if |sizes| == 0 then 0 else sizes[0] + Sum(sizes[1..])
  }

  /** A read the buffer already covers returns exactly what the byte-sequence
      decoders take: the next `n` bytes, leaving the rest. */
  lemma ReadAgreesWithReadBytes(r: Reader, n: nat)
    requires Valid(r) && 0 < n && r.pos + n <= r.filled
    ensures ReadBytes(r.file[r.pos..], n) == Some((Read(r, n).0, r.file[Read(r, n).1.pos..]))
  {
    var (c, r1) := Read(r, n);
    assert r.file[r.pos..][..n] == c;
    assert r.file[r.pos..][n..] == r.file[r1.pos..];
  }

  /** Non-empty reads that stay within what the buffer holds all come back
      whole, and nothing is refilled. */
  lemma {:induction false} BufferedReadsFull(r: Reader, sizes: seq<nat>)
    requires Valid(r) && r.pos + Sum(sizes) <= r.filled
    requires forall i :: 0 <= i < |sizes| ==> sizes[i] > 0
    ensures ReadAll(r, sizes).1.pos == r.pos + Sum(sizes)
    ensures ReadAll(r, sizes).1.filled == r.filled
    ensures forall i :: 0 <= i < |sizes| ==> |ReadAll(r, sizes).0[i]| == sizes[i]
    decreases |sizes|
  {
    if |sizes| > 0 {
      var (c, r1) := Read(r, sizes[0]);
      assert |c| == sizes[0];
      BufferedReadsFull(r1, sizes[1..]);
      var (cs, r2) := ReadAll(r1, sizes[1..]);
      assert ReadAll(r, sizes).0 == [c] + cs;
      forall i | 0 <= i < |sizes|
        ensures |ReadAll(r, sizes).0[i]| == sizes[i]
      {
        if i > 0 {
          assert ([c] + cs)[i] == cs[i - 1];
        }
      }
    }
  }

  /** A read that starts inside the buffer and reaches past its end returns
      only what is left of the buffer, fewer bytes than asked for. */
  lemma ShortReadAtBoundary(r: Reader, n: nat)
    requires Valid(r) && r.pos < r.filled < r.pos + n
    ensures |Read(r, n).0| == r.filled - r.pos < n
  {
  }

  /** The reads of `k` symbol records: a 64-byte name, then a 4-byte address. */
  function SymbolReads(k: nat): (r: seq<nat>)
    ensures |r| == 2 * k && Sum(r) == 68 * k
    ensures forall i :: 0 <= i < |r| ==> r[i] > 0
  {
    if k == 0 then []
    else
      var rest := SymbolReads(k - 1);
      assert ([64, 4] + rest)[1..] == [4] + rest;
      assert ([4] + rest)[1..] == rest;
      [64, 4] + rest
  }

  /** A symbol table of 61 symbols or more, read through the source's
      0x1000-byte buffer: after the count and 60 whole records, the 61st
      name's read returns 12 bytes instead of 64. */
  lemma SixtyFirstSymbolNameShort(file: seq<byte>)
    requires |file| >= 4 + 61 * 68
    ensures var r1 := Read(Open(file, 0x1000), 4).1;
      |Read(ReadAll(r1, SymbolReads(60)).1, 64).0| == 12
  {
    var r1 := Read(Open(file, 0x1000), 4).1;
    assert r1.pos == 4 && r1.filled == 0x1000;
    BufferedReadsFull(r1, SymbolReads(60));
  }

  /** The reads of one section header: the name, the size, the root count
      and the reference count. */
  const HeaderReads: seq<nat> := [32, 4, 4, 4]

  /** An object whose first section has no labels, no references and a
      0xfffc-byte payload, read through the source's 0x10000-byte buffer:
      the payload's read returns 65488 bytes, so the last 44 bytes of the
      code stay as they were. */
  lemma LargePayloadShort(file: seq<byte>)
    requires |file| >= 4 + 44 + 0xfffc
    ensures var r1 := Read(Open(file, 0x10000), 4).1;
      |Read(ReadAll(r1, HeaderReads).1, 0xfffc).0| == 0x10000 - 48
  {
    var r1 := Read(Open(file, 0x10000), 4).1;
    assert r1.pos == 4 && r1.filled == 0x10000;
    assert Sum(HeaderReads) == 44 by {
      assert HeaderReads[1..] == [4, 4, 4];
      assert HeaderReads[1..][1..] == [4, 4];
      assert HeaderReads[1..][1..][1..] == [4];
      assert HeaderReads[1..][1..][1..][1..] == [];
    }
    BufferedReadsFull(r1, HeaderReads);
  }
}

=== FILE: bytes.dfy ===
/** Fixed-width little-endian integers and the 4-byte payload padding used by
    both sides of the object format. */
module Bytes {
  import opened Wrappers

  type byte = x: int | 0 <= x < 0x100
  type u16 = x: int | 0 <= x < 0x1_0000

  const U32_LIMIT: nat := 0x1_0000_0000

  function Zeros(n: nat): (r: seq<byte>)
    ensures |r| == n
    ensures forall i :: 0 <= i < n ==> r[i] == 0
  {
    seq(n, _ => 0)
  }

  /** `u16::to_le_bytes` */
  function LeU16(x: u16): (r: seq<byte>)
    ensures |r| == 2
    ensures r[0] as int + 0x100 * r[1] as int == x
  {
    [x % 0x100, x / 0x100]
  }

  /** The value of four little-endian bytes. */
  function Le32Value(b0: byte, b1: byte, b2: byte, b3: byte): nat {
    b0 as int + 0x100 * (b1 as int + 0x100 * (b2 as int + 0x100 * b3 as int))
  }

  /** One step of splitting a number into its low byte and the rest. */
  lemma SplitLowByte(lo: int, hi: int)
    requires 0 <= lo < 0x100 && 0 <= hi
    ensures (lo + 0x100 * hi) % 0x100 == lo
    ensures (lo + 0x100 * hi) / 0x100 == hi
  {
  }

  /** `(x as u32).to_le_bytes()`: the cast keeps the low 32 bits. */
  function LeU32(x: nat): (r: seq<byte>)
    ensures |r| == 4
    ensures Le32Value(r[0], r[1], r[2], r[3]) == x % U32_LIMIT
  {
    var v := x % U32_LIMIT;
    var q0 := v / 0x100;
    var q1 := q0 / 0x100;
    var q2 := q1 / 0x100;
    assert q2 < 0x100;
    [v % 0x100, q0 % 0x100, q1 % 0x100, q2]
  }

  /** Reads a little-endian u16 off the front of `bs`; a short input fails. */
  function ReadU16(bs: seq<byte>): (r: Option<(u16, seq<byte>)>)
    ensures r.Some? <==> |bs| >= 2
    ensures r.Some? ==> r.value.1 == bs[2..]
  {
    if |bs| < 2 then None
    else Some((bs[0] as int + 0x100 * bs[1] as int, bs[2..]))
  }

  /** Reads a little-endian u32 off the front of `bs`; a short input fails. */
  function ReadU32(bs: seq<byte>): (r: Option<(nat, seq<byte>)>)
    ensures r.Some? <==> |bs| >= 4
    ensures r.Some? ==> r.value.0 < U32_LIMIT && r.value.1 == bs[4..]
  {
    if |bs| < 4 then None
    else Some((Le32Value(bs[0], bs[1], bs[2], bs[3]), bs[4..]))
  }

  /** Reads `n` raw bytes off the front of `bs`; a short input fails. */
  function ReadBytes(bs: seq<byte>, n: nat): (r: Option<(seq<byte>, seq<byte>)>)
    ensures r.Some? <==> |bs| >= n
    ensures r.Some? ==> r.value.0 + r.value.1 == bs && |r.value.0| == n
  {
    if |bs| < n then None else Some((bs[..n], bs[n..]))
  }

  /** `rest` is what a reader leaves of `bs`: a suffix of it. */
  predicate SuffixOf(rest: seq<byte>, bs: seq<byte>) {
    |rest| <= |bs| && rest == bs[|bs| - |rest|..]
  }

  lemma DropIsSuffix(bs: seq<byte>, k: nat)
    requires k <= |bs|
    ensures SuffixOf(bs[k..], bs)
  {
  }

  lemma SuffixTrans(a: seq<byte>, b: seq<byte>, c: seq<byte>)
    requires SuffixOf(a, b) && SuffixOf(b, c)
    ensures SuffixOf(a, c)
  {
    assert c[|c| - |b|..][|b| - |a|..] == c[|c| - |a|..];
  }

  /** Reading a u16 and writing it back gives the bytes read. */
  lemma U16Decodes(bs: seq<byte>)
    requires |bs| >= 2
    ensures LeU16(ReadU16(bs).value.0) + ReadU16(bs).value.1 == bs
  {
    SplitLowByte(bs[0], bs[1]);
    assert bs == bs[..2] + bs[2..];
  }

  /** Reading a u32 and writing it back gives the bytes read. */
  lemma U32Decodes(bs: seq<byte>)
    requires |bs| >= 4
    ensures LeU32(ReadU32(bs).value.0) + ReadU32(bs).value.1 == bs
  {
    var v := Le32Value(bs[0], bs[1], bs[2], bs[3]);
    var q1 := bs[2] as int + 0x100 * bs[3] as int;
    var q0 := bs[1] as int + 0x100 * q1;
    SplitLowByte(bs[0], q0);
    SplitLowByte(bs[1], q1);
    SplitLowByte(bs[2], bs[3]);
    assert v < U32_LIMIT;
    assert v % U32_LIMIT == v;
    assert v % 0x100 == bs[0] && v / 0x100 == q0;
    assert q0 % 0x100 == bs[1] && q0 / 0x100 == q1;
    assert q1 % 0x100 == bs[2] && q1 / 0x100 == bs[3];
    assert LeU32(v) == [bs[0], bs[1], bs[2], bs[3]];
    assert LeU32(v) == bs[..4];
    assert bs == bs[..4] + bs[4..];
  }

  lemma U16RoundTrip(x: u16, rest: seq<byte>)
    ensures ReadU16(LeU16(x) + rest) == Some((x, rest))
  {
    var bs := LeU16(x) + rest;
    assert bs[2..] == rest;
  }

  lemma U32RoundTrip(x: nat, rest: seq<byte>)
    requires x < U32_LIMIT
    ensures ReadU32(LeU32(x) + rest) == Some((x, rest))
  {
    var bs := LeU32(x) + rest;
    assert bs[4..] == rest;
  }

  lemma BytesRoundTrip(xs: seq<byte>, rest: seq<byte>)
    ensures ReadBytes(xs + rest, |xs|) == Some((xs, rest))
  {
    var bs := xs + rest;
    assert bs[..|xs|] == xs;
    assert bs[|xs|..] == rest;
  }

  /** Number of zero bytes that pad a payload of `size` bytes, written in the
      source as `(4 - (size & 3)) & 3`; on a natural number `& 3` is `% 4`. */
  function PadAmount(size: nat): (r: nat)
    ensures r < 4
    ensures (size + r) % 4 == 0
  {
    (4 - size % 4) % 4
  }

  function PaddedLen(size: nat): (r: nat)
    ensures size <= r < size + 4
    ensures r % 4 == 0
    ensures size % 4 == 0 ==> r == size
  {
    size + PadAmount(size)
  }

  /** In 32-bit arithmetic the bitwise expression of the source is the
      modular expression `PadAmount` uses. */
  lemma PadAmountBitwise(size: bv32)
    ensures (4 - (size & 3)) & 3 == (4 - size % 4) % 4
  {
  }
}

=== FILE: interchange.dfy ===
/** The object file as a contract between the two tools: what the linker's
    `read_object` (`s502-ln/src/object.rs`) recovers from the bytes the
    assembler's `create_object` (`s502-as/src/output.rs`) writes. */
module Interchange {
  import opened Wrappers
  import opened Bytes
  import Ir
  import opened Labels
  import opened Output
  import LnFormats
  import LnObject
  import Assembler
  import AsmInvariants
  import Lexer

  /** The linker's reading of the assembler's visibility code. */
  function VisOf(v: Ir.Visibility): (r: LnFormats.Visibility)
    ensures LnFormats.VisFromCode(VisCode(v)) == Some(r)
  {
    match v
    case Hidden => LnFormats.Hidden
    case Object => LnFormats.Object
    case Global => LnFormats.Global
  }

  /** The linker's reading of the assembler's byte selector code. */
  function SelOf(b: Ir.ByteSelect): (r: LnFormats.ByteSelect)
    ensures LnFormats.SelectFromCode(SelectCode(b) as nat) == Some(r)
  {
    match b
    case Both => LnFormats.Both
    case High => LnFormats.High
    case Low => LnFormats.Low
  }

  /** The entries read for the children of one parent: keyed by the parent's
      name, a period and the child's name, with the parent's offset and
      visibility. */
  function ChildEntries(children: seq<Ir.Label>, parent: Ir.Label): seq<LnObject.LabelEntry>
    decreases |children|
  {
    if |children| == 0 then []
    else
      [(parent.name + ['.' as byte] + children[0].name, LnFormats.Label(VisOf(parent.vis), parent.offset))]
      + ChildEntries(children[1..], parent)
  }

  /** The entries read for the first `count` parents of a label list and
      their children. */
  function BlockEntries(ls: seq<Ir.Label>, count: nat): seq<LnObject.LabelEntry>
    requires LabelBlock(ls, count).Some?
    decreases count
  {
    if count == 0 then []
    else
      var n := ls[0].numChildren;
      [(ls[0].name, LnFormats.Label(VisOf(ls[0].vis), ls[0].offset))]
      + ChildEntries(ls[1..n + 1], ls[0])
      + BlockEntries(ls[n + 1..], count - 1)
  }

  /** One child record in front of more: the reader takes the name, the
      offset and the visibility and goes on. */
  lemma ChildStep(name: seq<byte>, offset: nat, v: Ir.Visibility, tail: seq<byte>, parent: seq<byte>, n: nat)
    requires |name| == 32 && offset < U32_LIMIT && n > 0
    ensures
      var r := LnObject.ReadChildren(name + (LeU32(offset) + (LeU32(VisCode(v)) + tail)), parent, n);
      var more := LnObject.ReadChildren(tail, parent, n - 1);
      if more.Err? then r == Err(more.error)
      else r == Ok(([(parent + ['.' as byte] + name, LnFormats.Label(VisOf(v), offset))] + more.value.0, more.value.1))
  {
    var vis := LeU32(VisCode(v)) + tail;
    var off := LeU32(offset) + vis;
    BytesRoundTrip(name, off);
    U32RoundTrip(offset, vis);
    U32RoundTrip(VisCode(v), tail);
  }

  /** Every child record is read back as the child's full name bound to its
      parent's position. */
  lemma {:induction false} ChildrenRoundTrip(children: seq<Ir.Label>, parent: Ir.Label, rest: seq<byte>)
    requires parent.offset < U32_LIMIT
    ensures LnObject.ReadChildren(ChildRecords(children, parent) + rest, parent.name, |children|)
      == Ok((ChildEntries(children, parent), rest))
    decreases |children|
  {
    if |children| > 0 {
      var tail := ChildRecords(children[1..], parent) + rest;
      Reassociate4(children[0].name, LeU32(parent.offset), LeU32(VisCode(parent.vis)), ChildRecords(children[1..], parent), rest);
      ChildrenRoundTrip(children[1..], parent, rest);
      ChildStep(children[0].name, parent.offset, parent.vis, tail, parent.name, |children|);
    }
  }

  lemma Reassociate3(a: seq<byte>, b: seq<byte>, e: seq<byte>)
    ensures a + b + e == a + (b + e)
  {
  }

  lemma Reassociate4(a: seq<byte>, b: seq<byte>, c: seq<byte>, d: seq<byte>, e: seq<byte>)
    ensures a + b + c + d + e == a + (b + (c + (d + e)))
  {
  }

  lemma Reassociate7(a: seq<byte>, b: seq<byte>, c: seq<byte>, d: seq<byte>, f: seq<byte>, g: seq<byte>, e: seq<byte>)
    ensures a + b + c + d + f + g + e == a + (b + (c + (d + (f + (g + e)))))
  {
  }

  predicate LabelsFit(ls: seq<Ir.Label>) {
    forall i :: 0 <= i < |ls| ==> ls[i].offset < U32_LIMIT && ls[i].numChildren < U32_LIMIT
  }

  /** One parent record in front of its children and more: the reader takes
      the parent, reads as many children as it counts, and goes on. */
  lemma RootStep(name: seq<byte>, count: nat, offset: nat, v: Ir.Visibility, tail: seq<byte>, n: nat)
    requires |name| == 32 && count < U32_LIMIT && offset < U32_LIMIT && n > 0
    ensures
      var r := LnObject.ReadRoots(name + (LeU32(count) + (LeU32(offset) + (LeU32(VisCode(v)) + tail))), n);
      var kids := LnObject.ReadChildren(tail, name, count);
      if kids.Err? then r == Err(kids.error)
      else
        var more := LnObject.ReadRoots(kids.value.1, n - 1);
        if more.Err? then r == Err(more.error)
        else r == Ok(([(name, LnFormats.Label(VisOf(v), offset))] + kids.value.0 + more.value.0, more.value.1))
  {
    var vis := LeU32(VisCode(v)) + tail;
    var off := LeU32(offset) + vis;
    var cnt := LeU32(count) + off;
    BytesRoundTrip(name, cnt);
    U32RoundTrip(count, off);
    U32RoundTrip(offset, vis);
    U32RoundTrip(VisCode(v), tail);
  }

  lemma LabelsFitSuffix(ls: seq<Ir.Label>, k: nat)
    requires LabelsFit(ls) && k <= |ls|
    ensures LabelsFit(ls[k..])
  {
    assert forall i :: 0 <= i < |ls| - k ==> ls[k..][i] == ls[k + i];
  }

  /** The label block is read back parent by parent, each followed by its
      children, leaving what follows it. */
  lemma LabelBlockUnfold(ls: seq<Ir.Label>, count: nat)
    requires count > 0 && LabelBlock(ls, count).Some?
    ensures ls[0].numChildren < |ls|
    ensures LabelBlock(ls[ls[0].numChildren + 1..], count - 1).Some?
    ensures LabelBlock(ls, count).value ==
      ParentRecord(ls[0]) + ChildRecords(ls[1..ls[0].numChildren + 1], ls[0])
      + LabelBlock(ls[ls[0].numChildren + 1..], count - 1).value
    ensures BlockEntries(ls, count) ==
      [(ls[0].name, LnFormats.Label(VisOf(ls[0].vis), ls[0].offset))]
      + ChildEntries(ls[1..ls[0].numChildren + 1], ls[0])
      + BlockEntries(ls[ls[0].numChildren + 1..], count - 1)
  {
  }

  /** The first parent of a block, its children, and the block after them,
      named so that the induction over the block sees only these. */
  lemma LabelBlockSplit(ls: seq<Ir.Label>, count: nat, block: seq<byte>, entries: seq<LnObject.LabelEntry>)
    returns (p: Ir.Label, children: seq<Ir.Label>, tail: seq<Ir.Label>, m: nat, after: seq<byte>, more: seq<LnObject.LabelEntry>)
    requires count > 0 && LabelBlock(ls, count) == Some(block) && LabelsFit(ls)
    requires entries == BlockEntries(ls, count)
    ensures count == m + 1 && |tail| < |ls|
    ensures LabelBlock(tail, m) == Some(after) && LabelsFit(tail) && more == BlockEntries(tail, m)
    ensures p.offset < U32_LIMIT && p.numChildren < U32_LIMIT && |children| == p.numChildren
    ensures block == ParentRecord(p) + ChildRecords(children, p) + after
    ensures entries == [(p.name, LnFormats.Label(VisOf(p.vis), p.offset))] + ChildEntries(children, p) + more
  {
    LabelBlockUnfold(ls, count);
    p, children, m := ls[0], ls[1..ls[0].numChildren + 1], count - 1;
    tail := ls[ls[0].numChildren + 1..];
    after := LabelBlock(tail, m).value;
    more := BlockEntries(tail, m);
    LabelsFitSuffix(ls, ls[0].numChildren + 1);
  }

  /** A parent record and its children in front of a block the reader
      handles: the reader handles one more parent. */
  lemma ParentBlockStep(p: Ir.Label, children: seq<Ir.Label>, after: seq<byte>, rest: seq<byte>,
                        entries: seq<LnObject.LabelEntry>, m: nat, count: nat, block: seq<byte>, all: seq<LnObject.LabelEntry>)
    requires p.offset < U32_LIMIT && p.numChildren < U32_LIMIT && |children| == p.numChildren
    requires count == m + 1 && LnObject.ReadRoots(after + rest, m) == Ok((entries, rest))
    requires block == ParentRecord(p) + ChildRecords(children, p) + after
    requires all == [(p.name, LnFormats.Label(VisOf(p.vis), p.offset))] + ChildEntries(children, p) + entries
    ensures LnObject.ReadRoots(block + rest, count) == Ok((all, rest))
  {
    ChildrenRoundTrip(children, p, after + rest);
    var tail := ChildRecords(children, p) + (after + rest);
    RootStep(p.name, p.numChildren, p.offset, p.vis, tail, count);
    Reassociate7(p.name, LeU32(p.numChildren), LeU32(p.offset), LeU32(VisCode(p.vis)), ChildRecords(children, p), after, rest);
  }

  /** The label block is read back parent by parent, each followed by its
      children, leaving what follows it. */
  lemma {:induction false} LabelBlockReads(ls: seq<Ir.Label>, count: nat, block: seq<byte>,
                                           entries: seq<LnObject.LabelEntry>, rest: seq<byte>)
    requires LabelBlock(ls, count) == Some(block) && LabelsFit(ls)
    requires entries == BlockEntries(ls, count)
    ensures LnObject.ReadRoots(block + rest, count) == Ok((entries, rest))
    decreases count
  {
    if count > 0 {
      var p, children, tail, m, after, more := LabelBlockSplit(ls, count, block, entries);
      LabelBlockReads(tail, m, after, more, rest);
      ParentBlockStep(p, children, after, rest, more, m, count, block, entries);
    }
  }

  lemma LabelBlockRoundTrip(ls: seq<Ir.Label>, count: nat, rest: seq<byte>)
    requires LabelBlock(ls, count).Some? && LabelsFit(ls)
    ensures LnObject.ReadRoots(LabelBlock(ls, count).value + rest, count) == Ok((BlockEntries(ls, count), rest))
  {
    LabelBlockReads(ls, count, LabelBlock(ls, count).value, BlockEntries(ls, count), rest);
  }

  /** What a reference record is read back as: the 64-byte referred buffer,
      the offset, the selector and the branch flag. */
  function RefRead(rf: Ir.Reference): LnFormats.Reference
    requires ReferredBuffer(rf).Some?
  {
    LnFormats.Reference(ReferredBuffer(rf).value, rf.offset, SelOf(rf.whichByte), rf.branch)
  }

  function RefsRead(refs: seq<Ir.Reference>): (r: seq<LnFormats.Reference>)
    requires ReferenceBlock(refs).Some?
    ensures |r| == |refs|
    decreases |refs|
  {
    if |refs| == 0 then []
    else
      assert ReferenceBlock(refs[1..]).Some? by {
        forall i | 0 <= i < |refs[1..]| ensures FirstNul(refs[1..][i].parent).Some? {
          assert refs[1..][i] == refs[i + 1];
        }
      }
      [RefRead(refs[0])] + RefsRead(refs[1..])
  }

  /** The reference block is read back record by record. */
  lemma {:induction false} ReferenceBlockRoundTrip(refs: seq<Ir.Reference>, rest: seq<byte>)
    requires ReferenceBlock(refs).Some?
    requires forall i :: 0 <= i < |refs| ==> refs[i].offset < U32_LIMIT
    ensures LnObject.ReadReferences(ReferenceBlock(refs).value + rest, |refs|) == Ok((RefsRead(refs), rest))
    decreases |refs|
  {
    if |refs| > 0 {
      var rf := refs[0];
      var buf := ReferredBuffer(rf).value;
      var tail := ReferenceBlock(refs[1..]).value + rest;
      var flag := LeU16(BranchCode(rf.branch)) + tail;
      var which := LeU16(SelectCode(rf.whichByte)) + flag;
      var off := LeU32(rf.offset) + which;
      assert ReferenceBlock(refs).value + rest == buf + off;
      BytesRoundTrip(buf, off);
      U32RoundTrip(rf.offset, which);
      U16RoundTrip(SelectCode(rf.whichByte), flag);
      U16RoundTrip(BranchCode(rf.branch), tail);
      assert forall i :: 0 <= i < |refs[1..]| ==> refs[1..][i] == refs[i + 1];
      ReferenceBlockRoundTrip(refs[1..], rest);
    }
  }

  lemma {:induction false} UntilNulAfterPlain(a: seq<byte>, b: seq<byte>)
    requires 0 !in a
    ensures LnFormats.UntilNul(a + b) == a + LnFormats.UntilNul(b)
    decreases |a|
  {
    if |a| == 0 {
      assert a + b == b;
    } else {
      assert (a + b)[1..] == a[1..] + b;
      assert a == [a[0]] + a[1..];
      UntilNulAfterPlain(a[1..], b);
    }
  }

  lemma {:induction false} UntilNulStopsAtZeros(a: seq<byte>, z: seq<byte>)
    requires |z| > 0 && z[0] == 0
    ensures LnFormats.UntilNul(a + z) == LnFormats.UntilNul(a)
    decreases |a|
  {
    if |a| == 0 {
      assert a + z == z;
    } else if a[0] != 0 {
      assert (a + z)[1..] == a[1..] + z;
      UntilNulStopsAtZeros(a[1..], z);
    }
  }

  lemma {:induction false} SplitAfterPlain(a: seq<byte>, b: seq<byte>)
    requires '.' as byte !in a
    ensures LnFormats.SplitAtPeriod(a + ['.' as byte] + b) == (a, Some(b))
    ensures LnFormats.SplitAtPeriod(a) == (a, None)
    decreases |a|
  {
    if |a| == 0 {
      assert a + ['.' as byte] + b == ['.' as byte] + b;
    } else {
      assert (a + ['.' as byte] + b)[1..] == a[1..] + ['.' as byte] + b;
      assert a == [a[0]] + a[1..];
      SplitAfterPlain(a[1..], b);
    }
  }

  /** The documented `parent` / `parent.child` reading of a referred buffer
      (`LnFormats.ReferredParts`) recovers the parent's name before its first
      NUL and the child's name before its first NUL, so long as the parent's
      name holds no period. The linker itself keeps the raw 64-byte buffer
      and never splits it; this states what the written buffer means. */
  lemma ReferredNameRoundTrip(rf: Ir.Reference)
    requires FirstNul(rf.parent).Some?
    requires '.' as byte !in rf.parent[..FirstNul(rf.parent).value]
    ensures LnFormats.ReferredParts(ReferredBuffer(rf).value) ==
      (rf.parent[..FirstNul(rf.parent).value],
       if rf.child.Some? then Some(LnFormats.UntilNul(rf.child.value[..31])) else None)
  {
    var k := FirstNul(rf.parent).value;
    var p := rf.parent[..k];
    assert 0 !in p;
    if rf.child.None? {
      ParentOnlyParts(p, ReferredLen - k);
    } else {
      var c := rf.child.value;
      assert ReferredBuffer(rf).value == p + (['.' as byte] + (c[..31] + Zeros(ReferredLen - k - 32)));
      ChildParts(p, c[..31], ReferredLen - k - 32);
    }
  }

  lemma ParentOnlyParts(p: seq<byte>, n: nat)
    requires 0 !in p && '.' as byte !in p && n > 0
    ensures LnFormats.ReferredParts(p + Zeros(n)) == (p, None)
  {
    var z := Zeros(n);
    UntilNulAfterPlain(p, z);
    UntilNulStopsAtZeros([], z);
    assert [] + z == z;
    assert p + [] == p;
    SplitAfterPlain(p, []);
  }

  lemma ChildParts(p: seq<byte>, c: seq<byte>, n: nat)
    requires 0 !in p && '.' as byte !in p && n > 0
    ensures LnFormats.ReferredParts(p + (['.' as byte] + (c + Zeros(n)))) == (p, Some(LnFormats.UntilNul(c)))
  {
    var z := Zeros(n);
    var tail := c + z;
    UntilNulAfterPlain(p, ['.' as byte] + tail);
    UntilNulAfterPlain(['.' as byte], tail);
    UntilNulStopsAtZeros(c, z);
    assert p + (['.' as byte] + LnFormats.UntilNul(c)) == p + ['.' as byte] + LnFormats.UntilNul(c);
    SplitAfterPlain(p, LnFormats.UntilNul(c));
  }

  /** A section the writer can emit: its label walk and reference buffers
      succeed, its payload fits, and every number fits the 32-bit fields. */
  predicate Writable(s: Ir.Section) {
    && LabelBlock(s.labels, s.numParents).Some?
    && ReferenceBlock(s.references).Some?
    && Payload(s.code).Some?
    && s.numParents < U32_LIMIT
    && |s.references| < U32_LIMIT
    && LabelsFit(s.labels)
    && (forall i :: 0 <= i < |s.references| ==> s.references[i].offset < U32_LIMIT)
  }

  /** The section the linker reads from a written one: the same code, the
      label entries of the walked parents, the references as records, at
      base 0 and with no contributing files yet. */
  function Decoded(s: Ir.Section): LnFormats.Section
    requires Writable(s)
  {
    LnFormats.Section(s.code, LnObject.LabelMap(BlockEntries(s.labels, s.numParents)), RefsRead(s.references), 0, map[])
  }

  /** The section reader over a header and parts it reads: it returns the
      name, the first `size` payload bytes as the code, the label entries and
      the references, and stops after the payload. */
  lemma SectionReads(name: seq<byte>, size: nat, roots: nat, count: nat,
                     labels: seq<byte>, refs: seq<byte>, payload: seq<byte>, rest: seq<byte>,
                     entries: seq<LnObject.LabelEntry>, references: seq<LnFormats.Reference>)
    requires |name| == 32 && size < U32_LIMIT && roots < U32_LIMIT && count < U32_LIMIT
    requires LnObject.ReadRoots(labels + (refs + (payload + rest)), roots) == Ok((entries, refs + (payload + rest)))
    requires LnObject.ReadReferences(refs + (payload + rest), count) == Ok((references, payload + rest))
    requires |payload| == PaddedLen(size) <= 0x1_0000
    ensures LnObject.ReadSection(name + (LeU32(size) + (LeU32(roots) + (LeU32(count) + (labels + (refs + (payload + rest)))))))
      == Ok(((name, LnFormats.Section(payload[..size], LnObject.LabelMap(entries), references, 0, map[])), rest))
  {
    var body := labels + (refs + (payload + rest));
    var cnt := LeU32(count) + body;
    var rts := LeU32(roots) + cnt;
    var sz := LeU32(size) + rts;
    BytesRoundTrip(name, sz);
    U32RoundTrip(size, rts);
    U32RoundTrip(roots, cnt);
    U32RoundTrip(count, body);
    BytesRoundTrip(payload, rest);
  }

  lemma Reassociate8(a: seq<byte>, b: seq<byte>, c: seq<byte>, d: seq<byte>, f: seq<byte>, g: seq<byte>, h: seq<byte>, e: seq<byte>)
    ensures a + b + c + d + f + g + h + e == a + (b + (c + (d + (f + (g + (h + e))))))
  {
  }

  /** A written section is read back whole, and the reader stops exactly
      at its end. */
  lemma SectionRoundTrip(name: Ir.Name, s: Ir.Section, rest: seq<byte>)
    requires Writable(s)
    ensures SectionBytes(name, s).Some?
    ensures LnObject.ReadSection(SectionBytes(name, s).value + rest) == Ok(((name, Decoded(s)), rest))
  {
    var labels := LabelBlock(s.labels, s.numParents).value;
    var refs := ReferenceBlock(s.references).value;
    var payload := Payload(s.code).value;
    LabelBlockRoundTrip(s.labels, s.numParents, refs + (payload + rest));
    ReferenceBlockRoundTrip(s.references, payload + rest);
    SectionReads(name, |s.code|, s.numParents, |s.references|, labels, refs, payload, rest,
                 BlockEntries(s.labels, s.numParents), RefsRead(s.references));
    Reassociate8(name, LeU32(|s.code|), LeU32(s.numParents), LeU32(|s.references|), labels, refs, payload, rest);
  }

  /** The sections read from a written object, in the order written. */
  function DecodedList(sections: map<Ir.Name, Ir.Section>, order: seq<Ir.Name>): (r: seq<(seq<byte>, LnFormats.Section)>)
    requires forall i :: 0 <= i < |order| ==> order[i] in sections && Writable(sections[order[i]])
    ensures |r| == |order|
    decreases |order|
  {
    if |order| == 0 then []
    else
      assert forall i :: 0 <= i < |order[1..]| ==> order[1..][i] == order[i + 1];
      [(order[0], Decoded(sections[order[0]]))] + DecodedList(sections, order[1..])
  }

  /** One section in front of sections the reader handles. */
  lemma SectionsStep(bs: seq<byte>, n: nat, m: nat, first: (seq<byte>, LnFormats.Section), tail: seq<byte>,
                     more: seq<(seq<byte>, LnFormats.Section)>)
    requires n == m + 1 && LnObject.ReadSection(bs) == Ok((first, tail))
    requires LnObject.ReadSections(tail, m) == Ok(more)
    ensures LnObject.ReadSections(bs, n) == Ok([first] + more)
  {
    LnObject.ReadManyStep(LnObject.ReadSection, bs, n, m, first, tail, more);
  }

  lemma {:induction false} SectionsReads(sections: map<Ir.Name, Ir.Section>, order: seq<Ir.Name>, bytes: seq<byte>, rest: seq<byte>)
    requires forall i :: 0 <= i < |order| ==> order[i] in sections && Writable(sections[order[i]])
    requires SectionsBytes(sections, order) == Some(bytes)
    ensures LnObject.ReadSections(bytes + rest, |order|) == Ok(DecodedList(sections, order))
    decreases |order|
  {
    if |order| > 0 {
      var head := SectionBytes(order[0], sections[order[0]]).value;
      assert forall i :: 0 <= i < |order[1..]| ==> order[1..][i] == order[i + 1];
      var tail := SectionsBytes(sections, order[1..]).value;
      assert bytes == head + tail;
      SectionRoundTrip(order[0], sections[order[0]], tail + rest);
      SectionsReads(sections, order[1..], tail, rest);
      Reassociate3(head, tail, rest);
      SectionsStep(bytes + rest, |order|, |order[1..]|, (order[0], Decoded(sections[order[0]])), tail + rest,
                   DecodedList(sections, order[1..]));
    }
  }

  lemma SectionsRoundTrip(sections: map<Ir.Name, Ir.Section>, order: seq<Ir.Name>, rest: seq<byte>)
    requires forall i :: 0 <= i < |order| ==> order[i] in sections && Writable(sections[order[i]])
    ensures SectionsBytes(sections, order).Some?
    ensures LnObject.ReadSections(SectionsBytes(sections, order).value + rest, |order|) == Ok(DecodedList(sections, order))
  {
    SectionsReads(sections, order, SectionsBytes(sections, order).value, rest);
  }

  /** An object whose sections are all writable is read back with one
      decoded section per written one, in the order written. */
  lemma ObjectRoundTrip(sections: map<Ir.Name, Ir.Section>, order: seq<Ir.Name>)
    requires Enumerates(sections, order) && |order| < U32_LIMIT
    requires forall n :: n in sections ==> Writable(sections[n])
    ensures CreateObject(sections, order).Some?
    ensures LnObject.ReadObject(CreateObject(sections, order).value) == Ok(DecodedList(sections, order))
  {
    EnumerationCount(sections, order);
    assert forall i :: 0 <= i < |order| ==> order[i] in sections;
    SectionsRoundTrip(sections, order, []);
    var body := SectionsBytes(sections, order).value;
    assert body + [] == body;
    U32RoundTrip(|order|, body);
    var obj := CreateObject(sections, order).value;
    assert obj == LeU32(|order|) + body;
    assert LnObject.ReadObject(obj) == LnObject.ReadSections(body, |order|);
  }

  /** Every section an assembly produces is writable, and the writer emits no
      label record for it: the root count is never incremented, so the header
      announces none and the labels are lost. */
  lemma AssembledSectionWritable(s: Ir.Section)
    requires AsmInvariants.SectionInv(s)
    ensures Writable(s)
    ensures Decoded(s) == LnFormats.Section(s.code, map[], [], 0, map[])
  {
    forall i | 0 <= i < |s.labels| ensures s.labels[i].offset < U32_LIMIT && s.labels[i].numChildren < U32_LIMIT {
      ChildCountBounded(s, i);
    }
    assert LnObject.LabelMap([]) == map[];
  }

  /** The object of a successful assembly is read back by the linker as
      the assembled code of every section, with no labels and no
      references. */
  lemma AssembledObjectReadable(ts: seq<Lexer.Token>, order: seq<Ir.Name>)
    requires Assembler.Assemble(ts).Ok?
    requires Enumerates(Assembler.Assemble(ts).value, order) && |order| < U32_LIMIT
    ensures CreateObject(Assembler.Assemble(ts).value, order).Some?
    ensures var rs := LnObject.ReadObject(CreateObject(Assembler.Assemble(ts).value, order).value);
      && rs.Ok? && |rs.value| == |order|
      && forall i :: 0 <= i < |order| ==>
           rs.value[i] == (order[i], LnFormats.Section(Assembler.Assemble(ts).value[order[i]].code, map[], [], 0, map[]))
  {
    var sections := Assembler.Assemble(ts).value;
    AsmInvariants.AssembledSections(ts);
    forall n | n in sections ensures Writable(sections[n]) {
      AssembledSectionWritable(sections[n]);
    }
    ObjectRoundTrip(sections, order);
    assert forall i :: 0 <= i < |order| ==> order[i] in sections;
    DecodedListAt(sections, order);
    forall i | 0 <= i < |order|
      ensures Decoded(sections[order[i]]) == LnFormats.Section(sections[order[i]].code, map[], [], 0, map[])
    {
      AssembledSectionWritable(sections[order[i]]);
    }
  }

  lemma {:induction false} DecodedListAt(sections: map<Ir.Name, Ir.Section>, order: seq<Ir.Name>)
    requires forall i :: 0 <= i < |order| ==> order[i] in sections && Writable(sections[order[i]])
    ensures forall i :: 0 <= i < |order| ==> DecodedList(sections, order)[i] == (order[i], Decoded(sections[order[i]]))
    decreases |order|
  {
    if |order| > 0 {
      assert forall i :: 0 <= i < |order[1..]| ==> order[1..][i] == order[i + 1];
      DecodedListAt(sections, order[1..]);
    }
  }
}

=== FILE: ir.dfy ===
/** The assembler's intermediate representation: mnemonics, address modes,
    labels, references, the per-line operand state and its finalisation, and
    the per-file assembly context (`s502-as/src/ir.rs`). */
module Ir {
  import opened Wrappers
  import opened Bytes

  /** The 56 instructions of the CPU followed by the 4 assembler directives. */
  datatype Mnemonic =
    | Adc | And | Asl | Bcc | Bcs | Beq | Bit | Bmi | Bne | Bpl | Brk | Bvc | Bvs
    | Clc | Cld | Cli | Clv | Cmp | Cpx | Cpy | Dec | Dex | Dey | Eor | Inc | Inx
    | Iny | Jmp | Jsr | Lda | Ldx | Ldy | Lsr | Nop | Ora | Pha | Php | Pla | Plp
    | Rol | Ror | Rti | Rts | Sbc | Sec | Sed | Sei | Sta | Stx | Sty | Tax | Tay
    | Tsx | Txa | Txs | Tya
    | Dfb | Dfw | Hlt | Sct

  /** `Mnemonic::is_branch` */
  predicate IsBranch(m: Mnemonic) {
    match m
    case Bcc | Bcs | Beq | Bmi | Bne | Bpl | Bvc | Bvs => true
    case _ => false
  }

  predicate IsDirective(m: Mnemonic) {
    m == Dfb || m == Dfw || m == Hlt || m == Sct
  }

  /** Relative addressing has no mode of its own: a branch operand parses as
      zero page. */
  datatype AddressMode = Acc | Abs | AbsX | AbsY | Imme | Impl | Ind | Xind | IndY | Zpg | ZpgX | ZpgY

  datatype ByteSelect = Both | High | Low

  datatype Visibility = Hidden | Object | Global

  /** An identifier stored NUL-padded in a 32-byte array. */
  type Name = s: seq<byte> | |s| == 32 witness seq(32, _ => 0)

  /** The key of the section that exists before any `sct`. */
  const ZeroName: Name := Zeros(32)

  /** Copies an identifier of at most 31 bytes into a zeroed 32-byte array. */
  function PadName(id: seq<byte>): (r: Name)
    requires |id| <= 31
    ensures r[..|id|] == id
    ensures forall i :: |id| <= i < 32 ==> r[i] == 0
  {
    id + Zeros(32 - |id|)
  }

  datatype Label = Label(vis: Visibility, name: Name, numChildren: nat, offset: nat)

  datatype Reference = Reference(
    parent: Name,
    child: Option<Name>,
    offset: nat,
    whichByte: ByteSelect,
    branch: bool)

  /** The value an operand carries. */
  datatype OpVal = Byte(b: byte) | Word(w: u16) | Ref(r: Reference)

  /** What can appear inside parentheses. */
  datatype IndOp =
    | Other(v: OpVal)      // `($HHLL` or `($LL`
    | Xind(v: OpVal)       // `($LL,x`
    | XindComma(v: OpVal)  // `($LL,`
    | IndY(v: OpVal)       // `($LL)`
    | IndYComma(v: OpVal)  // `($LL),`

  /** The operand as parsed so far on the current line. */
  datatype OpState =
    | StartInd
    | StartImme
    | Plain(v: OpVal)
    | MaybeInd(i: IndOp)
    | Idx(v: OpVal)
    | Acc
    | AbsX(v: OpVal)
    | AbsY(v: OpVal)
    | Imme(v: OpVal)
    | Ind(v: OpVal)
    | Xind(v: OpVal)
    | IndY(v: OpVal)
    | ZpgX(v: OpVal)
    | ZpgY(v: OpVal)
    | Impl

  /** A value fits one byte: a byte literal, or a reference narrowed to its
      high or low byte. Word literals and whole-address references do not. */
  predicate IsByteWidth(v: OpVal) {
    v.Byte? || (v.Ref? && v.r.whichByte != Both)
  }

  /** The operand states that finalise: the value's width must agree with the
      address mode the state stands for. */
  predicate Complete(st: OpState) {
    match st
    case Impl | Acc | Plain(_) => true
    case AbsX(v) => !IsByteWidth(v)
    case AbsY(v) => !IsByteWidth(v)
    case Ind(v) => !IsByteWidth(v)
    case Imme(v) => IsByteWidth(v)
    case Xind(v) => IsByteWidth(v)
    case IndY(v) => IsByteWidth(v)
    case ZpgX(v) => IsByteWidth(v)
    case ZpgY(v) => IsByteWidth(v)
    case _ => false
  }

  /** The address mode a finished operand state stands for; a plain operand
      is zero page or absolute by width. */
  function ModeOf(st: OpState): AddressMode
    requires Complete(st)
  {
    match st
    case Impl => AddressMode.Impl
    case Acc => AddressMode.Acc
    case Plain(v) => if IsByteWidth(v) then Zpg else Abs
    case AbsX(_) => AddressMode.AbsX
    case AbsY(_) => AddressMode.AbsY
    case Ind(_) => AddressMode.Ind
    case Imme(_) => AddressMode.Imme
    case Xind(_) => AddressMode.Xind
    case IndY(_) => AddressMode.IndY
    case ZpgX(_) => AddressMode.ZpgX
    case ZpgY(_) => AddressMode.ZpgY
  }

  /** The value carried by an operand state, if it carries one. */
  function Payload(st: OpState): Option<OpVal> {
    match st
    case Plain(v) => Some(v)
    case AbsX(v) => Some(v)
    case AbsY(v) => Some(v)
    case Ind(v) => Some(v)
    case Imme(v) => Some(v)
    case Xind(v) => Some(v)
    case IndY(v) => Some(v)
    case ZpgX(v) => Some(v)
    case ZpgY(v) => Some(v)
    case _ => None
  }

  /** The operand states the handlers can build: every finished or partly
      finished form holds a value of the width its syntax demands. The one
      exception the handlers allow is an immediate operand, which a label can
      fill with a whole-address reference. */
  predicate WidthConsistent(st: OpState) {
    match st
    case AbsX(v) => !IsByteWidth(v)
    case AbsY(v) => !IsByteWidth(v)
    case Ind(v) => !IsByteWidth(v)
    case ZpgX(v) => IsByteWidth(v)
    case ZpgY(v) => IsByteWidth(v)
    case Xind(v) => IsByteWidth(v)
    case IndY(v) => IsByteWidth(v)
    case MaybeInd(Other(_)) => true
    case MaybeInd(i) => IsByteWidth(i.v)
    case _ => true
  }

  predicate OptWidthConsistent(op: Option<OpState>) {
    op.Some? ==> WidthConsistent(op.value)
  }

  /** `OpState::destruct`: the address mode and the value to emit. Implied and
      accumulator operands carry a dummy byte; a reference becomes a zero
      placeholder. */
  function Destruct(st: OpState): (r: Option<(AddressMode, OpVal)>)
    ensures r.Some? <==> Complete(st)
    ensures r.Some? ==> r.value.0 == ModeOf(st)
    ensures r.Some? ==> !r.value.1.Ref?
    // a literal comes out unchanged
    ensures r.Some? && Payload(st).Some? && !Payload(st).value.Ref? ==> r.value.1 == Payload(st).value
    // implied and accumulator operands carry a dummy zero byte
    ensures r.Some? && Payload(st).None? ==> r.value.1 == Byte(0)
    // a reference becomes a zero placeholder, a byte only for a plain narrowed one
    ensures r.Some? && Payload(st).Some? && Payload(st).value.Ref? ==>
      r.value.1 == (if st.Plain? && IsByteWidth(st.v) then Byte(0) else Word(0))
  {
    match st
    case Impl => Some((AddressMode.Impl, Byte(0)))
    case Acc => Some((AddressMode.Acc, Byte(0)))

    case Plain(Byte(b)) => Some((Zpg, Byte(b)))
    case Plain(Word(w)) => Some((Abs, Word(w)))
    case Plain(Ref(rf)) =>
      if rf.whichByte != Both then Some((Zpg, Byte(0))) else Some((Abs, Word(0)))

    case AbsX(Word(w)) => Some((AddressMode.AbsX, Word(w)))
    case AbsX(Ref(rf)) =>
      if rf.whichByte == Both then Some((AddressMode.AbsX, Word(0))) else None

    case AbsY(Word(w)) => Some((AddressMode.AbsY, Word(w)))
    case AbsY(Ref(rf)) =>
      if rf.whichByte == Both then Some((AddressMode.AbsY, Word(0))) else None

    case Imme(Byte(b)) => Some((AddressMode.Imme, Byte(b)))
    case Imme(Ref(rf)) =>
      if rf.whichByte != Both then Some((AddressMode.Imme, Word(0))) else None

    case Ind(Word(w)) => Some((AddressMode.Ind, Word(w)))
    case Ind(Ref(rf)) =>
      if rf.whichByte == Both then Some((AddressMode.Ind, Word(0))) else None

    case Xind(Byte(b)) => Some((AddressMode.Xind, Byte(b)))
    case Xind(Ref(rf)) =>
      if rf.whichByte != Both then Some((AddressMode.Xind, Word(0))) else None

    case IndY(Byte(b)) => Some((AddressMode.IndY, Byte(b)))
    case IndY(Ref(rf)) =>
      if rf.whichByte != Both then Some((AddressMode.IndY, Word(0))) else None

    case ZpgX(Byte(b)) => Some((AddressMode.ZpgX, Byte(b)))
    case ZpgX(Ref(rf)) =>
      if rf.whichByte != Both then Some((AddressMode.ZpgX, Word(0))) else None

    case ZpgY(Byte(b)) => Some((AddressMode.ZpgY, Byte(b)))
    case ZpgY(Ref(rf)) =>
      if rf.whichByte != Both then Some((AddressMode.ZpgY, Word(0))) else None

    case _ => None
  }

  /** One section being assembled. `code` grows as bytes are emitted, so its
      length is the source's `size`. */
  datatype Section = Section(
    code: seq<byte>,
    labels: seq<Label>,
    references: seq<Reference>,
    lastParent: Option<nat>,
    numParents: nat)

  const DefaultSection: Section := Section([], [], [], None, 0)

  /** The assembly context threaded through the token handlers. */
  datatype Program = Program(
    line: nat,
    sections: map<Name, Section>,
    active: Name,
    vis: Option<Visibility>,
    startLine: bool,
    ins: Option<Mnemonic>,
    op: Option<OpState>)

  /** `Program::default`: line 1, at the start of a line, nothing pending, and
      one empty section under the all-zero name, which is the active one. */
  const DefaultProgram: Program :=
    Program(1, map[ZeroName := DefaultSection], ZeroName, None, true, None, None)

  /** The section new labels, references and bytes go to; the source's map
      lookup panics when it is missing. */
  function ActiveSection(p: Program): (r: Result<Section, AsmError>)
    ensures r.Ok? <==> p.active in p.sections
    ensures r.Ok? ==> r.value == p.sections[p.active]
    ensures r.Err? ==> r.error == Panic
  {
    if p.active in p.sections then Ok(p.sections[p.active]) else Err(Panic)
  }

  /** Replaces the active section, leaving every other section alone. */
  function UpdateActive(p: Program, s: Section): (r: Program)
    ensures r.sections.Keys == p.sections.Keys + {p.active}
    ensures r.sections[p.active] == s
    ensures forall n :: n in p.sections && n != p.active ==> r.sections[n] == p.sections[n]
    ensures r.(sections := p.sections) == p
  {
    p.(sections := p.sections[p.active := s])
  }

  /** The assembler's error messages, one per message text of the source. */
  datatype AsmError =
    | InvalidByteSelector     // "invalid placement of byte selector"
    | AccNotAlone             // "Accumulator argument must appear alone"
    | InvalidX                // "invalid placement of X"
    | InvalidY                // "invalid placement of Y"
    | ImmeNotFirst            // "immediate pound must be first part of operand"
    | InvalidNumberPlacement  // "invalid placement of number"
    | InvalidNumber           // "invalid number"
    | LParenNotFirst          // "left parenthesis must be first part of operand"
    | InvalidRParen           // "invalid placement of right parenthesis"
    | InvalidComma            // "invalid placement of comma"
    | VisNotFirst             // "visibility modifier must be first in the line"
    | IdentTooLong            // "identifier must be 31 chars or less"
    | TooManyLabels           // "too many labels in section {}"
    | NoParent                // "no parent label has been created yet"
    | InvalidRefPlacement     // "invalid placement of reference"
    | MultipleMnemonics       // "multiple mnemonics on one line"
    | MnemonicAfterOperand    // "Mnemonic must appear before operand"
    | InvalidDfb              // "invalid operand type for dfb"
    | InvalidDfw              // "invalid operand type for dfw"
    | SctNeedsSimpleName      // "sct directive requires a simple identifier name"
    | InvalidSct              // "invalid operand type for sct"
    | InvalidOperand          // "invalid operand"
    | InvalidCombination      // "invalid instruction and address mode combination"
    | ProgramTooLarge         // "program is too large"
    | UnrecognizedToken       // "unrecognized token `...`"
    | Panic                   // an `unwrap` or index of the source that would panic

  type AsmResult<T> = Result<T, AsmError>
}

=== FILE: labels.dfy ===
/** The handlers of visibility markers and identifiers
    (`s502-as/src/callbacks/labels.rs`). An identifier either declares a label
    at the current end of the active section, when no mnemonic precedes it
    on the line, or opens an operand that refers to a label. */
module Labels {
  import opened Wrappers
  import opened Bytes
  import opened Ir
  import opened Operands

  /** `vis_object` and `vis_global`: a visibility marker must open the line. */
  function SetVisibility(p: Program, v: Visibility): (r: AsmResult<Program>)
    ensures r.Ok? <==> p.startLine
    ensures r.Ok? ==> r.value.vis == Some(v) && !r.value.startLine
    ensures r.Ok? ==> r.value.(vis := p.vis, startLine := p.startLine) == p
    ensures r.Err? ==> r.error == VisNotFirst
  {
    if !p.startLine then Err(VisNotFirst) else Ok(p.(startLine := false, vis := Some(v)))
  }

  /** The labels of a section form a flattened forest: each root is followed
      by exactly as many children as it counts, and children have none. */
  predicate Forest(ls: seq<Label>)
    decreases |ls|
  {
    |ls| == 0 ||
    (ls[0].numChildren < |ls|
     && (forall j :: 1 <= j <= ls[0].numChildren ==> ls[j].numChildren == 0)
     && Forest(ls[ls[0].numChildren + 1..]))
  }

  /** The shape `label` and `child_label` keep: no label before the first
      root, and the labels after the last root are its children. */
  predicate TreeShaped(s: Section) {
    match s.lastParent
    case None => |s.labels| == 0
    case Some(k) =>
      && k < |s.labels|
      && Forest(s.labels[..k])
      && s.labels[k].numChildren == |s.labels| - 1 - k
      && (forall j :: k < j < |s.labels| ==> s.labels[j].numChildren == 0)
  }

  /** Two forests side by side are a forest. */
  lemma {:induction false} ForestConcat(a: seq<Label>, b: seq<Label>)
    requires Forest(a) && Forest(b)
    ensures Forest(a + b)
    decreases |a|
  {
    if |a| > 0 {
      var n := a[0].numChildren;
      assert (a + b)[n + 1..] == a[n + 1..] + b;
      ForestConcat(a[n + 1..], b);
    } else {
      assert a + b == b;
    }
  }

  /** A root followed by exactly its children is a forest. */
  lemma LastTreeIsForest(ls: seq<Label>)
    requires |ls| > 0 && ls[0].numChildren == |ls| - 1
    requires forall j :: 0 < j < |ls| ==> ls[j].numChildren == 0
    ensures Forest(ls)
  {
    assert ls[ls[0].numChildren + 1..] == [];
  }

  /** A tree-shaped section's labels are a forest as a whole. */
  lemma TreeShapedIsForest(s: Section)
    requires TreeShaped(s)
    ensures Forest(s.labels)
  {
    if s.lastParent.Some? {
      var k := s.lastParent.value;
      LastTreeIsForest(s.labels[k..]);
      ForestConcat(s.labels[..k], s.labels[k..]);
      assert s.labels[..k] + s.labels[k..] == s.labels;
    }
  }

  /** `label`: a root identifier. A declaration appends a label with the
      pending visibility (global by default) at the current size and makes it
      the parent of the children that follow; in an operand it refers to the
      whole address of that label from the current offset. */
  function RootLabel(p: Program, id: seq<byte>): (r: AsmResult<Program>)
    ensures |id| > 31 ==> r == Err(IdentTooLong)
    ensures |id| <= 31 && p.active !in p.sections ==> r == Err(Panic)
    ensures |id| <= 31 && p.active in p.sections && |p.sections[p.active].labels| > 255 ==>
      r == Err(TooManyLabels)
    ensures r.Ok? ==> |id| <= 31 && p.active in p.sections && |p.sections[p.active].labels| <= 255
    ensures r.Ok? ==> r.value.sections.Keys == p.sections.Keys
    ensures r.Ok? && p.ins.None? ==>
      var s := p.sections[p.active];
      && r.value == UpdateActive(p, r.value.sections[p.active]).(startLine := false)
      && r.value.sections[p.active].labels == s.labels + [Label(p.vis.GetOr(Global), PadName(id), 0, |s.code|)]
      && r.value.sections[p.active].lastParent == Some(|s.labels|)
      && r.value.sections[p.active].(labels := s.labels, lastParent := s.lastParent) == s
    ensures p.ins.None? && |id| <= 31 && p.active in p.sections && |p.sections[p.active].labels| <= 255 ==> r.Ok?
    ensures p.ins.Some? && |id| <= 31 && p.active in p.sections && |p.sections[p.active].labels| <= 255 ==>
      var rf := Reference(PadName(id), None, |p.sections[p.active].code|, Both, false);
      && (r.Ok? <==> OpenWith(p.op, Ref(rf)).Some?)
      && (r.Ok? ==> r.value == p.(op := OpenWith(p.op, Ref(rf))))
      && (r.Err? ==> r.error == InvalidRefPlacement)
  {
    if |id| > 31 then Err(IdentTooLong)
    else
      var s :- ActiveSection(p);
      if |s.labels| > 255 then Err(TooManyLabels)
      else if p.ins.None? then
        var decl := Label(p.vis.GetOr(Global), PadName(id), 0, |s.code|);
        Ok(UpdateActive(p, s.(lastParent := Some(|s.labels|), labels := s.labels + [decl])).(startLine := false))
      else
        var rf := Reference(PadName(id), None, |s.code|, Both, false);
        match OpenWith(p.op, Ref(rf))
        case None => Err(InvalidRefPlacement)
        case Some(st) => Ok(p.(op := Some(st)))
  }

  /** `child_label`: a `.name` identifier. A declaration counts one more child
      of the last root and appends the child (hidden by default) at the
      current size; in an operand it completes a plain reference to a root, or
      else refers to a child of the last root. */
  function ChildLabel(p: Program, id: seq<byte>): (r: AsmResult<Program>)
    ensures |id| > 31 ==> r == Err(IdentTooLong)
    ensures |id| <= 31 && p.active !in p.sections ==> r == Err(Panic)
    ensures |id| <= 31 && p.active in p.sections && |p.sections[p.active].labels| > 255 ==>
      r == Err(TooManyLabels)
    ensures r.Ok? ==> |id| <= 31 && p.active in p.sections && |p.sections[p.active].labels| <= 255
    ensures r.Ok? ==> r.value.sections.Keys == p.sections.Keys
    ensures p.ins.None? && |id| <= 31 && p.active in p.sections && |p.sections[p.active].labels| <= 255 ==>
      var s := p.sections[p.active];
      && (s.lastParent.None? ==> r == Err(NoParent))
      && (s.lastParent.Some? && s.lastParent.value < |s.labels| ==> r.Ok?)
  {
    if |id| > 31 then Err(IdentTooLong)
    else
      var s :- ActiveSection(p);
      if |s.labels| > 255 then Err(TooManyLabels)
      else if p.ins.None? then
        match s.lastParent
        case None => Err(NoParent)
        case Some(k) =>
          if k >= |s.labels| then Err(Panic)
          else
            var parent := s.labels[k].(numChildren := s.labels[k].numChildren + 1);
            var child := Label(p.vis.GetOr(Hidden), PadName(id), 0, |s.code|);
            Ok(UpdateActive(p, s.(labels := s.labels[k := parent] + [child])))
      else
        match p.op
        case Some(Plain(Ref(rf))) => Ok(p.(op := Some(Plain(Ref(rf.(child := Some(PadName(id))))))))
        case _ =>
          match s.lastParent
          case None => Err(NoParent)
          case Some(k) =>
            if k >= |s.labels| then Err(Panic)
            else
              var rf := Reference(s.labels[k].name, Some(PadName(id)), |s.code|, Both, false);
              match OpenWith(p.op, Ref(rf))
              case None => Err(InvalidRefPlacement)
              case Some(st) => Ok(p.(op := Some(st)))
  }

  /** A root declaration keeps the section tree-shaped. */
  lemma RootLabelKeepsTree(p: Program, id: seq<byte>)
    requires p.active in p.sections && TreeShaped(p.sections[p.active])
    requires p.ins.None? && RootLabel(p, id).Ok?
    ensures TreeShaped(RootLabel(p, id).value.sections[p.active])
  {
    var s := p.sections[p.active];
    var t := RootLabel(p, id).value.sections[p.active];
    TreeShapedIsForest(s);
    assert t.labels[..|s.labels|] == s.labels;
  }

  /** A child declaration: the last root counts one more child, the child
      is appended at the current size with the pending visibility or hidden,
      and nothing else in the context changes. */
  lemma ChildDeclared(p: Program, id: seq<byte>)
    requires p.ins.None? && ChildLabel(p, id).Ok?
    ensures p.active in p.sections
    ensures
      var r := ChildLabel(p, id).value;
      var s := p.sections[p.active];
      && s.lastParent.Some? && s.lastParent.value < |s.labels|
      && var k := s.lastParent.value;
      && r == UpdateActive(p, r.sections[p.active])
      && |r.sections[p.active].labels| == |s.labels| + 1
      && r.sections[p.active].labels[k].numChildren == s.labels[k].numChildren + 1
      && r.sections[p.active].labels[k].(numChildren := s.labels[k].numChildren) == s.labels[k]
      && (forall j :: 0 <= j < |s.labels| && j != k ==> r.sections[p.active].labels[j] == s.labels[j])
      && r.sections[p.active].labels[|s.labels|] == Label(p.vis.GetOr(Hidden), PadName(id), 0, |s.code|)
      && r.sections[p.active].(labels := s.labels) == s
  {
  }

  /** A child identifier in an operand: after a plain reference it names
      that root's child; otherwise it refers to a child of the last root,
      which must exist, and the reference must fit the operand so far. Only
      the operand changes. */
  lemma ChildReferenced(p: Program, id: seq<byte>)
    requires p.ins.Some?
    ensures var r := ChildLabel(p, id);
      && (r.Ok? ==> r.value.(op := p.op) == p)
      && (r.Ok? && p.op.Some? && p.op.value.Plain? && p.op.value.v.Ref? ==>
            r.value.op == Some(Plain(Ref(p.op.value.v.r.(child := Some(PadName(id)))))))
      && (r.Ok? && !(p.op.Some? && p.op.value.Plain? && p.op.value.v.Ref?) ==>
            var s := p.sections[p.active];
            && s.lastParent.Some? && s.lastParent.value < |s.labels|
            && r.value.op == OpenWith(p.op, Ref(Reference(s.labels[s.lastParent.value].name, Some(PadName(id)), |s.code|, Both, false))))
    ensures (|id| <= 31 && p.active in p.sections && |p.sections[p.active].labels| <= 255
      && !(p.op.Some? && p.op.value.Plain? && p.op.value.v.Ref?) && p.sections[p.active].lastParent.None?) ==>
      ChildLabel(p, id) == Err(NoParent)
    ensures (|id| <= 31 && p.active in p.sections && |p.sections[p.active].labels| <= 255
      && p.sections[p.active].lastParent.Some? && OpenWith(p.op, Byte(0)).None?
      && !(p.op.Some? && p.op.value.Plain? && p.op.value.v.Ref?)) ==>
      ChildLabel(p, id) == Err(InvalidRefPlacement) || ChildLabel(p, id) == Err(Panic)
  {
  }

  /** A child declaration keeps the section tree-shaped. */
  lemma ChildLabelKeepsTree(p: Program, id: seq<byte>)
    requires p.active in p.sections && TreeShaped(p.sections[p.active])
    requires p.ins.None? && ChildLabel(p, id).Ok?
    ensures TreeShaped(ChildLabel(p, id).value.sections[p.active])
  {
    ChildDeclared(p, id);
    var s := p.sections[p.active];
    var t := ChildLabel(p, id).value.sections[p.active];
    var k := s.lastParent.value;
    assert t.labels[..k] == s.labels[..k];
  }

  /** In a tree-shaped section of at most 256 labels no label counts more
      than 255 children, so the source's `u32` child counter never wraps. */
  lemma ChildCountBounded(s: Section, j: nat)
    requires TreeShaped(s) && |s.labels| <= 256 && j < |s.labels|
    ensures s.labels[j].numChildren <= 255
  {
    TreeShapedIsForest(s);
    ForestCountBounded(s.labels, j);
  }

  lemma {:induction false} ForestCountBounded(ls: seq<Label>, j: nat)
    requires Forest(ls) && j < |ls|
    ensures ls[j].numChildren < |ls|
    decreases |ls|
  {
    var n := ls[0].numChildren;
    if j > n {
      ForestCountBounded(ls[n + 1..], j - n - 1);
    }
  }
}

=== FILE: lexer.dfy ===
/** The token alphabet of the assembler (`s502-as/src/token.rs`): the 60
    mnemonic keywords, registers, punctuation, literals, identifiers, line
    ends and comments. A lexeme is classified as a whole; how the scanner
    splits the text into lexemes is not part of this model. */
module Lexer {
  import opened Wrappers
  import opened Bytes
  import opened Ir

  datatype Token =
    | Keyword(m: Mnemonic)
    | RegA | RegX | RegY
    | Comma | Hash | LParen | RParen
    | ByteHi | ByteLo
    | VisObj | VisGlobal
    | Num(text: string)
    | Ident(name: seq<byte>)
    | ChildIdent(name: seq<byte>)
    | Newline
    | Comment(body: string)
    | Whitespace(blanks: string)
    | Unrecognized(text: string)

  /** The three letters of a mnemonic's keyword: its name in lower case. */
  function Letters(m: Mnemonic): (char, char, char) {
    match m
    case Adc => ('a', 'd', 'c')
    case And => ('a', 'n', 'd')
    case Asl => ('a', 's', 'l')
    case Bcc => ('b', 'c', 'c')
    case Bcs => ('b', 'c', 's')
    case Beq => ('b', 'e', 'q')
    case Bit => ('b', 'i', 't')
    case Bmi => ('b', 'm', 'i')
    case Bne => ('b', 'n', 'e')
    case Bpl => ('b', 'p', 'l')
    case Brk => ('b', 'r', 'k')
    case Bvc => ('b', 'v', 'c')
    case Bvs => ('b', 'v', 's')
    case Clc => ('c', 'l', 'c')
    case Cld => ('c', 'l', 'd')
    case Cli => ('c', 'l', 'i')
    case Clv => ('c', 'l', 'v')
    case Cmp => ('c', 'm', 'p')
    case Cpx => ('c', 'p', 'x')
    case Cpy => ('c', 'p', 'y')
    case Dec => ('d', 'e', 'c')
    case Dex => ('d', 'e', 'x')
    case Dey => ('d', 'e', 'y')
    case Eor => ('e', 'o', 'r')
    case Inc => ('i', 'n', 'c')
    case Inx => ('i', 'n', 'x')
    case Iny => ('i', 'n', 'y')
    case Jmp => ('j', 'm', 'p')
    case Jsr => ('j', 's', 'r')
    case Lda => ('l', 'd', 'a')
    case Ldx => ('l', 'd', 'x')
    case Ldy => ('l', 'd', 'y')
    case Lsr => ('l', 's', 'r')
    case Nop => ('n', 'o', 'p')
    case Ora => ('o', 'r', 'a')
    case Pha => ('p', 'h', 'a')
    case Php => ('p', 'h', 'p')
    case Pla => ('p', 'l', 'a')
    case Plp => ('p', 'l', 'p')
    case Rol => ('r', 'o', 'l')
    case Ror => ('r', 'o', 'r')
    case Rti => ('r', 't', 'i')
    case Rts => ('r', 't', 's')
    case Sbc => ('s', 'b', 'c')
    case Sec => ('s', 'e', 'c')
    case Sed => ('s', 'e', 'd')
    case Sei => ('s', 'e', 'i')
    case Sta => ('s', 't', 'a')
    case Stx => ('s', 't', 'x')
    case Sty => ('s', 't', 'y')
    case Tax => ('t', 'a', 'x')
    case Tay => ('t', 'a', 'y')
    case Tsx => ('t', 's', 'x')
    case Txa => ('t', 'x', 'a')
    case Txs => ('t', 'x', 's')
    case Tya => ('t', 'y', 'a')
    case Dfb => ('d', 'f', 'b')
    case Dfw => ('d', 'f', 'w')
    case Hlt => ('h', 'l', 't')
    case Sct => ('s', 'c', 't')
  }

  /** The keyword that spells a mnemonic. */
  function KeywordText(m: Mnemonic): (s: string)
    ensures |s| == 3
  {
    [Letters(m).0, Letters(m).1, Letters(m).2]
  }

  /** The mnemonic a keyword spells, if it is one. */
  function KeywordOf(s: string): (r: Option<Mnemonic>)
    ensures r.Some? ==> |s| == 3 && Letters(r.value) == (s[0], s[1], s[2])
  {
    if |s| != 3 then None
    else
      match s[0]
      case 'a' => KeywordA(s[1], s[2])
      case 'b' => KeywordB(s[1], s[2])
      case 'c' => KeywordC(s[1], s[2])
      case 'd' => KeywordD(s[1], s[2])
      case 'e' => KeywordE(s[1], s[2])
      case 'i' => KeywordI(s[1], s[2])
      case 'j' => KeywordJ(s[1], s[2])
      case 'l' => KeywordL(s[1], s[2])
      case 'n' => KeywordN(s[1], s[2])
      case 'o' => KeywordO(s[1], s[2])
      case 'p' => KeywordP(s[1], s[2])
      case 'r' => KeywordR(s[1], s[2])
      case 's' => KeywordS(s[1], s[2])
      case 't' => KeywordT(s[1], s[2])
      case 'h' => KeywordH(s[1], s[2])
      case _ => None
  }

  /** The keywords by first letter. */
  function KeywordA(c1: char, c2: char): (r: Option<Mnemonic>)
    ensures r.Some? ==> Letters(r.value) == ('a', c1, c2)
  {
    if c1 == 'd' && c2 == 'c' then Some(Adc)
    else if c1 == 'n' && c2 == 'd' then Some(And)
    else if c1 == 's' && c2 == 'l' then Some(Asl)
    else None
  }

  function KeywordB(c1: char, c2: char): (r: Option<Mnemonic>)
    ensures r.Some? ==> Letters(r.value) == ('b', c1, c2)
  {
    if c1 == 'c' && c2 == 'c' then Some(Bcc)
    else if c1 == 'c' && c2 == 's' then Some(Bcs)
    else if c1 == 'e' && c2 == 'q' then Some(Beq)
    else if c1 == 'i' && c2 == 't' then Some(Bit)
    else if c1 == 'm' && c2 == 'i' then Some(Bmi)
    else if c1 == 'n' && c2 == 'e' then Some(Bne)
    else if c1 == 'p' && c2 == 'l' then Some(Bpl)
    else if c1 == 'r' && c2 == 'k' then Some(Brk)
    else if c1 == 'v' && c2 == 'c' then Some(Bvc)
    else if c1 == 'v' && c2 == 's' then Some(Bvs)
    else None
  }

  function KeywordC(c1: char, c2: char): (r: Option<Mnemonic>)
    ensures r.Some? ==> Letters(r.value) == ('c', c1, c2)
  {
    if c1 == 'l' && c2 == 'c' then Some(Clc)
    else if c1 == 'l' && c2 == 'd' then Some(Cld)
    else if c1 == 'l' && c2 == 'i' then Some(Cli)
    else if c1 == 'l' && c2 == 'v' then Some(Clv)
    else if c1 == 'm' && c2 == 'p' then Some(Cmp)
    else if c1 == 'p' && c2 == 'x' then Some(Cpx)
    else if c1 == 'p' && c2 == 'y' then Some(Cpy)
    else None
  }

  function KeywordD(c1: char, c2: char): (r: Option<Mnemonic>)
    ensures r.Some? ==> Letters(r.value) == ('d', c1, c2)
  {
    if c1 == 'e' && c2 == 'c' then Some(Dec)
    else if c1 == 'e' && c2 == 'x' then Some(Dex)
    else if c1 == 'e' && c2 == 'y' then Some(Dey)
    else if c1 == 'f' && c2 == 'b' then Some(Dfb)
    else if c1 == 'f' && c2 == 'w' then Some(Dfw)
    else None
  }

  function KeywordE(c1: char, c2: char): (r: Option<Mnemonic>)
    ensures r.Some? ==> Letters(r.value) == ('e', c1, c2)
  {
    if c1 == 'o' && c2 == 'r' then Some(Eor)
    else None
  }

  function KeywordI(c1: char, c2: char): (r: Option<Mnemonic>)
    ensures r.Some? ==> Letters(r.value) == ('i', c1, c2)
  {
    if c1 == 'n' && c2 == 'c' then Some(Inc)
    else if c1 == 'n' && c2 == 'x' then Some(Inx)
    else if c1 == 'n' && c2 == 'y' then Some(Iny)
    else None
  }

  function KeywordJ(c1: char, c2: char): (r: Option<Mnemonic>)
    ensures r.Some? ==> Letters(r.value) == ('j', c1, c2)
  {
    if c1 == 'm' && c2 == 'p' then Some(Jmp)
    else if c1 == 's' && c2 == 'r' then Some(Jsr)
    else None
  }

  function KeywordL(c1: char, c2: char): (r: Option<Mnemonic>)
    ensures r.Some? ==> Letters(r.value) == ('l', c1, c2)
  {
    if c1 == 'd' && c2 == 'a' then Some(Lda)
    else if c1 == 'd' && c2 == 'x' then Some(Ldx)
    else if c1 == 'd' && c2 == 'y' then Some(Ldy)
    else if c1 == 's' && c2 == 'r' then Some(Lsr)
    else None
  }

  function KeywordN(c1: char, c2: char): (r: Option<Mnemonic>)
    ensures r.Some? ==> Letters(r.value) == ('n', c1, c2)
  {
    if c1 == 'o' && c2 == 'p' then Some(Nop)
    else None
  }

  function KeywordO(c1: char, c2: char): (r: Option<Mnemonic>)
    ensures r.Some? ==> Letters(r.value) == ('o', c1, c2)
  {
    if c1 == 'r' && c2 == 'a' then Some(Ora)
    else None
  }

  function KeywordP(c1: char, c2: char): (r: Option<Mnemonic>)
    ensures r.Some? ==> Letters(r.value) == ('p', c1, c2)
  {
    if c1 == 'h' && c2 == 'a' then Some(Pha)
    else if c1 == 'h' && c2 == 'p' then Some(Php)
    else if c1 == 'l' && c2 == 'a' then Some(Pla)
    else if c1 == 'l' && c2 == 'p' then Some(Plp)
    else None
  }

  function KeywordR(c1: char, c2: char): (r: Option<Mnemonic>)
    ensures r.Some? ==> Letters(r.value) == ('r', c1, c2)
  {
    if c1 == 'o' && c2 == 'l' then Some(Rol)
    else if c1 == 'o' && c2 == 'r' then Some(Ror)
    else if c1 == 't' && c2 == 'i' then Some(Rti)
    else if c1 == 't' && c2 == 's' then Some(Rts)
    else None
  }

  function KeywordS(c1: char, c2: char): (r: Option<Mnemonic>)
    ensures r.Some? ==> Letters(r.value) == ('s', c1, c2)
  {
    if c1 == 'b' && c2 == 'c' then Some(Sbc)
    else if c1 == 'e' && c2 == 'c' then Some(Sec)
    else if c1 == 'e' && c2 == 'd' then Some(Sed)
    else if c1 == 'e' && c2 == 'i' then Some(Sei)
    else if c1 == 't' && c2 == 'a' then Some(Sta)
    else if c1 == 't' && c2 == 'x' then Some(Stx)
    else if c1 == 't' && c2 == 'y' then Some(Sty)
    else if c1 == 'c' && c2 == 't' then Some(Sct)
    else None
  }

  function KeywordT(c1: char, c2: char): (r: Option<Mnemonic>)
    ensures r.Some? ==> Letters(r.value) == ('t', c1, c2)
  {
    if c1 == 'a' && c2 == 'x' then Some(Tax)
    else if c1 == 'a' && c2 == 'y' then Some(Tay)
    else if c1 == 's' && c2 == 'x' then Some(Tsx)
    else if c1 == 'x' && c2 == 'a' then Some(Txa)
    else if c1 == 'x' && c2 == 's' then Some(Txs)
    else if c1 == 'y' && c2 == 'a' then Some(Tya)
    else None
  }

  function KeywordH(c1: char, c2: char): (r: Option<Mnemonic>)
    ensures r.Some? ==> Letters(r.value) == ('h', c1, c2)
  {
    if c1 == 'l' && c2 == 't' then Some(Hlt)
    else None
  }
  /** A recognised keyword is the text of the mnemonic it gives. */
  lemma KeywordOfSound(s: string)
    requires KeywordOf(s).Some?
    ensures s == KeywordText(KeywordOf(s).value)
  {
    assert s == [s[0], s[1], s[2]];
  }

  /** Every mnemonic is recognised from its own keyword. */
  lemma KeywordRoundTrip(m: Mnemonic)
    ensures KeywordOf(KeywordText(m)) == Some(m)
  {
    match m
    case Adc | And | Asl | Bcc | Bcs | Beq | Bit | Bmi | Bne | Bpl => RoundTripAdcToBpl(m);
    case Brk | Bvc | Bvs | Clc | Cld | Cli | Clv | Cmp | Cpx | Cpy => RoundTripBrkToCpy(m);
    case Dec | Dex | Dey | Eor | Inc | Inx | Iny | Jmp | Jsr | Lda => RoundTripDecToLda(m);
    case Ldx | Ldy | Lsr | Nop | Ora | Pha | Php | Pla | Plp | Rol => RoundTripLdxToRol(m);
    case Ror | Rti | Rts | Sbc | Sec | Sed | Sei | Sta | Stx | Sty => RoundTripRorToSty(m);
    case Tax | Tay | Tsx | Txa | Txs | Tya | Dfb | Dfw | Hlt | Sct => RoundTripTaxToSct(m);
  }

  lemma RoundTripAdcToBpl(m: Mnemonic)
    requires m.Adc? || m.And? || m.Asl? || m.Bcc? || m.Bcs? || m.Beq? || m.Bit? || m.Bmi? || m.Bne? || m.Bpl?
    ensures KeywordOf(KeywordText(m)) == Some(m)
  {
    match m
    case Adc =>
    case And =>
    case Asl =>
    case Bcc =>
    case Bcs =>
    case Beq =>
    case Bit =>
    case Bmi =>
    case Bne =>
    case Bpl =>
    case _ =>
  }

  lemma RoundTripBrkToCpy(m: Mnemonic)
    requires m.Brk? || m.Bvc? || m.Bvs? || m.Clc? || m.Cld? || m.Cli? || m.Clv? || m.Cmp? || m.Cpx? || m.Cpy?
    ensures KeywordOf(KeywordText(m)) == Some(m)
  {
    match m
    case Brk =>
    case Bvc =>
    case Bvs =>
    case Clc =>
    case Cld =>
    case Cli =>
    case Clv =>
    case Cmp =>
    case Cpx =>
    case Cpy =>
    case _ =>
  }

  lemma RoundTripDecToLda(m: Mnemonic)
    requires m.Dec? || m.Dex? || m.Dey? || m.Eor? || m.Inc? || m.Inx? || m.Iny? || m.Jmp? || m.Jsr? || m.Lda?
    ensures KeywordOf(KeywordText(m)) == Some(m)
  {
    match m
    case Dec =>
    case Dex =>
    case Dey =>
    case Eor =>
    case Inc =>
    case Inx =>
    case Iny =>
    case Jmp =>
    case Jsr =>
    case Lda =>
    case _ =>
  }

  lemma RoundTripLdxToRol(m: Mnemonic)
    requires m.Ldx? || m.Ldy? || m.Lsr? || m.Nop? || m.Ora? || m.Pha? || m.Php? || m.Pla? || m.Plp? || m.Rol?
    ensures KeywordOf(KeywordText(m)) == Some(m)
  {
    match m
    case Ldx =>
    case Ldy =>
    case Lsr =>
    case Nop =>
    case Ora =>
    case Pha =>
    case Php =>
    case Pla =>
    case Plp =>
    case Rol =>
    case _ =>
  }

  lemma RoundTripRorToSty(m: Mnemonic)
    requires m.Ror? || m.Rti? || m.Rts? || m.Sbc? || m.Sec? || m.Sed? || m.Sei? || m.Sta? || m.Stx? || m.Sty?
    ensures KeywordOf(KeywordText(m)) == Some(m)
  {
    match m
    case Ror =>
    case Rti =>
    case Rts =>
    case Sbc =>
    case Sec =>
    case Sed =>
    case Sei =>
    case Sta =>
    case Stx =>
    case Sty =>
    case _ =>
  }

  lemma RoundTripTaxToSct(m: Mnemonic)
    requires m.Tax? || m.Tay? || m.Tsx? || m.Txa? || m.Txs? || m.Tya? || m.Dfb? || m.Dfw? || m.Hlt? || m.Sct?
    ensures KeywordOf(KeywordText(m)) == Some(m)
  {
    match m
    case Tax =>
    case Tay =>
    case Tsx =>
    case Txa =>
    case Txs =>
    case Tya =>
    case Dfb =>
    case Dfw =>
    case Hlt =>
    case Sct =>
    case _ =>
  }

  /** Different mnemonics have different keywords. */
  lemma KeywordTextInjective(m1: Mnemonic, m2: Mnemonic)
    requires KeywordText(m1) == KeywordText(m2)
    ensures m1 == m2
  {
    KeywordRoundTrip(m1);
    KeywordRoundTrip(m2);
  }

  predicate IsDecDigit(c: char) { '0' <= c <= '9' }
  predicate IsHexDigit(c: char) { IsDecDigit(c) || 'a' <= c <= 'f' || 'A' <= c <= 'F' }
  predicate IsIdentStart(c: char) { 'a' <= c <= 'z' || 'A' <= c <= 'Z' || c == '_' }
  predicate IsIdentChar(c: char) { IsIdentStart(c) || IsDecDigit(c) }

  /** `\$[0-9a-fA-F]+`, `%[0-1]+`, `@[0-7]+` or `[0-9]+`. */
  predicate NumberLexeme(s: string) {
    && |s| > 0
    && (if s[0] == '$' then |s| > 1 && forall i :: 1 <= i < |s| ==> IsHexDigit(s[i])
        else if s[0] == '%' then |s| > 1 && forall i :: 1 <= i < |s| ==> s[i] in "01"
        else if s[0] == '@' then |s| > 1 && forall i :: 1 <= i < |s| ==> '0' <= s[i] <= '7'
        else forall i :: 0 <= i < |s| ==> IsDecDigit(s[i]))
  }

  /** `[a-zA-Z_][a-zA-Z0-9_]*` */
  predicate IdentLexeme(s: string) {
    |s| > 0 && IsIdentStart(s[0]) && forall i :: 0 <= i < |s| ==> IsIdentChar(s[i])
  }

  /** `\.[a-zA-Z0-9_]+` */
  predicate ChildLexeme(s: string) {
    |s| > 1 && s[0] == '.' && forall i :: 1 <= i < |s| ==> IsIdentChar(s[i])
  }

  /** `;.*\n`: a comment runs to the end of its line. */
  predicate CommentLexeme(s: string) {
    |s| > 1 && s[0] == ';' && s[|s| - 1] == '\n' && forall i :: 0 < i < |s| - 1 ==> s[i] != '\n'
  }

  /** `[ \t]+` */
  predicate BlankLexeme(s: string) {
    |s| > 0 && forall i :: 0 <= i < |s| ==> s[i] == ' ' || s[i] == '\t'
  }

  /** The bytes of an identifier, which is ASCII. */
  function IdentBytes(s: string): (r: seq<byte>)
    requires forall i :: 0 <= i < |s| ==> IsIdentChar(s[i])
    ensures |r| == |s|
    ensures forall i :: 0 <= i < |s| ==> r[i] == s[i] as int
  {
    seq(|s|, i requires 0 <= i < |s| => IdentByte(s[i]))
  }

  function IdentByte(c: char): (b: byte)
    requires IsIdentChar(c)
    ensures b == c as int
  {
    c as int
  }

  /** The text of an identifier's bytes. */
  function IdentText(b: seq<byte>): (r: string)
    ensures |r| == |b|
    ensures forall i :: 0 <= i < |b| ==> r[i] as int == b[i]
  {
    seq(|b|, i requires 0 <= i < |b| => b[i] as char)
  }

  /** The token a whole lexeme is. An exact keyword or symbol wins over the
      identifier pattern, as the scanner prefers literal tokens. */
  function Lex(s: string): (t: Token)
    ensures t.Keyword? ==> s == KeywordText(t.m)
    ensures t.Num? ==> NumberLexeme(s) && t.text == s
    ensures t.Ident? ==> IdentLexeme(s) && IdentText(t.name) == s
    ensures t.ChildIdent? ==> ChildLexeme(s) && IdentText(t.name) == s[1..]
    ensures t.Comment? ==> CommentLexeme(s)
    ensures t.Whitespace? ==> BlankLexeme(s)
    ensures t.Unrecognized? ==>
      && KeywordOf(s).None? && !NumberLexeme(s) && !IdentLexeme(s) && !ChildLexeme(s)
      && !CommentLexeme(s) && !BlankLexeme(s)
      && s !in {"a", "x", "y", ",", "#", "(", ")", "<", ">", "!", "!!", "\n"}
  {
    if KeywordOf(s).Some? then Keyword(KeywordOf(s).value)
    else if s == "a" then RegA
    else if s == "x" then RegX
    else if s == "y" then RegY
    else if s == "," then Comma
    else if s == "#" then Hash
    else if s == "(" then LParen
    else if s == ")" then RParen
    else if s == "<" then ByteHi
    else if s == ">" then ByteLo
    else if s == "!" then VisObj
    else if s == "!!" then VisGlobal
    else if NumberLexeme(s) then Num(s)
    else if IdentLexeme(s) then Ident(IdentBytes(s))
    else if ChildLexeme(s) then ChildIdent(IdentBytes(s[1..]))
    else if s == "\n" then Newline
    else if CommentLexeme(s) then Comment(s)
    else if BlankLexeme(s) then Whitespace(s)
    else Unrecognized(s)
  }

  /** An identifier the scanner reports as such: it matches the pattern and
      is neither a keyword nor a register name. */
  predicate PlainIdent(s: string) {
    IdentLexeme(s) && KeywordOf(s).None? && s !in {"a", "x", "y"}
  }

  /** The text of a token. */
  function Spell(t: Token): string {
    match t
    case Keyword(m) => KeywordText(m)
    case RegA => "a"
    case RegX => "x"
    case RegY => "y"
    case Comma => ","
    case Hash => "#"
    case LParen => "("
    case RParen => ")"
    case ByteHi => "<"
    case ByteLo => ">"
    case VisObj => "!"
    case VisGlobal => "!!"
    case Num(s) => s
    case Ident(b) => IdentText(b)
    case ChildIdent(b) => "." + IdentText(b)
    case Newline => "\n"
    case Comment(s) => s
    case Whitespace(s) => s
    case Unrecognized(s) => s
  }

  /** The tokens the scanner can produce, each carrying its own text. */
  predicate WellFormed(t: Token) {
    match t
    case Num(s) => NumberLexeme(s)
    case Ident(b) => PlainIdent(IdentText(b))
    case ChildIdent(b) => |b| > 0 && forall i :: 0 <= i < |b| ==> IsIdentChar(b[i] as char)
    case Comment(s) => CommentLexeme(s)
    case Whitespace(s) => BlankLexeme(s)
    case Unrecognized(s) => Lex(s) == Unrecognized(s)
    case _ => true
  }

  /** Lexing the text of a token gives the token back. */
  lemma LexSpell(t: Token)
    requires WellFormed(t)
    ensures Lex(Spell(t)) == t
  {
    match t
    case Keyword(m) => KeywordRoundTrip(m);
    case Num(s) => LexNumber(s);
    case Ident(b) => LexIdent(b);
    case ChildIdent(b) => LexChildIdent(b);
    case Comment(s) => LexComment(s);
    case Whitespace(s) => LexBlank(s);
    case Unrecognized(s) =>
    case _ =>
  }

  /** A keyword starts with a lower-case letter. */
  lemma KeywordStart(s: string)
    requires KeywordOf(s).Some?
    ensures |s| == 3 && 'a' <= s[0] <= 'z'
  {
    KeywordStartsWithLetter(KeywordOf(s).value);
  }

  lemma LexNumber(s: string)
    requires NumberLexeme(s)
    ensures Lex(s) == Num(s)
  {
    if KeywordOf(s).Some? {
      KeywordStart(s);
    }
  }

  lemma LexIdent(b: seq<byte>)
    requires PlainIdent(IdentText(b))
    ensures Lex(IdentText(b)) == Ident(b)
  {
    var s := IdentText(b);
    assert IdentBytes(s) == b;
    assert !NumberLexeme(s) by {
      assert IsIdentStart(s[0]);
    }
  }

  lemma LexChildIdent(b: seq<byte>)
    requires |b| > 0 && forall i :: 0 <= i < |b| ==> IsIdentChar(b[i] as char)
    ensures Lex("." + IdentText(b)) == ChildIdent(b)
  {
    var s := "." + IdentText(b);
    assert s[1..] == IdentText(b);
    assert IdentBytes(s[1..]) == b;
    if KeywordOf(s).Some? {
      KeywordStart(s);
    }
    assert !NumberLexeme(s) && !IdentLexeme(s) by {
      assert s[0] == '.';
    }
  }

  lemma LexComment(s: string)
    requires CommentLexeme(s)
    ensures Lex(s) == Comment(s)
  {
    if KeywordOf(s).Some? {
      KeywordStart(s);
    }
    assert !NumberLexeme(s) && !IdentLexeme(s) && !ChildLexeme(s) && s != "\n" by {
      assert s[0] == ';';
    }
  }

  lemma LexBlank(s: string)
    requires BlankLexeme(s)
    ensures Lex(s) == Whitespace(s)
  {
    if KeywordOf(s).Some? {
      KeywordStart(s);
    }
    assert !NumberLexeme(s) && !IdentLexeme(s) && !ChildLexeme(s) && !CommentLexeme(s) && s != "\n" by {
      assert s[0] == ' ' || s[0] == '\t';
    }
  }

  lemma KeywordStartsWithLetter(m: Mnemonic)
    ensures 'a' <= Letters(m).0 <= 'z'
  {
  }
}

=== FILE: lineend.dfy ===
/** The end-of-line handler `eol` (`s502-as/src/callbacks/mod.rs`): it
    finishes the statement of the line, runs a directive or emits an
    instruction into the active section, and readies the context for the next
    line. */
module LineEnd {
  import opened Wrappers
  import opened Bytes
  import opened Ir
  import opened Opcodes

  /** The largest size a section can reach: writing the byte at index 0xffff
      is refused. */
  const MaxSize: nat := 0xffff

  /** `insert_byte!` repeated: each byte goes at the current size, which then
      grows; the byte at index 0xffff is written but reported as too large.
      A write beyond the 65536-byte buffer would panic. */
  function InsertBytes(s: Section, bs: seq<byte>): (r: AsmResult<Section>)
    ensures r.Ok? <==> |bs| == 0 || |s.code| + |bs| <= MaxSize
    ensures r.Ok? ==> r.value.code == s.code + bs && r.value.(code := s.code) == s
    ensures r.Err? && |s.code| <= MaxSize ==> r.error == ProgramTooLarge
    decreases |bs|
  {
    if |bs| == 0 then Ok(s)
    else if |s.code| > MaxSize then Err(Panic)
    else if |s.code| == MaxSize then Err(ProgramTooLarge)
    else
      var t := s.(code := s.code + [bs[0]]);
      var u :- InsertBytes(t, bs[1..]);
      assert s.code + bs == t.code + bs[1..];
      Ok(u)
  }

  /** Writes bytes at the end of the active section. */
  function EmitActive(p: Program, bs: seq<byte>): (r: AsmResult<Program>)
    ensures r.Ok? <==> p.active in p.sections && (|bs| == 0 || |p.sections[p.active].code| + |bs| <= MaxSize)
    ensures r.Ok? ==> r.value.sections.Keys == p.sections.Keys
    ensures r.Ok? ==>
      && r.value == UpdateActive(p, r.value.sections[p.active])
      && r.value.sections[p.active].code == p.sections[p.active].code + bs
      && r.value.sections[p.active].(code := p.sections[p.active].code) == p.sections[p.active]
  {
    var s :- ActiveSection(p);
    var t :- InsertBytes(s, bs);
    Ok(UpdateActive(p, t))
  }

  /** The directive part of `eol`: `dfb` emits a byte literal, or a zero
      placeholder for a narrowed reference; `dfw` emits a word literal low
      byte first, or a zero placeholder for a whole-address reference; `sct`
      switches to the named section, creating it empty if it is new. Other
      mnemonics pass through. */
  function Directive(p: Program, m: Mnemonic, st: OpState): (r: AsmResult<Program>)
    ensures m !in {Dfb, Dfw, Sct} ==> r == Ok(p)
    ensures m == Dfb && st.Plain? && st.v.Byte? ==> r == EmitActive(p, [st.v.b])
    ensures m == Dfb && st.Plain? && st.v.Ref? && st.v.r.whichByte != Both ==> r == EmitActive(p, [0])
    ensures m == Dfb && !(st.Plain? && (st.v.Byte? || (st.v.Ref? && st.v.r.whichByte != Both))) ==>
      r == Err(InvalidDfb)
    ensures m == Dfw && st.Plain? && st.v.Word? ==> r == EmitActive(p, LeU16(st.v.w))
    ensures m == Dfw && st.Plain? && st.v.Ref? && st.v.r.whichByte == Both ==> r == EmitActive(p, [0, 0])
    ensures m == Dfw && !(st.Plain? && (st.v.Word? || (st.v.Ref? && st.v.r.whichByte == Both))) ==>
      r == Err(InvalidDfw)
    ensures m == Sct && !(st.Plain? && st.v.Ref?) ==> r == Err(InvalidSct)
    ensures m == Sct && st.Plain? && st.v.Ref? && st.v.r.child.Some? ==> r == Err(SctNeedsSimpleName)
    ensures m == Sct && r.Ok? ==>
      && r.value.active == st.v.r.parent
      && r.value.sections.Keys == p.sections.Keys + {st.v.r.parent}
      && (forall n :: n in p.sections ==> r.value.sections[n] == p.sections[n])
      && (st.v.r.parent !in p.sections ==> r.value.sections[st.v.r.parent] == DefaultSection)
      && r.value.(active := p.active, sections := p.sections) == p
  {
    match m
    case Dfb =>
      (match st
       case Plain(Byte(b)) => EmitActive(p, [b])
       case Plain(Ref(rf)) => if rf.whichByte != Both then EmitActive(p, [0]) else Err(InvalidDfb)
       case _ => Err(InvalidDfb))
    case Dfw =>
      (match st
       case Plain(Word(w)) => EmitActive(p, LeU16(w))
       case Plain(Ref(rf)) => if rf.whichByte == Both then EmitActive(p, [0, 0]) else Err(InvalidDfw)
       case _ => Err(InvalidDfw))
    case Sct =>
      (match st
       case Plain(Ref(rf)) =>
         if rf.child.Some? then Err(SctNeedsSimpleName)
         else
           var sections := if rf.parent in p.sections then p.sections else p.sections[rf.parent := DefaultSection];
           Ok(p.(active := rf.parent, sections := sections))
       case _ => Err(InvalidSct))
    case _ => Ok(p)
  }

  /** The operand bytes of an instruction: none for implied and accumulator
      operands, else the value, a word low byte first. */
  function OperandBytes(mode: AddressMode, v: OpVal): (r: seq<byte>)
    requires !v.Ref?
    ensures mode in {AddressMode.Impl, AddressMode.Acc} ==> r == []
    ensures mode !in {AddressMode.Impl, AddressMode.Acc} && v.Byte? ==> r == [v.b]
    ensures mode !in {AddressMode.Impl, AddressMode.Acc} && v.Word? ==> ReadU16(r) == Some((v.w, []))
  {
    if mode == AddressMode.Impl || mode == AddressMode.Acc then []
    else
      match v
      case Byte(b) => [b]
      case Word(w) => U16RoundTrip(w, []); assert LeU16(w) + [] == LeU16(w); LeU16(w)
  }

  /** The bytes of a finished instruction, if its mode has an encoding. */
  function Encoding(m: Mnemonic, st: OpState): (r: Option<seq<byte>>)
    ensures r.Some? <==> Destruct(st).Some? && Opcode(m, Destruct(st).value.0).Some?
    ensures r.Some? ==> r.value == [Opcode(m, ModeOf(st)).value] + OperandBytes(ModeOf(st), Destruct(st).value.1)
  {
    match Destruct(st)
    case None => None
    case Some((mode, v)) =>
      match Opcode(m, mode)
      case None => None
      case Some(opc) => Some([opc] + OperandBytes(mode, v))
  }

  /** Lifts a missing value to the given error. */
  function Need<T>(o: Option<T>, e: AsmError): (r: AsmResult<T>)
    ensures o.Some? <==> r.Ok?
    ensures r.Ok? ==> r.value == o.value
    ensures r.Err? ==> r.error == e
  {
    match o
    case Some(v) => Ok(v)
    case None => Err(e)
  }

  /** `eol`: a line without a mnemonic drops the pending operand and
      changes nothing else; otherwise a missing operand is implied, a
      directive runs first, and the instruction's opcode and operand bytes
      are appended to the active section, after which the context moves to
      the start of the next line with no pending visibility. What it
      promises is stated by `EolErrors` and `EolEffect`. */
  function Eol(p: Program): (r: AsmResult<Program>)
    ensures p.ins.None? ==> r == Ok(p.(ins := None, op := None))
  {
    match p.ins
    case None => Ok(p.(ins := None, op := None))
    case Some(m) =>
      var st := p.op.GetOr(OpState.Impl);
      var q := p.(ins := None, op := None);
      var q :- Directive(q, m, st);
      var mv :- Need(Destruct(st), InvalidOperand);
      var s :- ActiveSection(q);
      var opc :- Need(Opcode(m, mv.0), InvalidCombination);
      var t :- InsertBytes(s, [opc] + OperandBytes(mv.0, mv.1));
      Ok(UpdateActive(q, t).(line := q.line + 1, vis := None, startLine := true))
  }

  /** When an instruction line fails: an operand with no address mode, a
      missing active section, a mode the mnemonic lacks, or code that would
      grow past the largest size. It succeeds exactly when the encoding fits. */
  lemma EolErrors(p: Program)
    requires p.ins.Some? && !IsDirective(p.ins.value)
    ensures
      var m := p.ins.value;
      var st := p.op.GetOr(OpState.Impl);
      var r := Eol(p);
      && (Destruct(st).None? ==> r == Err(InvalidOperand))
      && (Destruct(st).Some? && p.active !in p.sections ==> r == Err(Panic))
      && (Destruct(st).Some? && p.active in p.sections && Opcode(m, ModeOf(st)).None? ==>
            r == Err(InvalidCombination))
      && (Encoding(m, st).Some? && p.active in p.sections ==>
            var code := p.sections[p.active].code;
            && (r.Ok? <==> |code| + |Encoding(m, st).value| <= MaxSize)
            && (r.Err? && |code| <= MaxSize ==> r.error == ProgramTooLarge))
  {
  }

  /** A completed instruction line: the line was no directive, the encoding
      exists and is appended to the active section, which stays within the
      largest size, no other section changes, and the context is at the
      start of the next line with no pending mnemonic, operand or
      visibility. */
  lemma EolEffect(p: Program)
    requires p.ins.Some? && Eol(p).Ok?
    ensures
      var r := Eol(p);
      var st := p.op.GetOr(OpState.Impl);
      && !IsDirective(p.ins.value)
      && Encoding(p.ins.value, st).Some?
      && p.active in p.sections && r.value.sections.Keys == p.sections.Keys
      && r.value.sections[p.active].code == p.sections[p.active].code + Encoding(p.ins.value, st).value
      && |r.value.sections[p.active].code| <= MaxSize
      && r.value.sections[p.active].(code := p.sections[p.active].code) == p.sections[p.active]
      && (forall n :: n in p.sections && n != p.active ==> r.value.sections[n] == p.sections[n])
      && r.value.line == p.line + 1 && r.value.vis.None? && r.value.startLine
      && r.value.ins.None? && r.value.op.None? && r.value.active == p.active
  {
    var m := p.ins.value;
    var st := p.op.GetOr(OpState.Impl);
    if IsDirective(m) {
      DirectiveLinesFail(p);
      assert false;
    }
    var q := p.(ins := None, op := None);
    assert Directive(q, m, st) == Ok(q);
    var mv := Destruct(st).value;
    var s := p.sections[p.active];
    var bs := [Opcode(m, mv.0).value] + OperandBytes(mv.0, mv.1);
    assert Encoding(m, st) == Some(bs);
    var t := InsertBytes(s, bs).value;
    assert Eol(p) == Ok(UpdateActive(q, t).(line := q.line + 1, vis := None, startLine := true));
  }

  /** The directives never complete a line: after `dfb`, `dfw` or `sct` has
      done its work the line still goes to the opcode table, whose directive
      rows are empty, and `hlt` has no encoding either. */
  lemma DirectiveLinesFail(p: Program)
    requires p.ins.Some? && IsDirective(p.ins.value)
    ensures Eol(p).Err?
    ensures Directive(p.(ins := None, op := None), p.ins.value, p.op.GetOr(OpState.Impl)).Ok? ==>
      Eol(p).error in {InvalidOperand, InvalidCombination, Panic}
  {
    var m := p.ins.value;
    var st := p.op.GetOr(OpState.Impl);
    var d := Directive(p.(ins := None, op := None), m, st);
    if d.Ok? {
      if Destruct(st).None? {
        assert Eol(p) == Err(InvalidOperand);
      } else if d.value.active !in d.value.sections {
        assert Eol(p) == Err(Panic);
      } else {
        DirectivesHaveNoOpcode(m, Destruct(st).value.0);
        assert Eol(p) == Err(InvalidCombination);
      }
    }
  }

  /** The first byte an instruction line emits decodes back to its mnemonic
      and mode (`ldx` zero-page-X reads back as zero-page-Y), and the rest is
      its operand. */
  lemma EmittedInstructionDecodes(p: Program)
    requires p.ins.Some? && Eol(p).Ok?
    ensures p.active in p.sections && p.active in Eol(p).value.sections
    ensures |Eol(p).value.sections[p.active].code| > |p.sections[p.active].code|
    ensures
      var m := p.ins.value;
      var st := p.op.GetOr(OpState.Impl);
      var mode := ModeOf(st);
      var old_ := p.sections[p.active].code;
      var new_ := Eol(p).value.sections[p.active].code;
      && Disassemble(new_[|old_|]) == Some((m, if (m, mode) == (Ldx, AddressMode.ZpgX) then AddressMode.ZpgY else mode))
      && new_[|old_| + 1..] == OperandBytes(mode, Destruct(st).value.1)
  {
    var st := p.op.GetOr(OpState.Impl);
    EolEffect(p);
    OpcodeDisassembles(p.ins.value, ModeOf(st));
  }

  /** An implied or accumulator instruction is one byte, one with a byte
      operand two and one with a word operand three. */
  lemma InstructionLength(m: Mnemonic, st: OpState)
    requires Encoding(m, st).Some?
    ensures ModeOf(st) in {AddressMode.Impl, AddressMode.Acc} ==> |Encoding(m, st).value| == 1
    ensures ModeOf(st) !in {AddressMode.Impl, AddressMode.Acc} && Destruct(st).value.1.Byte? ==>
      |Encoding(m, st).value| == 2
    ensures ModeOf(st) !in {AddressMode.Impl, AddressMode.Acc} && Destruct(st).value.1.Word? ==>
      |Encoding(m, st).value| == 3
  {
  }
}

=== FILE: lnformats.dfy ===
/** The linker's view of the object format (`s502-ln/src/formats.rs`): the
    section it reads, its labels and references, the numeric codes of the
    two enumerations, relocation groups, and the resolution rules the format
    documents for the placement step. */
module LnFormats {
  import opened Wrappers
  import opened Bytes

  datatype ByteSelect = Both | High | Low

  datatype Visibility = Hidden | Object | Global

  /** `FromPrimitive` for `ByteSelect`: 0, 1 and 2 in declaration order,
      anything else is not a selector. */
  function SelectFromCode(code: nat): (r: Option<ByteSelect>)
    ensures r.Some? <==> code < 3
    ensures r == Some(Both) <==> code == 0
    ensures r == Some(High) <==> code == 1
    ensures r == Some(Low) <==> code == 2
  {
    if code == 0 then Some(Both)
    else if code == 1 then Some(High)
    else if code == 2 then Some(Low)
    else None
  }

  /** `FromPrimitive` for `Visibility`. */
  function VisFromCode(code: nat): (r: Option<Visibility>)
    ensures r.Some? <==> code < 3
    ensures r == Some(Hidden) <==> code == 0
    ensures r == Some(Object) <==> code == 1
    ensures r == Some(Global) <==> code == 2
  {
    if code == 0 then Some(Hidden)
    else if code == 1 then Some(Object)
    else if code == 2 then Some(Global)
    else None
  }

  datatype Label = Label(vis: Visibility, offset: nat)

  /** A reference keeps its referred name as the 64 raw bytes of the file. */
  datatype Reference = Reference(referred: seq<byte>, offset: nat, whichByte: ByteSelect, branch: bool)

  /** A section as read and merged. Only the significant bytes of the code
      are kept, so the source's `size` is `|code|`; label keys are the raw
      name bytes (a root's 32, or a parent's 32, a period and a child's 32);
      `objects` maps a contributing file to the byte range it added. */
  datatype Section = Section(
    code: seq<byte>,
    labels: map<seq<byte>, Label>,
    references: seq<Reference>,
    base: nat,
    objects: map<string, (nat, nat)>)

  /** The prefix of a buffer before its first NUL. */
  function UntilNul(bs: seq<byte>): (r: seq<byte>)
    ensures |r| <= |bs| && r == bs[..|r|]
    ensures 0 !in r
    ensures |r| < |bs| ==> bs[|r|] == 0
    decreases |bs|
  {
    if |bs| == 0 || bs[0] == 0 then [] else [bs[0]] + UntilNul(bs[1..])
  }

  /** A referred name is `parent` or `parent.child`: the text before the
      first NUL, split at its first period. */
  function ReferredParts(buf: seq<byte>): (r: (seq<byte>, Option<seq<byte>>))
    ensures '.' as byte !in r.0
    ensures r.1.None? ==> r.0 == UntilNul(buf)
    ensures r.1.Some? ==> r.0 + ['.' as byte] + r.1.value == UntilNul(buf)
  {
    var text := UntilNul(buf);
    SplitAtPeriod(text)
  }

  function SplitAtPeriod(text: seq<byte>): (r: (seq<byte>, Option<seq<byte>>))
    ensures '.' as byte !in r.0
    ensures r.1.None? ==> r.0 == text
    ensures r.1.Some? ==> r.0 + ['.' as byte] + r.1.value == text
    decreases |text|
  {
    if |text| == 0 then ([], None)
    else if text[0] == '.' as byte then ([], Some(text[1..]))
    else
      var (p, c) := SplitAtPeriod(text[1..]);
      ([text[0]] + p, c)
  }

  /** Scope of a hidden child: a reference at `refOffset` reaches it only
      from between its parent's offset and the next parent's offset. */
  predicate HiddenChildResolves(parentOffset: nat, nextParentOffset: nat, refOffset: nat) {
    parentOffset <= refOffset < nextParentOffset
  }

  /** Who may refer to a label: a hidden child only from its parent's scope
      in the same object, an object label from the same object, a global one
      from anywhere. */
  predicate MayRefer(vis: Visibility, sameObject: bool, inParentScope: bool) {
    match vis
    case Hidden => sameObject && inParentScope
    case Object => sameObject
    case Global => true
  }

  /** Widening the visibility never loses a reference that resolved. */
  lemma VisibilityNested(sameObject: bool, inParentScope: bool)
    ensures MayRefer(Hidden, sameObject, inParentScope) ==> MayRefer(Object, sameObject, inParentScope)
    ensures MayRefer(Object, sameObject, inParentScope) ==> MayRefer(Global, sameObject, inParentScope)
    ensures MayRefer(Global, sameObject, inParentScope)
  {
  }

  /** Two's-complement value of a byte. */
  function Signed(b: byte): (r: int)
    ensures -128 <= r < 128
    ensures r % 0x100 == b
  {
    if b < 0x80 then b else b - 0x100
  }

  /** The byte a branch reference receives: the label's address less the
      address after the operand byte, which must fit a signed byte. */
  function BranchDisplacement(labelAddress: nat, refOffset: nat): (r: Option<byte>)
    ensures r.Some? <==> -128 <= labelAddress - (refOffset + 1) <= 127
    ensures r.Some? ==> Signed(r.value) == labelAddress - (refOffset + 1)
  {
    var d := labelAddress - (refOffset + 1);
    if -128 <= d <= 127 then Some(d % 0x100) else None
  }

  /** The bytes a non-branch reference receives from a 16-bit address: both
      bytes low first, or only the high or the low byte. */
  function SelectedBytes(which: ByteSelect, address: u16): (r: seq<byte>)
    ensures which == Both ==> ReadU16(r) == Some((address, []))
    ensures which != Both ==> |r| == 1
    ensures which == High ==> r[0] == address / 0x100
    ensures which == Low ==> r[0] == address % 0x100
  {
    match which
    case Both => U16RoundTrip(address, []); assert LeU16(address) + [] == LeU16(address); LeU16(address)
    case High => [address / 0x100]
    case Low => [address % 0x100]
  }

  /** The high and the low byte together give the address back. */
  lemma HighLowRecombine(address: u16)
    ensures SelectedBytes(High, address)[0] as int * 0x100 + SelectedBytes(Low, address)[0] as int == address
  {
  }

  /** What a reference is patched with: a branch takes the displacement and
      ignores its selector. */
  function Patch(rf: Reference, labelAddress: u16): (r: Option<seq<byte>>)
    ensures rf.branch ==> r.Some? == BranchDisplacement(labelAddress, rf.offset).Some?
    ensures rf.branch && r.Some? ==> |r.value| == 1 && Signed(r.value[0]) == labelAddress - (rf.offset + 1)
    ensures !rf.branch ==> r == Some(SelectedBytes(rf.whichByte, labelAddress))
  {
    if rf.branch then
      var d :- BranchDisplacement(labelAddress, rf.offset);
      Some([d])
    else Some(SelectedBytes(rf.whichByte, labelAddress))
  }

  /** A branch patch does not depend on the byte selector. */
  lemma BranchIgnoresSelector(rf: Reference, which: ByteSelect, labelAddress: u16)
    requires rf.branch
    ensures Patch(rf.(whichByte := which), labelAddress) == Patch(rf, labelAddress)
  {
  }

  /** A group of sections placed together. The script parser fills the
      start offset and the optional end; the format declares these as
      `address` and `max_size`, and orders groups by the start alone. */
  datatype RelocGroup = RelocGroup(relocations: seq<string>, offset: nat, maxOffset: Option<nat>)

  datatype Ordering = Less | Equal | Greater

  /** `RelocGroup::eq` */
  predicate GroupEq(a: RelocGroup, b: RelocGroup) {
    a.offset == b.offset
  }

  /** `RelocGroup::cmp` */
  function GroupCmp(a: RelocGroup, b: RelocGroup): (r: Ordering)
    ensures r == Equal <==> GroupEq(a, b)
    ensures r == Less <==> a.offset < b.offset
  {
    if a.offset < b.offset then Less else if a.offset == b.offset then Equal else Greater
  }

  /** Comparison and equality depend on the start offset only: groups with
      different sections or limits at the same offset are equal. */
  lemma GroupOrderByOffset(a: RelocGroup, b: RelocGroup, a2: RelocGroup, b2: RelocGroup)
    requires a.offset == a2.offset && b.offset == b2.offset
    ensures GroupCmp(a, b) == GroupCmp(a2, b2)
    ensures GroupEq(a, b) == GroupEq(a2, b2)
  {
  }

  /** The order is total: antisymmetric and transitive. */
  lemma GroupOrderTotal(a: RelocGroup, b: RelocGroup, c: RelocGroup)
    ensures GroupCmp(a, b) == Less <==> GroupCmp(b, a) == Greater
    ensures GroupCmp(a, b) == Less && GroupCmp(b, c) == Less ==> GroupCmp(a, c) == Less
    ensures GroupCmp(a, b) == Equal && GroupCmp(b, c) == Equal ==> GroupCmp(a, c) == Equal
  {
  }
}

=== FILE: lnobject.dfy ===
/** Reading the linker's inputs (`s502-ln/src/object.rs`): object files and
    symbol tables decoded from bytes, and the merge of same-named sections
    across objects. The source reads through a buffered file and ignores
    short reads; here a decoder that runs out of bytes fails instead. */
module LnObject {
  import opened Wrappers
  import opened Bytes
  import opened LnFormats

  datatype ReadError =
    | Truncated    // the input ends inside a record
    | InvalidData  // a visibility or byte selector outside 0..2
    | Oversized    // a padded payload longer than the 65536-byte code buffer

  type ReadResult<T> = Result<T, ReadError>

  /** Lifts a read that ran out of input. */
  function Take<T>(o: Option<T>): (r: ReadResult<T>)
    ensures r.Ok? <==> o.Some?
    ensures r.Ok? ==> r.value == o.value
    ensures r.Err? ==> r.error == Truncated
  {
    match o
    case Some(v) => Ok(v)
    case None => Err(Truncated)
  }

  /** Lifts a failed `FromPrimitive` conversion. */
  function Valid<T>(o: Option<T>): (r: ReadResult<T>)
    ensures r.Ok? <==> o.Some?
    ensures r.Ok? ==> r.value == o.value
    ensures r.Err? ==> r.error == InvalidData
  {
    match o
    case Some(v) => Ok(v)
    case None => Err(InvalidData)
  }

  /** A label as read: its key and its record, before it goes into the
      section's map. */
  type LabelEntry = (seq<byte>, Label)

  /** The map the entries build when inserted in order: a later key
      replaces an earlier one. */
  function LabelMap(entries: seq<LabelEntry>): (m: map<seq<byte>, Label>)
    ensures forall i :: 0 <= i < |entries| ==> entries[i].0 in m
    ensures forall k :: k in m ==> exists i :: 0 <= i < |entries| && entries[i].0 == k && m[k] == entries[i].1
    ensures forall i :: 0 <= i < |entries| && LastOfKey(entries, i) ==> m[entries[i].0] == entries[i].1
    decreases |entries|
  {
    if |entries| == 0 then map[]
    else
      var last := entries[|entries| - 1];
      var init := entries[..|entries| - 1];
      assert entries == init + [last];
      LabelMapStep(init, last, LabelMap(init));
      LabelMap(init)[last.0 := last.1]
  }

  /** One insertion keeps the three properties of `LabelMap`. */
  lemma LabelMapStep(init: seq<LabelEntry>, last: LabelEntry, m: map<seq<byte>, Label>)
    requires forall i :: 0 <= i < |init| ==> init[i].0 in m
    requires forall k :: k in m ==> exists i :: 0 <= i < |init| && init[i].0 == k && m[k] == init[i].1
    requires forall i :: 0 <= i < |init| && LastOfKey(init, i) ==> m[init[i].0] == init[i].1
    ensures var entries, m' := init + [last], m[last.0 := last.1];
      && (forall i :: 0 <= i < |entries| ==> entries[i].0 in m')
      && (forall k :: k in m' ==> exists i :: 0 <= i < |entries| && entries[i].0 == k && m'[k] == entries[i].1)
      && (forall i :: 0 <= i < |entries| && LastOfKey(entries, i) ==> m'[entries[i].0] == entries[i].1)
  {
    var entries, m' := init + [last], m[last.0 := last.1];
    forall k | k in m'
      ensures exists i :: 0 <= i < |entries| && entries[i].0 == k && m'[k] == entries[i].1
    {
      if k == last.0 {
        assert entries[|init|] == last;
      } else {
        var i :| 0 <= i < |init| && init[i].0 == k && m[k] == init[i].1;
        assert entries[i] == init[i];
      }
    }
    forall i | 0 <= i < |entries| && LastOfKey(entries, i)
      ensures m'[entries[i].0] == entries[i].1
    {
      if i < |init| {
        assert entries[|init|] == last;
        assert entries[i] == init[i];
        assert forall j :: i < j < |init| ==> init[j] == entries[j];
        assert LastOfKey(init, i);
      }
    }
  }

  /** No later entry has the key of entry `i`. */
  predicate LastOfKey(entries: seq<LabelEntry>, i: nat)
    requires i < |entries|
  {
    forall j :: i < j < |entries| ==> entries[j].0 != entries[i].0
  }

  /** The child records of one parent: a 32-byte name, the offset and the
      visibility; the key is the parent's key, a period and the name. */
  function ReadChildren(bs: seq<byte>, parent: seq<byte>, n: nat): (r: ReadResult<(seq<LabelEntry>, seq<byte>)>)
    ensures r.Ok? ==> |r.value.0| == n && |bs| == 40 * n + |r.value.1| && r.value.1 == bs[40 * n..]
    ensures r.Ok? ==> forall i :: 0 <= i < n ==>
      |r.value.0[i].0| == |parent| + 33 && r.value.0[i].0[..|parent| + 1] == parent + ['.' as byte]
    decreases n
  {
    if n == 0 then Ok(([], bs))
    else
      var name :- Take(ReadBytes(bs, 32));
      var offset :- Take(ReadU32(name.1));
      var code :- Take(ReadU32(offset.1));
      var vis :- Valid(VisFromCode(code.0));
      var more :- ReadChildren(code.1, parent, n - 1);
      var key := parent + ['.' as byte] + name.0;
      assert key[..|parent| + 1] == parent + ['.' as byte];
      assert code.1 == bs[40..];
      assert more.1 == bs[40..][40 * (n - 1)..];
      Ok(([(key, Label(vis, offset.0))] + more.0, more.1))
  }

  /** The root records, each with its 32-byte name, child count, offset and
      visibility, followed by its children. */
  function ReadRoots(bs: seq<byte>, n: nat): (r: ReadResult<(seq<LabelEntry>, seq<byte>)>)
    ensures r.Ok? ==> SuffixOf(r.value.1, bs)
    ensures r.Ok? ==> |r.value.0| >= n
    decreases n
  {
    if n == 0 then Ok(([], bs))
    else
      var name :- Take(ReadBytes(bs, 32));
      var count :- Take(ReadU32(name.1));
      var offset :- Take(ReadU32(count.1));
      var code :- Take(ReadU32(offset.1));
      var vis :- Valid(VisFromCode(code.0));
      var children :- ReadChildren(code.1, name.0, count.0);
      var more :- ReadRoots(children.1, n - 1);
      assert code.1 == bs[44..];
      DropIsSuffix(bs, 44);
      DropIsSuffix(code.1, 40 * count.0);
      SuffixTrans(children.1, code.1, bs);
      SuffixTrans(more.1, children.1, bs);
      Ok(([(name.0, Label(vis, offset.0))] + children.0 + more.0, more.1))
  }

  /** The reference records: the 64-byte referred name, the offset, the byte
      selector and the branch flag, which is set only by the value 1. */
  function ReadReferences(bs: seq<byte>, n: nat): (r: ReadResult<(seq<Reference>, seq<byte>)>)
    ensures r.Ok? ==> |r.value.0| == n && |bs| == 72 * n + |r.value.1| && r.value.1 == bs[72 * n..]
    ensures r.Ok? ==> forall i :: 0 <= i < n ==> |r.value.0[i].referred| == 64
    decreases n
  {
    if n == 0 then Ok(([], bs))
    else
      var name :- Take(ReadBytes(bs, 64));
      var offset :- Take(ReadU32(name.1));
      var which :- Take(ReadU16(offset.1));
      var flag :- Take(ReadU16(which.1));
      var sel :- Valid(SelectFromCode(which.0));
      var more :- ReadReferences(flag.1, n - 1);
      assert flag.1 == bs[72..];
      assert more.1 == bs[72..][72 * (n - 1)..];
      Ok(([Reference(name.0, offset.0, sel, flag.0 == 1)] + more.0, more.1))
  }

  /** One section: the header (name, size, root count, reference count),
      the labels, the references and the payload padded to four bytes, of
      which the first `size` are the code. */
  function ReadSection(bs: seq<byte>): (r: ReadResult<((seq<byte>, Section), seq<byte>)>)
    ensures r.Ok? ==> |bs| >= 44 && r.value.0.0 == bs[..32]
    ensures r.Ok? ==> r.value.0.1.base == 0 && r.value.0.1.objects == map[]
    ensures r.Ok? ==> |r.value.0.1.code| <= 0x1_0000 && |r.value.1| < |bs|
    ensures r.Ok? ==> SuffixOf(r.value.1, bs)
  {
    var name :- Take(ReadBytes(bs, 32));
    var size :- Take(ReadU32(name.1));
    var roots :- Take(ReadU32(size.1));
    var count :- Take(ReadU32(roots.1));
    var labels :- ReadRoots(count.1, roots.0);
    var refs :- ReadReferences(labels.1, count.0);
    if PaddedLen(size.0) > 0x1_0000 then Err(Oversized)
    else
      var payload :- Take(ReadBytes(refs.1, PaddedLen(size.0)));
      assert count.1 == bs[44..];
      assert payload.1 == refs.1[PaddedLen(size.0)..];
      DropIsSuffix(bs, 44);
      DropIsSuffix(labels.1, 72 * count.0);
      DropIsSuffix(refs.1, PaddedLen(size.0));
      SuffixTrans(labels.1, count.1, bs);
      SuffixTrans(refs.1, labels.1, bs);
      SuffixTrans(payload.1, refs.1, bs);
      Ok(((name.0, Section(payload.0[..size.0], LabelMap(labels.0), refs.0, 0, map[])), payload.1))
  }

  /** `n` items read one after the other, each from what the previous one
      left; the first failure ends the reading. */
  function ReadMany<T>(read: seq<byte> -> ReadResult<(T, seq<byte>)>, bs: seq<byte>, n: nat): (r: ReadResult<seq<T>>)
    ensures r.Ok? ==> |r.value| == n
    decreases n
  {
    if n == 0 then Ok([])
    else
      var first :- read(bs);
      var more :- ReadMany(read, first.1, n - 1);
      Ok([first.0] + more)
  }

  /** One item in front of items the reader handles. */
  lemma ReadManyStep<T>(read: seq<byte> -> ReadResult<(T, seq<byte>)>, bs: seq<byte>, n: nat, m: nat,
                        first: T, tail: seq<byte>, more: seq<T>)
    requires n == m + 1 && read(bs) == Ok((first, tail)) && ReadMany(read, tail, m) == Ok(more)
    ensures ReadMany(read, bs, n) == Ok([first] + more)
  {
  }

  /** The sections of an object, as many as its header announces. */
  function ReadSections(bs: seq<byte>, n: nat): (r: ReadResult<seq<(seq<byte>, Section)>>)
    ensures r.Ok? ==> |r.value| == n
  {
    ReadMany(ReadSection, bs, n)
  }

  /** A root record whose visibility is not 0, 1 or 2 is invalid data. */
  lemma BadVisibilityRejected(name: seq<byte>, count: nat, offset: nat, code: nat, rest: seq<byte>)
    requires |name| == 32 && count < U32_LIMIT && offset < U32_LIMIT && 3 <= code < U32_LIMIT
    ensures ReadRoots(name + LeU32(count) + LeU32(offset) + LeU32(code) + rest, 1) == Err(InvalidData)
  {
    var bs := name + LeU32(count) + LeU32(offset) + LeU32(code) + rest;
    assert bs[..32] == name && bs[32..] == LeU32(count) + (LeU32(offset) + (LeU32(code) + rest));
    U32RoundTrip(count, LeU32(offset) + (LeU32(code) + rest));
    U32RoundTrip(offset, LeU32(code) + rest);
    U32RoundTrip(code, rest);
  }

  /** A reference record whose selector is not 0, 1 or 2 is invalid data;
      otherwise it reads back its fields, and its branch flag is set exactly
      when the stored value is 1. */
  lemma ReferenceRecordFields(buf: seq<byte>, offset: nat, which: u16, flag: u16, rest: seq<byte>)
    requires |buf| == 64 && offset < U32_LIMIT
    ensures var r := ReadReferences(buf + LeU32(offset) + LeU16(which) + LeU16(flag) + rest, 1);
      && (which >= 3 ==> r == Err(InvalidData))
      && (which < 3 ==> r == Ok(([Reference(buf, offset, SelectFromCode(which).value, flag == 1)], rest)))
  {
    var bs := buf + LeU32(offset) + LeU16(which) + LeU16(flag) + rest;
    assert bs[..64] == buf && bs[64..] == LeU32(offset) + (LeU16(which) + (LeU16(flag) + rest));
    U32RoundTrip(offset, LeU16(which) + (LeU16(flag) + rest));
    U16RoundTrip(which, LeU16(flag) + rest);
    U16RoundTrip(flag, rest);
    assert ReadReferences(rest, 0) == Ok(([], rest));
    if which < 3 {
      var rf := Reference(buf, offset, SelectFromCode(which).value, flag == 1);
      assert [rf] + [] == [rf];
    }
  }

  /** `read_object`: the section count and that many sections, in file
      order. Bytes after the last section are ignored. */
  function ReadObject(bs: seq<byte>): (r: ReadResult<seq<(seq<byte>, Section)>>)
    ensures r.Ok? ==> |bs| >= 4 && |r.value| == Le32Value(bs[0], bs[1], bs[2], bs[3])
  {
    var count :- Take(ReadU32(bs));
    ReadSections(count.1, count.0)
  }

  /** The sections a read object yields when collected into a map: a later
      section of the same name replaces an earlier one. They are kept in file
      order. */
  function LastOccurrences(rs: seq<(seq<byte>, Section)>): (r: seq<(seq<byte>, Section)>)
    ensures forall i, j :: 0 <= i < j < |r| ==> r[i].0 != r[j].0
    ensures SectionNames(r) == SectionNames(rs)
    decreases |rs|
  {
    if |rs| == 0 then []
    else
      var rest := LastOccurrences(rs[1..]);
      if rs[0].0 in SectionNames(rs[1..]) then rest
      else
        var r := [rs[0]] + rest;
        assert r[1..] == rest;
        assert forall j :: 0 <= j < |rest| ==> rest[j].0 in SectionNames(rest) by {
          forall j | 0 <= j < |rest| ensures rest[j].0 in SectionNames(rest) {
            NameListed(rest, j);
          }
        }
        r
  }

  /** The names of a list of sections. */
  function SectionNames(rs: seq<(seq<byte>, Section)>): set<seq<byte>>
    decreases |rs|
  {
    if |rs| == 0 then {} else {rs[0].0} + SectionNames(rs[1..])
  }

  lemma {:induction false} NameListed(rs: seq<(seq<byte>, Section)>, j: nat)
    requires j < |rs|
    ensures rs[j].0 in SectionNames(rs)
    decreases j
  {
    if j > 0 {
      NameListed(rs[1..], j - 1);
    }
  }

  /** The names of a list of sections are the names at its positions. */
  lemma {:induction false} SectionNamesAt(rs: seq<(seq<byte>, Section)>)
    ensures SectionNames(rs) == set i | 0 <= i < |rs| :: rs[i].0
    decreases |rs|
  {
    if |rs| > 0 {
      SectionNamesAt(rs[1..]);
      assert (set i | 0 <= i < |rs| :: rs[i].0) == {rs[0].0} + (set i | 0 <= i < |rs[1..]| :: rs[1..][i].0);
    }
  }

  /** Every section kept is the last one of its name. */
  lemma {:induction false} LastOccurrencesAreLast(rs: seq<(seq<byte>, Section)>, j: nat)
    requires j < |LastOccurrences(rs)|
    ensures exists i :: 0 <= i < |rs| && rs[i] == LastOccurrences(rs)[j] && NoLaterName(rs, i)
    decreases |rs|
  {
    var rest := LastOccurrences(rs[1..]);
    var later := SectionNames(rs[1..]);
    if rs[0].0 in later || j > 0 {
      var j' := if rs[0].0 in later then j else j - 1;
      LastOccurrencesAreLast(rs[1..], j');
      var i :| 0 <= i < |rs[1..]| && rs[1..][i] == rest[j'] && NoLaterName(rs[1..], i);
      assert rs[i + 1] == rs[1..][i];
      assert NoLaterName(rs, i + 1) by {
        forall k | i + 1 < k < |rs| ensures rs[k].0 != rs[i + 1].0 {
          assert rs[k] == rs[1..][k - 1];
        }
      }
    } else {
      assert NoLaterName(rs, 0) by {
        forall k | 0 < k < |rs| ensures rs[k].0 != rs[0].0 {
          assert rs[k] == rs[1..][k - 1];
          NameListed(rs[1..], k - 1);
        }
      }
    }
  }

  predicate NoLaterName(rs: seq<(seq<byte>, Section)>, i: nat)
    requires i < |rs|
  {
    forall k :: i < k < |rs| ==> rs[k].0 != rs[i].0
  }

  /** A symbol: its 64-byte name and its address. */
  type Symbol = (seq<byte>, nat)

  datatype SymtabError = SymtabTruncated | RepeatedSymbol(name: seq<byte>)

  /** The symbol records of one table; a name already seen is an error. */
  function ReadSymbols(bs: seq<byte>, n: nat, seen: set<seq<byte>>): (r: Result<seq<Symbol>, SymtabError>)
    ensures r.Ok? ==> |r.value| == n
    ensures r.Ok? ==> forall i :: 0 <= i < n ==> |r.value[i].0| == 64 && r.value[i].0 !in seen && r.value[i].1 < U32_LIMIT
    ensures r.Ok? ==> forall i, j :: 0 <= i < j < n ==> r.value[i].0 != r.value[j].0
    ensures r.Err? && r.error.RepeatedSymbol? ==> |r.error.name| == 64
    decreases n
  {
    if n == 0 then Ok([])
    else if |bs| < 68 then Err(SymtabTruncated)
    else
      var name := bs[..64];
      var address := ReadU32(bs[64..]).value;
      if name in seen then Err(RepeatedSymbol(name))
      else
        var more :- ReadSymbols(address.1, n - 1, seen + {name});
        Ok([(name, address.0)] + more)
  }

  /** `read_symtab`: the symbol count and that many symbols, in file order,
      every name at most once. */
  function ReadSymtab(bs: seq<byte>): (r: Result<seq<Symbol>, SymtabError>)
    ensures r.Ok? ==> |bs| >= 4 && |r.value| == Le32Value(bs[0], bs[1], bs[2], bs[3])
    ensures r.Ok? ==> forall i, j :: 0 <= i < j < |r.value| ==> r.value[i].0 != r.value[j].0
  {
    if |bs| < 4 then Err(SymtabTruncated)
    else
      var count := ReadU32(bs).value;
      ReadSymbols(count.1, count.0, {})
  }

  /** The symbol table format: a count, then per symbol its 64-byte name and
      its address. */
  function SymtabBytes(syms: seq<Symbol>): seq<byte>
    requires |syms| < U32_LIMIT
    requires forall i :: 0 <= i < |syms| ==> |syms[i].0| == 64 && syms[i].1 < U32_LIMIT
  {
    LeU32(|syms|) + SymbolRecords(syms)
  }

  function SymbolRecords(syms: seq<Symbol>): (r: seq<byte>)
    requires forall i :: 0 <= i < |syms| ==> |syms[i].0| == 64
    ensures |r| == 68 * |syms|
    decreases |syms|
  {
    if |syms| == 0 then []
    else syms[0].0 + LeU32(syms[0].1) + SymbolRecords(syms[1..])
  }

  predicate DistinctNames(syms: seq<Symbol>) {
    forall i, j :: 0 <= i < j < |syms| ==> syms[i].0 != syms[j].0
  }

  /** Names that are pairwise distinct and all new. */
  predicate FreshNames(syms: seq<Symbol>, seen: set<seq<byte>>) {
    DistinctNames(syms) && forall i :: 0 <= i < |syms| ==> syms[i].0 !in seen
  }

  lemma FreshNamesCons(syms: seq<Symbol>, seen: set<seq<byte>>)
    requires |syms| > 0
    ensures FreshNames(syms, seen) <==> syms[0].0 !in seen && FreshNames(syms[1..], seen + {syms[0].0})
  {
    assert forall i :: 1 <= i < |syms| ==> syms[i] == syms[1..][i - 1];
    if syms[0].0 !in seen && FreshNames(syms[1..], seen + {syms[0].0}) {
      forall i, j | 0 <= i < j < |syms| ensures syms[i].0 != syms[j].0 {
        if i > 0 {
          assert syms[1..][i - 1].0 != syms[1..][j - 1].0;
        } else {
          assert syms[1..][j - 1].0 !in seen + {syms[0].0};
        }
      }
    }
  }

  /** One symbol record read off the front. */
  lemma ReadSymbolsStep(syms: seq<Symbol>, seen: set<seq<byte>>, rest: seq<byte>)
    requires |syms| > 0
    requires forall i :: 0 <= i < |syms| ==> |syms[i].0| == 64 && syms[i].1 < U32_LIMIT
    ensures ReadSymbols(SymbolRecords(syms) + rest, |syms|, seen) ==
      if syms[0].0 in seen then Err(RepeatedSymbol(syms[0].0))
      else
        match ReadSymbols(SymbolRecords(syms[1..]) + rest, |syms| - 1, seen + {syms[0].0})
        case Err(e) => Err(e)
        case Ok(more) => Ok([syms[0]] + more)
  {
    var bs := SymbolRecords(syms) + rest;
    var tail := SymbolRecords(syms[1..]) + rest;
    assert bs == syms[0].0 + (LeU32(syms[0].1) + tail);
    assert bs[..64] == syms[0].0;
    U32RoundTrip(syms[0].1, tail);
    assert bs[64..] == LeU32(syms[0].1) + tail;
  }

  /** A table of distinct names reads back as written; a name written twice,
      or one already seen, is reported. */
  lemma {:induction false} SymbolsRoundTrip(syms: seq<Symbol>, seen: set<seq<byte>>, rest: seq<byte>)
    requires forall i :: 0 <= i < |syms| ==> |syms[i].0| == 64 && syms[i].1 < U32_LIMIT
    ensures FreshNames(syms, seen) ==> ReadSymbols(SymbolRecords(syms) + rest, |syms|, seen) == Ok(syms)
    ensures !FreshNames(syms, seen) ==> ReadSymbols(SymbolRecords(syms) + rest, |syms|, seen).Err?
    decreases |syms|
  {
    if |syms| > 0 {
      ReadSymbolsStep(syms, seen, rest);
      FreshNamesCons(syms, seen);
      SymbolsRoundTrip(syms[1..], seen + {syms[0].0}, rest);
      assert [syms[0]] + syms[1..] == syms;
    }
  }

  lemma SymtabRoundTrip(syms: seq<Symbol>)
    requires |syms| < U32_LIMIT
    requires forall i :: 0 <= i < |syms| ==> |syms[i].0| == 64 && syms[i].1 < U32_LIMIT
    ensures DistinctNames(syms) <==> ReadSymtab(SymtabBytes(syms)).Ok?
    ensures DistinctNames(syms) ==> ReadSymtab(SymtabBytes(syms)) == Ok(syms)
  {
    U32RoundTrip(|syms|, SymbolRecords(syms));
    SymbolsRoundTrip(syms, {}, []);
    assert SymbolRecords(syms) + [] == SymbolRecords(syms);
  }

  /** A label or reference shifted to sit after `by` bytes of earlier code. */
  function ShiftLabels(labels: map<seq<byte>, Label>, shift: nat): (r: map<seq<byte>, Label>)
    ensures r.Keys == labels.Keys
    ensures forall k :: k in r ==> r[k].vis == labels[k].vis && r[k].offset == labels[k].offset + shift
  {
    map k | k in labels :: labels[k].(offset := labels[k].offset + shift)
  }

  function ShiftReferences(refs: seq<Reference>, shift: nat): (r: seq<Reference>)
    ensures |r| == |refs|
    ensures forall i :: 0 <= i < |r| ==> r[i].(offset := refs[i].offset) == refs[i] && r[i].offset == refs[i].offset + shift
  {
    seq(|refs|, i requires 0 <= i < |refs| => refs[i].(offset := refs[i].offset + shift))
  }

  /** Appends a section read from `file` to the one of the same name read
      before: its code goes after the existing code, its labels and
      references move by the existing size, the file is recorded with the
      byte range it added, and a label key already present takes the new
      label. A total of 0x10000 bytes or more is too large. */
  function Merge(existing: Section, incoming: Section, file: string): (r: Option<Section>)
    ensures r.Some? <==> |existing.code| + |incoming.code| < 0x1_0000
    ensures r.Some? ==>
      && |r.value.code| == |existing.code| + |incoming.code|
      && |r.value.references| == |existing.references| + |incoming.references|
      && r.value.code[..|existing.code|] == existing.code
      && r.value.code[|existing.code|..] == incoming.code
      && r.value.labels.Keys == existing.labels.Keys + incoming.labels.Keys
      && (forall k :: k in incoming.labels ==>
            r.value.labels[k] == incoming.labels[k].(offset := incoming.labels[k].offset + |existing.code|))
      && (forall k :: k in existing.labels && k !in incoming.labels ==> r.value.labels[k] == existing.labels[k])
      && r.value.references[..|existing.references|] == existing.references
      && (forall i :: 0 <= i < |incoming.references| ==>
            r.value.references[|existing.references| + i]
              == incoming.references[i].(offset := incoming.references[i].offset + |existing.code|))
      && r.value.objects == existing.objects[file := (|existing.code|, |existing.code| + |incoming.code|)]
      && r.value.base == existing.base
  {
    if |existing.code| + |incoming.code| >= 0x1_0000 then None
    else
      var shift := |existing.code|;
      Some(Section(
        existing.code + incoming.code,
        existing.labels + ShiftLabels(incoming.labels, shift),
        existing.references + ShiftReferences(incoming.references, shift),
        existing.base,
        existing.objects[file := (shift, shift + |incoming.code|)]))
  }

  /** After a merge every label still marks the byte it marked in its own
      section. */
  lemma MergeKeepsLabelTargets(existing: Section, incoming: Section, file: string, k: seq<byte>)
    requires Merge(existing, incoming, file).Some?
    ensures k in incoming.labels && incoming.labels[k].offset < |incoming.code| ==>
      var m := Merge(existing, incoming, file).value;
      m.labels[k].offset < |m.code| && m.code[m.labels[k].offset] == incoming.code[incoming.labels[k].offset]
    ensures k in existing.labels && k !in incoming.labels && existing.labels[k].offset < |existing.code| ==>
      var m := Merge(existing, incoming, file).value;
      m.code[m.labels[k].offset] == existing.code[existing.labels[k].offset]
  {
    var m := Merge(existing, incoming, file).value;
    if k in incoming.labels && incoming.labels[k].offset < |incoming.code| {
      assert m.code[|existing.code|..][incoming.labels[k].offset] == incoming.code[incoming.labels[k].offset];
    }
    if k in existing.labels && k !in incoming.labels && existing.labels[k].offset < |existing.code| {
      assert m.code[..|existing.code|][existing.labels[k].offset] == existing.code[existing.labels[k].offset];
    }
  }

  /** After a merge every reference still patches the byte it patched in its
      own section. */
  lemma MergeKeepsReferenceTargets(existing: Section, incoming: Section, file: string, i: nat)
    requires Merge(existing, incoming, file).Some?
    requires i < |incoming.references| && incoming.references[i].offset < |incoming.code|
    ensures
      var m := Merge(existing, incoming, file).value;
      var j := |existing.references| + i;
      j < |m.references| && m.references[j].offset < |m.code|
      && m.code[m.references[j].offset] == incoming.code[incoming.references[i].offset]
  {
    var m := Merge(existing, incoming, file).value;
    assert m.code[|existing.code|..][incoming.references[i].offset] == incoming.code[incoming.references[i].offset];
  }

  datatype LnError =
    | WrongExtension(file: string)           // "file {} has wrong extension"
    | ObjectUnreadable(file: string)         // "error reading object file {}"
    | SymtabUnreadable(file: string)         // "error reading symbol file {}"
    | DuplicateSymbol(name: seq<byte>)       // "`{}` appears multiple times in the symbol tables"
    | SectionTooLarge(name: seq<byte>)       // "section {} is too large"
    | Panic                                  // a slice of the source that would panic

  /** What `read_objects` collects: the merged sections by name and the
      symbols of all tables. */
  datatype Linkable = Linkable(sections: map<seq<byte>, Section>, symbols: map<seq<byte>, nat>)

  /** Merging one section into the collection: a first occurrence is
      inserted as read, a later one is appended to the existing section. */
  function AddSection(all: map<seq<byte>, Section>, name: seq<byte>, sect: Section, file: string): (r: Result<map<seq<byte>, Section>, LnError>)
    ensures name !in all ==> r == Ok(all[name := sect])
    ensures name in all ==> (r.Ok? <==> Merge(all[name], sect, file).Some?)
    ensures name in all && r.Ok? ==> r.value == all[name := Merge(all[name], sect, file).value]
    ensures r.Err? ==> r.error == SectionTooLarge(name)
  {
    if name in all then
      match Merge(all[name], sect, file)
      case None => Err(SectionTooLarge(name))
      case Some(m) => Ok(all[name := m])
    else Ok(all[name := sect])
  }

  function AddSections(all: map<seq<byte>, Section>, rs: seq<(seq<byte>, Section)>, file: string): (r: Result<map<seq<byte>, Section>, LnError>)
    ensures r.Ok? ==> r.value.Keys == all.Keys + (set i | 0 <= i < |rs| :: rs[i].0)
    ensures r.Err? ==> r.error.SectionTooLarge?
    decreases |rs|
  {
    if |rs| == 0 then Ok(all)
    else
      var next :- AddSection(all, rs[0].0, rs[0].1, file);
      var r :- AddSections(next, rs[1..], file);
      assert (set i | 0 <= i < |rs| :: rs[i].0) == {rs[0].0} + (set i | 0 <= i < |rs[1..]| :: rs[1..][i].0);
      Ok(r)
  }

  /** Adding the symbols of one table: a name already known from an earlier
      table is an error. */
  function AddSymbols(known: map<seq<byte>, nat>, syms: seq<Symbol>): (r: Result<map<seq<byte>, nat>, LnError>)
    requires DistinctNames(syms)
    ensures r.Ok? <==> forall i :: 0 <= i < |syms| ==> syms[i].0 !in known
    ensures r.Ok? ==> r.value.Keys == known.Keys + (set i | 0 <= i < |syms| :: syms[i].0)
    ensures r.Ok? ==> forall i :: 0 <= i < |syms| ==> r.value[syms[i].0] == syms[i].1
    ensures r.Ok? ==> forall k :: k in known ==> r.value[k] == known[k]
    ensures r.Err? ==> r.error.DuplicateSymbol? && r.error.name in known
    ensures r.Err? ==> exists i :: 0 <= i < |syms| && syms[i].0 == r.error.name
    decreases |syms|
  {
    if |syms| == 0 then Ok(known)
    else if syms[0].0 in known then Err(DuplicateSymbol(syms[0].0))
    else
      assert forall i :: 1 <= i < |syms| ==> syms[i] == syms[1..][i - 1];
      match AddSymbols(known[syms[0].0 := syms[0].1], syms[1..])
      case Err(e) =>
        var i :| 0 <= i < |syms[1..]| && syms[1..][i].0 == e.name;
        assert syms[i + 1].0 != syms[0].0;
        Err(e)
      case Ok(r) =>
        assert (set i | 0 <= i < |syms| :: syms[i].0) == {syms[0].0} + (set i | 0 <= i < |syms[1..]| :: syms[1..][i].0);
        Ok(r)
  }

  /** A file given to the linker: its path and its contents. */
  datatype InputFile = InputFile(path: string, contents: seq<byte>)

  /** A path without its trailing separators and trailing `.` components,
      which `Path::components` drops: `a.65o/` and `a.65o/.` name `a.65o`. */
  function TrimPath(path: string): (r: string)
    ensures |r| <= |path| && r == path[..|r|]
    ensures |r| > 0 ==> r[|r| - 1] != '/'
    ensures |r| >= 2 ==> r[|r| - 2..] != "/."
    decreases |path|
  {
    if |path| > 0 && path[|path| - 1] == '/' then TrimPath(path[..|path| - 1])
    else if |path| >= 2 && path[|path| - 2..] == "/." then TrimPath(path[..|path| - 1])
    else path
  }

  /** The text after the last `/` of a path. */
  function LastComponent(path: string): (r: string)
    ensures '/' !in r
    ensures |r| <= |path| && r == path[|path| - |r|..]
    ensures |r| < |path| ==> path[|path| - |r| - 1] == '/'
    decreases |path|
  {
    if |path| == 0 || path[|path| - 1] == '/' then []
    else LastComponent(path[..|path| - 1]) + [path[|path| - 1]]
  }

  /** `Path::file_name`: the last component of the trimmed path, and none
      when that is empty (a root or an empty path), `.` or `..`. */
  function FileName(path: string): (r: Option<string>)
    ensures r.Some? ==> '/' !in r.value && r.value !in {"", ".", ".."}
    ensures r.Some? ==> var t := TrimPath(path); |r.value| <= |t| && r.value == t[|t| - |r.value|..]
    ensures r.None? ==> LastComponent(TrimPath(path)) in {"", ".", ".."}
  {
    var name := LastComponent(TrimPath(path));
    if name in {"", ".", ".."} then None else Some(name)
  }

  /** The position of the last period of a name. */
  function LastPeriod(name: string): (r: Option<nat>)
    ensures r.Some? ==> r.value < |name| && name[r.value] == '.' && '.' !in name[r.value + 1..]
    ensures r.None? ==> '.' !in name
    decreases |name|
  {
    if |name| == 0 then None
    else if name[|name| - 1] == '.' then Some(|name| - 1)
    else
      var k :- LastPeriod(name[..|name| - 1]);
      assert name[k + 1..] == name[..|name| - 1][k + 1..] + [name[|name| - 1]];
      Some(k)
  }

  /** The extension of a file name: the text after its last period, unless
      it has no period or only a leading one. */
  function NameExtension(name: string): (r: Option<string>)
    ensures r.Some? ==> '.' !in r.value && |r.value| + 2 <= |name| && r.value == name[|name| - |r.value|..]
  {
    match LastPeriod(name)
    case None => None
    case Some(k) => if k == 0 then None else Some(name[k + 1..])
  }

  /** `Path::extension`: the extension of the file name, if there is one. */
  function Extension(path: string): (r: Option<string>)
    ensures r.Some? ==> '.' !in r.value && '/' !in r.value
    ensures r.Some? ==> FileName(path).Some? && |r.value| + 2 <= |FileName(path).value|
  {
    match FileName(path)
    case None => None
    case Some(name) => NameExtension(name)
  }

  /** The extension filter as written: keep it if it is `65o`, then keep
      what is left if it is `65s`. */
  function FilterAsWritten(ext: Option<string>): Option<string> {
    var objectOnly := if ext == Some("65o") then ext else None;
    if objectOnly == Some("65s") then objectOnly else None
  }

  /** The extension filter as evidently intended: keep `65o` or `65s`. */
  function FilterIntended(ext: Option<string>): (r: Option<string>)
    ensures r.Some? <==> ext == Some("65o") || ext == Some("65s")
    ensures r.Some? ==> r == ext
  {
    if ext == Some("65o") || ext == Some("65s") then ext else None
  }

  /** No extension passes both filters of the chain. */
  lemma {:induction false} FilterAsWrittenAdmitsNothing(ext: Option<string>)
    ensures FilterAsWritten(ext) == None
  {
    assert "65o"[2] != "65s"[2];
  }

  /** One file, dispatched on its filtered extension: a symbol table adds
      its symbols, an object merges its sections, anything else is rejected. */
  function ReadFile(acc: Linkable, f: InputFile, kind: Option<string>): (r: Result<Linkable, LnError>)
    ensures kind != Some("65s") && kind != Some("65o") ==> r == Err(WrongExtension(f.path))
    ensures kind == Some("65s") ==> r.Ok? ==> r.value.sections == acc.sections
    ensures kind == Some("65o") ==> r.Ok? ==> r.value.symbols == acc.symbols
    ensures r.Ok? ==> acc.sections.Keys <= r.value.sections.Keys && acc.symbols.Keys <= r.value.symbols.Keys
    ensures r.Ok? ==> forall k :: k in acc.symbols ==> r.value.symbols[k] == acc.symbols[k]
    ensures kind == Some("65o") && r.Ok? ==>
      && ReadObject(f.contents).Ok?
      && r.value.sections.Keys == acc.sections.Keys + SectionNames(ReadObject(f.contents).value)
    ensures kind == Some("65s") && ReadSymtab(f.contents).Ok? ==>
      var syms := ReadSymtab(f.contents).value;
      && (r.Ok? <==> forall i :: 0 <= i < |syms| ==> syms[i].0 !in acc.symbols)
      && (r.Ok? ==> r.value.symbols.Keys == acc.symbols.Keys + (set i | 0 <= i < |syms| :: syms[i].0))
      && (r.Ok? ==> forall i :: 0 <= i < |syms| ==> r.value.symbols[syms[i].0] == syms[i].1)
    ensures kind == Some("65s") && r.Ok? ==> ReadSymtab(f.contents).Ok?
  {
    if kind == Some("65s") then
      match ReadSymtab(f.contents)
      case Err(SymtabTruncated) => Err(SymtabUnreadable(f.path))
      case Err(RepeatedSymbol(name)) => Err(DuplicateSymbol(name))
      case Ok(syms) =>
        var symbols :- AddSymbols(acc.symbols, syms);
        Ok(acc.(symbols := symbols))
    else if kind == Some("65o") then
      match ReadObject(f.contents)
      case Err(Oversized) => Err(Panic)
      case Err(_) => Err(ObjectUnreadable(f.path))
      case Ok(rs) =>
        var sections :- AddSections(acc.sections, LastOccurrences(rs), f.path);
        SectionNamesAt(LastOccurrences(rs));
        Ok(acc.(sections := sections))
    else Err(WrongExtension(f.path))
  }

  function ReadFiles(acc: Linkable, files: seq<InputFile>, filter: Option<string> -> Option<string>): (r: Result<Linkable, LnError>)
    ensures r.Ok? ==> acc.sections.Keys <= r.value.sections.Keys && acc.symbols.Keys <= r.value.symbols.Keys
    ensures r.Ok? ==> forall k :: k in acc.symbols ==> r.value.symbols[k] == acc.symbols[k]
    decreases |files|
  {
    if |files| == 0 then Ok(acc)
    else
      var next :- ReadFile(acc, files[0], filter(Extension(files[0].path)));
      ReadFiles(next, files[1..], filter)
  }

  /** `read_objects` as written: its extension filter admits nothing, so the
      first file is always rejected. */
  function ReadObjectsAsWritten(files: seq<InputFile>): Result<Linkable, LnError> {
    ReadFiles(Linkable(map[], map[]), files, FilterAsWritten)
  }

  /** `read_objects` with the filter it evidently means: objects and symbol
      tables are read in the order given. */
  function ReadObjects(files: seq<InputFile>): (r: Result<Linkable, LnError>)
    ensures |files| == 0 ==> r == Ok(Linkable(map[], map[]))
    ensures r.Ok? ==> AllInputs(files)
    ensures r.Ok? ==> forall i :: 0 <= i < |files| ==> FileIncluded(files[i], r.value)
  {
    IntendedAdmitsOnlyInputs(Linkable(map[], map[]), files);
    var r := ReadFiles(Linkable(map[], map[]), files, FilterIntended);
    if r.Ok? then
      ReadFilesIncludesAll(Linkable(map[], map[]), files);
      r
    else r
  }

  /** A run that succeeds read its first file, whose extension the filter
      admitted, and then read the rest. */
  lemma FirstFileAdmitted(acc: Linkable, files: seq<InputFile>) returns (next: Linkable)
    requires |files| > 0 && ReadFiles(acc, files, FilterIntended).Ok?
    ensures Extension(files[0].path) in {Some("65o"), Some("65s")}
    ensures ReadFiles(next, files[1..], FilterIntended) == ReadFiles(acc, files, FilterIntended)
  {
    var kind := FilterIntended(Extension(files[0].path));
    var r := ReadFile(acc, files[0], kind);
    assert r.Ok?;
    next := r.value;
  }

  /** Every file of the list has an object or symbol table extension. */
  predicate AllInputs(files: seq<InputFile>) {
    forall f :: f in files ==> Extension(f.path) in {Some("65o"), Some("65s")}
  }

  lemma AllInputsCons(files: seq<InputFile>)
    requires |files| > 0 && Extension(files[0].path) in {Some("65o"), Some("65s")} && AllInputs(files[1..])
    ensures AllInputs(files)
  {
    forall f | f in files
      ensures Extension(f.path) in {Some("65o"), Some("65s")}
    {
      var i :| 0 <= i < |files| && files[i] == f;
      if i > 0 {
        assert files[1..][i - 1] == f;
      }
    }
  }

  lemma {:induction false} IntendedAdmitsOnlyInputs(acc: Linkable, files: seq<InputFile>)
    ensures ReadFiles(acc, files, FilterIntended).Ok? ==> AllInputs(files)
    decreases |files|
  {
    if |files| > 0 && ReadFiles(acc, files, FilterIntended).Ok? {
      var next := FirstFileAdmitted(acc, files);
      IntendedAdmitsOnlyInputs(next, files[1..]);
      AllInputsCons(files);
    }
  }

  /** What a successful read keeps of one input file: every section name of
      an object, and every symbol of a table with its address. */
  predicate FileIncluded(f: InputFile, out: Linkable) {
    if Extension(f.path) == Some("65o") then
      && ReadObject(f.contents).Ok?
      && SectionNames(ReadObject(f.contents).value) <= out.sections.Keys
    else if Extension(f.path) == Some("65s") then
      && ReadSymtab(f.contents).Ok?
      && forall i :: 0 <= i < |ReadSymtab(f.contents).value| ==>
           ReadSymtab(f.contents).value[i].0 in out.symbols
           && out.symbols[ReadSymtab(f.contents).value[i].0] == ReadSymtab(f.contents).value[i].1
    else false
  }

  /** Reading more files keeps what was included: section names stay and
      symbols keep their addresses. */
  lemma IncludedStays(f: InputFile, a: Linkable, b: Linkable)
    requires FileIncluded(f, a)
    requires a.sections.Keys <= b.sections.Keys
    requires forall k :: k in a.symbols ==> k in b.symbols && b.symbols[k] == a.symbols[k]
    ensures FileIncluded(f, b)
  {
  }

  /** One admitted file read on its own is included in what it yields. */
  lemma ReadFileIncludes(acc: Linkable, f: InputFile)
    requires ReadFile(acc, f, FilterIntended(Extension(f.path))).Ok?
    ensures FileIncluded(f, ReadFile(acc, f, FilterIntended(Extension(f.path))).value)
  {
  }

  /** A successful run read its first file into `next` and then read the
      rest from there. */
  lemma ReadFilesUnfold(acc: Linkable, files: seq<InputFile>) returns (next: Linkable)
    requires |files| > 0 && ReadFiles(acc, files, FilterIntended).Ok?
    ensures ReadFile(acc, files[0], FilterIntended(Extension(files[0].path))) == Ok(next)
    ensures ReadFiles(next, files[1..], FilterIntended) == ReadFiles(acc, files, FilterIntended)
  {
    next := ReadFile(acc, files[0], FilterIntended(Extension(files[0].path))).value;
  }

  /** `read_objects` reads every file it is given: after a successful run,
      every section name of every object and every symbol of every table,
      with its address, is in the result. */
  lemma {:induction false} ReadFilesIncludesAll(acc: Linkable, files: seq<InputFile>)
    requires ReadFiles(acc, files, FilterIntended).Ok?
    ensures forall i :: 0 <= i < |files| ==> FileIncluded(files[i], ReadFiles(acc, files, FilterIntended).value)
    decreases |files|
  {
    if |files| > 0 {
      var out := ReadFiles(acc, files, FilterIntended).value;
      var next := ReadFilesUnfold(acc, files);
      var rest := ReadFiles(next, files[1..], FilterIntended);
      assert rest == Ok(out);
      ReadFilesIncludesAll(next, files[1..]);
      ReadFileIncludes(acc, files[0]);
      IncludedStays(files[0], next, out);
      forall i | 0 < i < |files|
        ensures FileIncluded(files[i], out)
      {
        assert files[i] == files[1..][i - 1];
      }
    }
  }

  /** The discrepancy: as written, every non-empty file list fails on its
      first file with "wrong extension", whatever the files are. */
  lemma ReadObjectsAsWrittenRejects(files: seq<InputFile>)
    requires |files| > 0
    ensures ReadObjectsAsWritten(files) == Err(WrongExtension(files[0].path))
  {
    var kind := FilterAsWritten(Extension(files[0].path));
    FilterAsWrittenAdmitsNothing(Extension(files[0].path));
    assert ReadFile(Linkable(map[], map[]), files[0], kind) == Err(WrongExtension(files[0].path));
  }

  /** A path without directories keeps its name whole. */
  lemma {:induction false} LastComponentWithoutSlash(s: string)
    requires '/' !in s
    ensures LastComponent(s) == s
    decreases |s|
  {
    if |s| > 0 {
      LastComponentWithoutSlash(s[..|s| - 1]);
    }
  }

  /** The last period of `stem.ext`, when `ext` has none, is the one
      before it. */
  lemma {:induction false} LastPeriodBefore(stem: string, ext: string)
    requires '.' !in ext
    ensures LastPeriod(stem + "." + ext) == Some(|stem|)
    decreases |ext|
  {
    var s := stem + "." + ext;
    if |ext| > 0 {
      var shorter := ext[..|ext| - 1];
      LastPeriodBefore(stem, shorter);
      assert s[..|s| - 1] == stem + "." + shorter;
    }
  }

  /** A path whose last two characters are not separators is already
      trimmed. */
  lemma TrimPathKeeps(s: string)
    requires |s| > 0 ==> s[|s| - 1] != '/'
    requires |s| >= 2 ==> s[|s| - 2] != '/'
    ensures TrimPath(s) == s
  {
    if |s| >= 2 {
      assert s[|s| - 2..][0] == s[|s| - 2];
    }
  }

  /** A path without separators is already trimmed. */
  lemma TrimPathWithoutSlash(s: string)
    requires '/' !in s
    ensures TrimPath(s) == s
  {
    TrimPathKeeps(s);
  }

  /** A trailing separator does not change the trimmed path. */
  lemma TrimSlash(p: string)
    ensures TrimPath(p + "/") == TrimPath(p)
  {
    assert (p + "/")[..|p|] == p;
  }

  /** Nor does a trailing `/.` component. */
  lemma TrimDot(p: string)
    ensures TrimPath(p + "/.") == TrimPath(p)
  {
    var q := p + "/.";
    assert q[..|q| - 1] == p + "/";
    assert q[|q| - 2..] == "/.";
    TrimSlash(p);
  }

  /** The last component follows the last separator. */
  lemma {:induction false} LastComponentAfterSlash(dir: string, name: string)
    requires '/' !in name
    ensures LastComponent(dir + "/" + name) == name
    decreases |name|
  {
    var p := dir + "/" + name;
    if |name| > 0 {
      assert p[..|p| - 1] == dir + "/" + name[..|name| - 1];
      LastComponentAfterSlash(dir, name[..|name| - 1]);
    } else {
      assert p[|p| - 1] == '/';
    }
  }

  /** The extension of `stem.ext` is `ext` when the stem is not empty. */
  lemma ExtensionOf(stem: string, ext: string)
    requires |stem| > 0 && '/' !in stem && '/' !in ext && '.' !in ext
    requires stem + "." + ext != ".."
    ensures Extension(stem + "." + ext) == Some(ext)
  {
    var s := stem + "." + ext;
    TrimPathWithoutSlash(s);
    LastComponentWithoutSlash(s);
    assert |s| >= 2;
    assert FileName(s) == Some(s);
    LastPeriodBefore(stem, ext);
    assert s[|stem| + 1..] == ext;
  }

  /** For instance, an object file `prog.65o` holding no sections is
      rejected as written but read as empty with the intended filter. */
  lemma EmptyObjectExample()
    ensures ReadObjectsAsWritten([InputFile("prog.65o", [0, 0, 0, 0])]) == Err(WrongExtension("prog.65o"))
    ensures ReadObjects([InputFile("prog.65o", [0, 0, 0, 0])]) == Ok(Linkable(map[], map[]))
  {
    ReadObjectsAsWrittenRejects([InputFile("prog.65o", [0, 0, 0, 0])]);
    EmptyObjectRead();
  }

  lemma EmptyObjectRead()
    ensures ReadObjects([InputFile("prog.65o", [0, 0, 0, 0])]) == Ok(Linkable(map[], map[]))
  {
    var f := InputFile("prog.65o", [0, 0, 0, 0]);
    ProgExtension();
    EmptyObjectFile(Linkable(map[], map[]), f.path);
    SingleFile(Linkable(map[], map[]), f);
  }

  /** An object declaring no sections adds nothing. */
  lemma EmptyObjectFile(acc: Linkable, path: string)
    ensures ReadFile(acc, InputFile(path, [0, 0, 0, 0]), Some("65o")) == Ok(acc)
  {
    assert ReadObject([0, 0, 0, 0]) == Ok([]);
    assert LastOccurrences([]) == [];
    assert AddSections(acc.sections, [], path) == Ok(acc.sections);
  }

  /** Reading a list of one file is reading that file. */
  lemma SingleFile(acc: Linkable, f: InputFile)
    ensures ReadFiles(acc, [f], FilterIntended) == ReadFile(acc, f, FilterIntended(Extension(f.path)))
  {
    assert [f][1..] == [];
  }

  lemma ProgExtension()
    ensures Extension("prog.65o") == Some("65o")
  {
    assert "prog.65o" == "prog" + "." + "65o";
    ExtensionOf("prog", "65o");
  }

  /** Trailing separators and `.` components do not hide the extension. */
  lemma TrailingSeparatorsIgnored(p: string)
    ensures Extension(p + "/") == Extension(p)
    ensures Extension(p + "/.") == Extension(p)
  {
    TrimSlash(p);
    TrimDot(p);
    SameFileName(p + "/", p);
    SameFileName(p + "/.", p);
  }

  /** The extension depends on the path only through its file name. */
  lemma SameFileName(a: string, b: string)
    requires TrimPath(a) == TrimPath(b)
    ensures Extension(a) == Extension(b)
  {
    assert FileName(a) == FileName(b);
  }

  /** A parent-directory component has no file name, so no extension. */
  lemma ParentHasNoExtension(dir: string)
    ensures Extension("..") == None
    ensures Extension(dir + "/" + "..") == None
  {
    TrimPathWithoutSlash("..");
    LastComponentWithoutSlash("..");
    assert FileName("..") == None;
    var p := dir + "/" + "..";
    assert p[|p| - 1] == '.' && p[|p| - 2] == '.';
    TrimPathKeeps(p);
    LastComponentAfterSlash(dir, "..");
    assert FileName(p) == None;
  }

  /** A name whose only period leads it has no extension. */
  lemma LeadingPeriodOnly(ext: string)
    requires '/' !in ext && '.' !in ext
    ensures Extension("." + ext) == None
  {
    var s := "." + ext;
    TrimPathWithoutSlash(s);
    LastComponentWithoutSlash(s);
    if s in {"", ".", ".."} {
      assert FileName(s) == None;
    } else {
      assert FileName(s) == Some(s);
      assert s == "" + "." + ext;
      LastPeriodBefore("", ext);
      assert LastPeriod(s) == Some(0);
    }
  }

  /** For instance: `a.65o/` and `a.65o/.` are objects; `..`, `dir/..` and
      `.65o` have no extension. */
  lemma PathEdgeCases()
    ensures Extension("a.65o/") == Some("65o")
    ensures Extension("a.65o/.") == Some("65o")
    ensures Extension("..") == None
    ensures Extension("dir/..") == None
    ensures Extension(".65o") == None
  {
    assert "a.65o" == "a" + "." + "65o";
    assert "a.65o/" == "a.65o" + "/" && "a.65o/." == "a.65o" + "/.";
    assert "dir/.." == "dir" + "/" + "..";
    assert ".65o" == "." + "65o";
    ExtensionOf("a", "65o");
    TrailingSeparatorsIgnored("a.65o");
    ParentHasNoExtension("dir");
    LeadingPeriodOnly("65o");
  }
}

=== FILE: lnscript.dfy ===
/** The linker script (`s502-ln/src/script.rs`): lines of section names
    that form relocation groups, optionally ended by a size limit, and
    `. <number>` lines that move the placement cursor. */
module LnScript {
  import opened Wrappers
  import opened Bytes
  import opened Radix
  import opened LnFormats

  datatype ScriptToken =
    | Period
    | Eol                  // a newline, or a `//` comment through its newline
    | Number(value: u16)   // `0x` and hex digits, or decimal digits, below 0x10000
    | Ident(name: string)  // an identifier of at most 31 characters
    | Error(text: string)  // anything else, including a number or name too long

  predicate IsDigit(c: char) { '0' <= c <= '9' }
  predicate IsHex(c: char) { IsDigit(c) || 'a' <= c <= 'f' || 'A' <= c <= 'F' }
  predicate IsNameStart(c: char) { 'a' <= c <= 'z' || 'A' <= c <= 'Z' || c == '_' }
  predicate IsNameChar(c: char) { IsNameStart(c) || IsDigit(c) }

  predicate HexLiteral(s: string) {
    |s| > 2 && s[..2] == "0x" && forall i :: 2 <= i < |s| ==> IsHex(s[i])
  }

  predicate DecLiteral(s: string) {
    |s| > 0 && forall i :: 0 <= i < |s| ==> IsDigit(s[i])
  }

  predicate NameLexeme(s: string) {
    |s| > 0 && IsNameStart(s[0]) && forall i :: 1 <= i < |s| ==> IsNameChar(s[i])
  }

  predicate LineEnd(s: string) {
    s == "\n" || (|s| >= 3 && s[..2] == "//" && s[|s| - 1] == '\n' && '\n' !in s[..|s| - 1])
  }

  predicate Blank(s: string) {
    |s| > 0 && forall i :: 0 <= i < |s| ==> s[i] == ' ' || s[i] == '\t'
  }

  /** The token of one lexeme, or nothing for skipped blanks. A literal that
      does not fit 16 bits and a name longer than 31 characters are errors. */
  function ScriptLex(s: string): Option<ScriptToken> {
    if Blank(s) then None
    else if s == "." then Some(Period)
    else if LineEnd(s) then Some(Eol)
    else if HexLiteral(s) then
      match FromStrRadix(s[2..], 16)
      case Some(v) => Some(Number(v))
      case None => Some(Error(s))
    else if DecLiteral(s) then
      match FromStrRadix(s, 10)
      case Some(v) => Some(Number(v))
      case None => Some(Error(s))
    else if NameLexeme(s) then
      if |s| <= 31 then Some(Ident(s)) else Some(Error(s))
    else Some(Error(s))
  }

  /** Blanks and nothing else are skipped; a period, a line end, a short
      name and an in-range literal give their tokens, and an identifier
      token always carries its lexeme. */
  lemma ScriptLexClassifies(s: string)
    ensures Blank(s) <==> ScriptLex(s).None?
    ensures ScriptLex(s) == Some(Period) <==> s == "."
    ensures ScriptLex(s) == Some(Eol) <==> LineEnd(s)
    ensures NameLexeme(s) && |s| <= 31 ==> ScriptLex(s) == Some(Ident(s))
    ensures ScriptLex(s).Some? && ScriptLex(s).value.Ident? ==> ScriptLex(s).value.name == s && |s| <= 31
    ensures DecLiteral(s) && FromStrRadix(s, 10).Some? ==> ScriptLex(s) == Some(Number(FromStrRadix(s, 10).value))
    ensures HexLiteral(s) && FromStrRadix(s[2..], 16).Some? ==> ScriptLex(s) == Some(Number(FromStrRadix(s[2..], 16).value))
  {
    if HexLiteral(s) {
      assert s[..2][1] == 'x';
    }
    if Blank(s) {
      assert s[0] == ' ' || s[0] == '\t';
    }
  }

  /** The token stream of a script cut into lexemes: blanks are dropped,
      every other lexeme gives exactly one token in order. */
  function ScriptTokens(lexemes: seq<string>): (r: seq<ScriptToken>)
    ensures |r| <= |lexemes|
    decreases |lexemes|
  {
    if |lexemes| == 0 then []
    else
      match ScriptLex(lexemes[0])
      case Some(t) => [t] + ScriptTokens(lexemes[1..])
      case None => ScriptTokens(lexemes[1..])
  }

  lemma {:induction false} ScriptTokensAppend(a: seq<string>, b: seq<string>)
    ensures ScriptTokens(a + b) == ScriptTokens(a) + ScriptTokens(b)
    decreases |a|
  {
    if |a| == 0 {
      assert a + b == b;
    } else {
      var head := match ScriptLex(a[0]) case Some(t) => [t] case None => [];
      assert (a + b)[1..] == a[1..] + b;
      ScriptTokensAppend(a[1..], b);
      assert ScriptTokens(a + b) == head + (ScriptTokens(a[1..]) + ScriptTokens(b));
      assert head + (ScriptTokens(a[1..]) + ScriptTokens(b)) == (head + ScriptTokens(a[1..])) + ScriptTokens(b);
    }
  }

  /** Only blanks are dropped: without them every lexeme gives a token. */
  lemma {:induction false} OnlyBlanksDropped(lexemes: seq<string>)
    requires forall i :: 0 <= i < |lexemes| ==> !Blank(lexemes[i])
    ensures |ScriptTokens(lexemes)| == |lexemes|
    decreases |lexemes|
  {
    if |lexemes| > 0 {
      ScriptLexClassifies(lexemes[0]);
      assert forall i :: 0 <= i < |lexemes[1..]| ==> lexemes[1..][i] == lexemes[i + 1];
      OnlyBlanksDropped(lexemes[1..]);
    }
  }

  /** Blanks between lexemes do not change the tokens. */
  lemma BlanksIgnored(a: seq<string>, blank: string, b: seq<string>)
    requires Blank(blank)
    ensures ScriptTokens(a + [blank] + b) == ScriptTokens(a + b)
  {
    ScriptTokensAppend(a + [blank], b);
    ScriptTokensAppend(a, [blank]);
    ScriptTokensAppend(a, b);
    ScriptLexClassifies(blank);
    assert ScriptTokens([blank]) == [];
  }

  datatype ScriptError =
    | ListedTwice(name: string)  // "section {} listed multiple times in the liinker script"
    | Unrecognized(text: string) // "unrecognized token {}"
    | ExpectedNumberOrEol        // "expected number or end of line, found `{}`"
    | ExpectedNumber             // "expected number in setting address"
    | Unfinished                 // the `todo!()` of the main loop, a panic

  /** The error and the line it is reported on. */
  datatype ScriptFailure = ScriptFailure(line: nat, error: ScriptError)

  /** The parser's position: where the next group starts, the current line
      and the section names seen so far. */
  datatype Cursor = Cursor(offset: nat, line: nat, names: set<string>)

  /** A group read up to the end of its line, the names seen afterwards and
      the tokens after the line. */
  datatype GroupRead = GroupRead(group: RelocGroup, names: set<string>, rest: seq<ScriptToken>)

  /** The number of names and numbers that open the tokens. */
  function LineLength(ts: seq<ScriptToken>): (k: nat)
    ensures k <= |ts|
    ensures forall i :: 0 <= i < k ==> ts[i].Ident? || ts[i].Number?
    ensures k < |ts| ==> !(ts[k].Ident? || ts[k].Number?)
    decreases |ts|
  {
    if |ts| == 0 || !(ts[0].Ident? || ts[0].Number?) then 0
    else 1 + LineLength(ts[1..])
  }

  /** The last number among the tokens, if any. */
  function LastNumber(ts: seq<ScriptToken>): Option<u16>
    decreases |ts|
  {
    if |ts| == 0 then None
    else
      match LastNumber(ts[1..])
      case Some(n) => Some(n)
      case None => if ts[0].Number? then Some(ts[0].value) else None
  }

  /** The end of a group starting at `start` whose line holds `ts`: the start
      plus the line's last number, or `otherwise` when it has none. */
  function Limit(start: nat, ts: seq<ScriptToken>, otherwise: Option<nat>): Option<nat> {
    match LastNumber(ts)
    case Some(n) => Some(start + n)
    case None => otherwise
  }

  /** The names of the identifiers among the tokens, in order. */
  function Names(ts: seq<ScriptToken>): seq<string>
    decreases |ts|
  {
    if |ts| == 0 then []
    else (if ts[0].Ident? then [ts[0].name] else []) + Names(ts[1..])
  }

  function NameSet(ts: seq<ScriptToken>): set<string>
    decreases |ts|
  {
    if |ts| == 0 then {}
    else (if ts[0].Ident? then {ts[0].name} else {}) + NameSet(ts[1..])
  }

  /** The loop of `read_group` after the first name: more names join the
      group (a repeated one is only reported on the console), a number sets
      the limit to the start plus that number, and the end of the line ends
      the group; any other token, or the end of the script, is an error. */
  function GroupTail(ts: seq<ScriptToken>, g: RelocGroup, names: set<string>, line: nat): (r: Result<GroupRead, ScriptFailure>)
    ensures r.Ok? ==> |r.value.rest| < |ts| && |r.value.group.relocations| >= |g.relocations|
    ensures r.Err? ==> r.error.line == line
    decreases |ts|
  {
    if |ts| == 0 then Err(ScriptFailure(line, ExpectedNumberOrEol))
    else
      match ts[0]
      case Ident(s) => GroupTail(ts[1..], g.(relocations := g.relocations + [s]), names + {s}, line)
      case Number(n) => GroupTail(ts[1..], g.(maxOffset := Some(g.offset + n)), names, line)
      case Eol => Ok(GroupRead(g, names, ts[1..]))
      case Error(t) => Err(ScriptFailure(line, Unrecognized(t)))
      case Period => Err(ScriptFailure(line, ExpectedNumberOrEol))
  }

  /** What reading the rest of a group's line gives: the line is the run of
      names and numbers before the first other token; it is read whole when
      a line end follows the run, the names join the group in order and the
      last number sets the limit; the error names an unrecognised token, and
      any other stop wants a number or a line end. */
  predicate ReadsLine(ts: seq<ScriptToken>, g: RelocGroup, names: set<string>, line: nat, r: Result<GroupRead, ScriptFailure>) {
    var k := LineLength(ts);
    && (r.Ok? <==> k < |ts| && ts[k] == Eol)
    && (r.Ok? ==>
          && r.value.rest == ts[k + 1..]
          && r.value.group.relocations == g.relocations + Names(ts[..k])
          && r.value.group.offset == g.offset
          && r.value.group.maxOffset == Limit(g.offset, ts[..k], g.maxOffset)
          && r.value.names == names + NameSet(ts[..k]))
    && (r.Err? ==> r.error.line == line)
    && (r.Err? && k < |ts| && ts[k].Error? ==> r.error.error == Unrecognized(ts[k].text))
    && (r.Err? && !(k < |ts| && ts[k].Error?) ==> r.error.error == ExpectedNumberOrEol)
  }

  lemma {:induction false} GroupTailReadsLine(ts: seq<ScriptToken>, g: RelocGroup, names: set<string>, line: nat)
    ensures ReadsLine(ts, g, names, line, GroupTail(ts, g, names, line))
    decreases |ts|, 1
  {
    if |ts| > 0 && (ts[0].Ident? || ts[0].Number?) {
      GroupTailRun(ts, g, names, line);
    }
  }

  /** A name or a number at the head of the line is one more step of the
      run. */
  lemma {:induction false} GroupTailRun(ts: seq<ScriptToken>, g: RelocGroup, names: set<string>, line: nat)
    requires |ts| > 0 && (ts[0].Ident? || ts[0].Number?)
    ensures ReadsLine(ts, g, names, line, GroupTail(ts, g, names, line))
    decreases |ts|, 0
  {
    var k := LineLength(ts);
    assert ts[..k][1..] == ts[1..][..k - 1];
    if k < |ts| {
      assert ts[k + 1..] == ts[1..][k - 1 + 1..];
    }
    if ts[0].Ident? {
      var g' := g.(relocations := g.relocations + [ts[0].name]);
      GroupTailReadsLine(ts[1..], g', names + {ts[0].name}, line);
      var rest := Names(ts[1..][..k - 1]);
      assert Names(ts[..k]) == [ts[0].name] + rest;
      assert (g.relocations + [ts[0].name]) + rest == g.relocations + ([ts[0].name] + rest);
    } else {
      var g' := g.(maxOffset := Some(g.offset + ts[0].value));
      GroupTailReadsLine(ts[1..], g', names, line);
    }
  }

  /** `read_group`: the first name of a line must not have been listed
      before; the group starts at the cursor with no limit and takes the
      rest of the line. */
  function ReadGroup(ts: seq<ScriptToken>, first: string, c: Cursor): (r: Result<GroupRead, ScriptFailure>)
    ensures first in c.names ==> r == Err(ScriptFailure(c.line, ListedTwice(first)))
    ensures r.Ok? ==> |r.value.rest| < |ts| && |r.value.group.relocations| > 0
    ensures r.Err? ==> r.error.line == c.line
  {
    if first in c.names then Err(ScriptFailure(c.line, ListedTwice(first)))
    else GroupTail(ts, RelocGroup([first], c.offset, None), c.names + {first}, c.line)
  }

  /** A group read from a fresh first name: the line must end with a line
      end; the group lists the first name and the line's names, starts at
      the cursor and takes the last number of the line as its length; an
      error is reported on the cursor's line. */
  lemma ReadGroupReadsLine(ts: seq<ScriptToken>, first: string, c: Cursor)
    ensures
      var r := ReadGroup(ts, first, c);
      var k := LineLength(ts);
      && (r.Ok? ==>
            && first !in c.names
            && k < |ts| && ts[k] == Eol && r.value.rest == ts[k + 1..]
            && r.value.group.relocations == [first] + Names(ts[..k])
            && r.value.group.offset == c.offset
            && r.value.group.maxOffset == Limit(c.offset, ts[..k], None)
            && r.value.names == c.names + {first} + NameSet(ts[..k]))
      && (r.Err? ==> r.error.line == c.line)
      && (first !in c.names ==> (r.Ok? <==> k < |ts| && ts[k] == Eol))
  {
    if first !in c.names {
      var g := RelocGroup([first], c.offset, None);
      GroupTailReadsLine(ts, g, c.names + {first}, c.line);
      assert ReadsLine(ts, g, c.names + {first}, c.line, GroupTail(ts, g, c.names + {first}, c.line));
      assert ReadGroup(ts, first, c) == GroupTail(ts, g, c.names + {first}, c.line);
    }
  }

  /** `set_offset`: a `.` must be followed by a number, which becomes the
      cursor. */
  function SetOffset(ts: seq<ScriptToken>, line: nat): (r: Result<(nat, seq<ScriptToken>), ScriptFailure>)
    ensures r.Ok? <==> |ts| > 0 && ts[0].Number?
    ensures r.Ok? ==> r.value == (ts[0].value as nat, ts[1..])
    ensures r.Err? ==> r.error.line == line
    ensures r.Err? && |ts| > 0 && ts[0].Error? ==> r.error.error == Unrecognized(ts[0].text)
    ensures r.Err? && !(|ts| > 0 && ts[0].Error?) ==> r.error.error == ExpectedNumber
  {
    if |ts| == 0 then Err(ScriptFailure(line, ExpectedNumber))
    else
      match ts[0]
      case Number(n) => Ok((n as nat, ts[1..]))
      case Error(t) => Err(ScriptFailure(line, Unrecognized(t)))
      case _ => Err(ScriptFailure(line, ExpectedNumber))
  }

  /** The main loop of `read_script`: a name starts a group, a line end
      counts a line, a period moves the cursor; a number or an unrecognised
      token at the start of a line reaches the unfinished branch. */
  function Script(ts: seq<ScriptToken>, c: Cursor): (r: Result<seq<RelocGroup>, ScriptFailure>)
    ensures r.Ok? ==> forall i :: 0 <= i < |r.value| ==> |r.value[i].relocations| > 0
    ensures r.Err? ==> r.error.line >= c.line
    decreases |ts|
  {
    if |ts| == 0 then Ok([])
    else
      match ts[0]
      case Ident(first) =>
        var g :- ReadGroup(ts[1..], first, c);
        var more :- Script(g.rest, c.(names := g.names));
        Ok([g.group] + more)
      case Eol => Script(ts[1..], c.(line := c.line + 1))
      case Period =>
        var o :- SetOffset(ts[1..], c.line);
        Script(o.1, c.(offset := o.0))
      case _ => Err(ScriptFailure(c.line, Unfinished))
  }

  /** `read_script`: the cursor starts at 0 and the line count at 1. */
  function ReadScript(ts: seq<ScriptToken>): (r: Result<seq<RelocGroup>, ScriptFailure>)
    ensures r.Err? ==> r.error.line >= 1
    ensures |ts| > 0 && (ts[0].Number? || ts[0].Error?) ==> r == Err(ScriptFailure(1, Unfinished))
  {
    Script(ts, Cursor(0, 1, {}))
  }

  /** `read_script` on the lexemes of a script text. */
  function ReadScriptText(lexemes: seq<string>): (r: Result<seq<RelocGroup>, ScriptFailure>)
    ensures r.Ok? ==> forall i :: 0 <= i < |r.value| ==> |r.value[i].relocations| > 0
  {
    ReadScript(ScriptTokens(lexemes))
  }

  /** All names of the groups, one after the other. */
  function Flatten(gs: seq<RelocGroup>): seq<string>
    decreases |gs|
  {
    if |gs| == 0 then [] else gs[0].relocations + Flatten(gs[1..])
  }

  lemma {:induction false} NamesAppend(a: seq<ScriptToken>, b: seq<ScriptToken>)
    ensures Names(a + b) == Names(a) + Names(b)
    decreases |a|
  {
    if |a| == 0 {
      assert a + b == b;
    } else {
      var head := if a[0].Ident? then [a[0].name] else [];
      assert (a + b)[1..] == a[1..] + b;
      NamesAppend(a[1..], b);
      assert Names(a + b) == head + (Names(a[1..]) + Names(b));
      assert head + (Names(a[1..]) + Names(b)) == (head + Names(a[1..])) + Names(b);
    }
  }

  lemma {:induction false} NamesInNameSet(ts: seq<ScriptToken>)
    ensures forall i :: 0 <= i < |Names(ts)| ==> Names(ts)[i] in NameSet(ts)
    decreases |ts|
  {
    if |ts| > 0 {
      NamesInNameSet(ts[1..]);
    }
  }

  /** How a script that reads to the end goes on from its first token: a
      name whose group reads, a line end, or a period and a number. */
  lemma ScriptOkStarts(ts: seq<ScriptToken>, c: Cursor)
    requires |ts| > 0 && Script(ts, c).Ok?
    ensures ts[0].Ident? ==> ReadGroup(ts[1..], ts[0].name, c).Ok?
    ensures ts[0].Ident? || ts[0] == Eol || (ts[0] == Period && |ts| > 1 && ts[1].Number?)
  {
  }

  /** A group read from the first name is followed by the groups of the
      rest, read with the group's names recorded. */
  lemma ScriptAfterGroup(ts: seq<ScriptToken>, c: Cursor, first: string, g: GroupRead)
    requires |ts| > 0 && ts[0] == Ident(first) && ReadGroup(ts[1..], first, c) == Ok(g)
    ensures Script(ts, c).Ok? <==> Script(g.rest, c.(names := g.names)).Ok?
    ensures Script(ts, c).Ok? ==> Script(ts, c).value == [g.group] + Script(g.rest, c.(names := g.names)).value
  {
  }

  /** A line end outside a group only counts the line. */
  lemma ScriptAtLineEnd(ts: seq<ScriptToken>, c: Cursor)
    requires |ts| > 0 && ts[0] == Eol
    ensures Script(ts, c) == Script(ts[1..], c.(line := c.line + 1))
  {
  }

  /** A period and a number move the cursor. */
  lemma ScriptAtPeriod(ts: seq<ScriptToken>, c: Cursor)
    requires |ts| > 1 && ts[0] == Period && ts[1].Number?
    ensures Script(ts, c) == Script(ts[2..], c.(offset := ts[1].value as nat))
  {
    assert ts[1..][1..] == ts[2..];
  }

  /** The groups list every section name of the script once per mention, in
      script order. */
  lemma {:induction false} GroupsInScriptOrder(ts: seq<ScriptToken>, c: Cursor)
    requires Script(ts, c).Ok?
    ensures Flatten(Script(ts, c).value) == Names(ts)
    decreases |ts|, 1
  {
    if |ts| > 0 {
      ScriptOkStarts(ts, c);
      match ts[0]
      case Ident(first) => GroupInScriptOrder(ts, c, first);
      case Eol =>
        ScriptAtLineEnd(ts, c);
        GroupsInScriptOrder(ts[1..], c.(line := c.line + 1));
      case Period =>
        ScriptAtPeriod(ts, c);
        GroupsInScriptOrder(ts[2..], c.(offset := ts[1].value as nat));
        assert Names(ts) == Names(ts[1..]);
        assert Names(ts[1..]) == Names(ts[2..]);
    }
  }

  lemma {:induction false} GroupInScriptOrder(ts: seq<ScriptToken>, c: Cursor, first: string)
    requires |ts| > 0 && ts[0] == Ident(first) && Script(ts, c).Ok?
    ensures Flatten(Script(ts, c).value) == Names(ts)
    decreases |ts|, 0
  {
    ScriptOkStarts(ts, c);
    var g := ReadGroup(ts[1..], first, c).value;
    ReadGroupReadsLine(ts[1..], first, c);
    ScriptAfterGroup(ts, c, first, g);
    GroupsInScriptOrder(g.rest, c.(names := g.names));
    var line := Names(ts[1..][..LineLength(ts[1..])]);
    NamesAroundLineEnd(ts[1..], LineLength(ts[1..]));
    FlattenCons(g.group, Script(g.rest, c.(names := g.names)).value);
    assert Names(ts) == [first] + Names(ts[1..]);
    assert ([first] + line) + Names(g.rest) == [first] + (line + Names(g.rest));
  }

  /** The names around a line end are the names before it and after it. */
  lemma NamesAroundLineEnd(ts: seq<ScriptToken>, k: nat)
    requires k < |ts| && ts[k] == Eol
    ensures Names(ts) == Names(ts[..k]) + Names(ts[k + 1..])
  {
    assert ts == ts[..k] + [Eol] + ts[k + 1..];
    NamesAppend(ts[..k] + [Eol], ts[k + 1..]);
    NamesAppend(ts[..k], [Eol]);
    assert Names([Eol]) == [];
    assert Names(ts[..k]) + [] == Names(ts[..k]);
  }

  lemma FlattenCons(g: RelocGroup, gs: seq<RelocGroup>)
    ensures Flatten([g] + gs) == g.relocations + Flatten(gs)
  {
    assert ([g] + gs)[1..] == gs;
  }

  /** A first name is never one listed before, in an earlier group or
      before the script part read. */
  lemma {:induction false} FirstNamesFresh(ts: seq<ScriptToken>, c: Cursor)
    requires Script(ts, c).Ok?
    ensures forall i :: 0 <= i < |Script(ts, c).value| ==> Script(ts, c).value[i].relocations[0] !in c.names
    ensures forall i, j :: 0 <= i < j < |Script(ts, c).value| ==>
      Script(ts, c).value[j].relocations[0] !in Script(ts, c).value[i].relocations
    decreases |ts|, 1
  {
    if |ts| > 0 {
      ScriptOkStarts(ts, c);
      match ts[0]
      case Ident(first) => FirstNameFresh(ts, c, first);
      case Eol =>
        ScriptAtLineEnd(ts, c);
        FirstNamesFresh(ts[1..], c.(line := c.line + 1));
      case Period =>
        ScriptAtPeriod(ts, c);
        FirstNamesFresh(ts[2..], c.(offset := ts[1].value as nat));
    }
  }

  lemma {:induction false} FirstNameFresh(ts: seq<ScriptToken>, c: Cursor, first: string)
    requires |ts| > 0 && ts[0] == Ident(first) && Script(ts, c).Ok?
    ensures forall i :: 0 <= i < |Script(ts, c).value| ==> Script(ts, c).value[i].relocations[0] !in c.names
    ensures forall i, j :: 0 <= i < j < |Script(ts, c).value| ==>
      Script(ts, c).value[j].relocations[0] !in Script(ts, c).value[i].relocations
    decreases |ts|, 0
  {
    ScriptOkStarts(ts, c);
    var g := ReadGroup(ts[1..], first, c).value;
    ReadGroupReadsLine(ts[1..], first, c);
    ScriptAfterGroup(ts, c, first, g);
    var c' := c.(names := g.names);
    FirstNamesFresh(g.rest, c');
    NamesInNameSet(ts[1..][..LineLength(ts[1..])]);
    var more := Script(g.rest, c').value;
    FreshAfterGroup(g.group, more, c.names, c'.names);
  }

  /** The freshness of first names carries over a group whose names are all
      recorded before the rest is read. */
  lemma FreshAfterGroup(group: RelocGroup, more: seq<RelocGroup>, before: set<string>, after: set<string>)
    requires |group.relocations| > 0 && group.relocations[0] !in before
    requires forall x :: x in group.relocations ==> x in after
    requires before <= after
    requires forall i :: 0 <= i < |more| ==> |more[i].relocations| > 0
    requires forall i :: 0 <= i < |more| ==> more[i].relocations[0] !in after
    requires forall i, j :: 0 <= i < j < |more| ==> more[j].relocations[0] !in more[i].relocations
    ensures forall i :: 0 <= i < |[group] + more| ==> ([group] + more)[i].relocations[0] !in before
    ensures forall i, j :: 0 <= i < j < |[group] + more| ==>
      ([group] + more)[j].relocations[0] !in ([group] + more)[i].relocations
  {
    var gs := [group] + more;
    forall i, j | 0 <= i < j < |gs| ensures gs[j].relocations[0] !in gs[i].relocations {
      assert gs[j] == more[j - 1];
      if i > 0 {
        assert gs[i] == more[i - 1];
      }
    }
    forall i | 0 <= i < |gs| ensures gs[i].relocations[0] !in before {
      if i > 0 {
        assert gs[i] == more[i - 1];
      }
    }
  }

  /** Without a period every group starts at the same cursor: the parser
      never advances it past a group. */
  lemma {:induction false} OffsetOnlyMovesOnPeriod(ts: seq<ScriptToken>, c: Cursor)
    requires Script(ts, c).Ok? && Period !in ts
    ensures forall i :: 0 <= i < |Script(ts, c).value| ==> Script(ts, c).value[i].offset == c.offset
    decreases |ts|, 1
  {
    if |ts| > 0 {
      ScriptOkStarts(ts, c);
      match ts[0]
      case Ident(first) => OffsetKeptByGroup(ts, c, first);
      case Eol =>
        NoPeriodAfter(ts, 1);
        ScriptAtLineEnd(ts, c);
        OffsetOnlyMovesOnPeriod(ts[1..], c.(line := c.line + 1));
    }
  }

  lemma {:induction false} OffsetKeptByGroup(ts: seq<ScriptToken>, c: Cursor, first: string)
    requires |ts| > 0 && ts[0] == Ident(first)
    requires Script(ts, c).Ok? && Period !in ts
    ensures forall i :: 0 <= i < |Script(ts, c).value| ==> Script(ts, c).value[i].offset == c.offset
    decreases |ts|, 0
  {
    ScriptOkStarts(ts, c);
    var g := ReadGroup(ts[1..], first, c).value;
    ReadGroupReadsLine(ts[1..], first, c);
    ScriptAfterGroup(ts, c, first, g);
    var k := LineLength(ts[1..]);
    assert g.rest == ts[k + 2..];
    NoPeriodAfter(ts, k + 2);
    OffsetOnlyMovesOnPeriod(g.rest, c.(names := g.names));
    var more := Script(g.rest, c.(names := g.names)).value;
    forall i | 0 <= i < |[g.group] + more| ensures ([g.group] + more)[i].offset == c.offset {
      if i > 0 {
        assert ([g.group] + more)[i] == more[i - 1];
      }
    }
  }

  lemma NoPeriodAfter(ts: seq<ScriptToken>, k: nat)
    requires Period !in ts && k <= |ts|
    ensures Period !in ts[k..]
  {
    forall i | 0 <= i < |ts[k..]| ensures ts[k..][i] != Period {
      assert ts[k..][i] == ts[k + i];
    }
  }

  /** `. n` sets the cursor for what follows, whatever it was. */
  lemma SetOffsetThenRead(n: u16, ts: seq<ScriptToken>, c: Cursor)
    ensures Script([Period, Number(n)] + ts, c) == Script(ts, c.(offset := n as nat))
  {
    var all := [Period, Number(n)] + ts;
    assert all[1..] == [Number(n)] + ts;
    assert all[1..][1..] == ts;
  }

  /** A line holding one name and a limit is a group of its own. */
  lemma LimitedGroupLine(name: string, n: u16, c: Cursor)
    requires name !in c.names
    ensures Script([Ident(name), Number(n), Eol], c) == Ok([RelocGroup([name], c.offset, Some(c.offset + n as nat))])
  {
    var ts := [Ident(name), Number(n), Eol];
    var line := ts[1..];
    assert line[1..] == [Eol];
    assert LineLength(line) == 1;
    assert line[..1] == [Number(n)];
    assert line[..1][1..] == [];
    assert LastNumber(line[..1]) == Some(n);
    assert Names(line[..1]) == [];
    assert NameSet(line[..1]) == {};
    assert line[2..] == [];
    ReadGroupReadsLine(line, name, c);
    var g := ReadGroup(line, name, c).value;
    assert g.rest == [];
    assert g.group.relocations == [name] + [];
    assert g.group == RelocGroup([name], c.offset, Some(c.offset + n as nat));
    ScriptAfterGroup(ts, c, name, g);
    assert Script([], c.(names := g.names)) == Ok([]);
    assert [g.group] + [] == [g.group];
  }

  /** A line holding one name starts a group with no limit; what follows
      is read with that name recorded. */
  lemma NameLine(name: string, rest: seq<ScriptToken>, c: Cursor)
    requires name !in c.names
    ensures Script([Ident(name), Eol] + rest, c) ==
      (var c' := c.(names := c.names + {name});
       if Script(rest, c').Ok? then Ok([RelocGroup([name], c.offset, None)] + Script(rest, c').value)
       else Script(rest, c'))
  {
    var ts := [Ident(name), Eol] + rest;
    assert ts[1..] == [Eol] + rest;
    assert LineLength(ts[1..]) == 0;
    assert ts[1..][..0] == [];
    assert ts[1..][1..] == rest;
  }

  /** The example of the script's own documentation: after `. 0x1000`,
      `text` and `data 0x100` both start at 0x1000, the second limited to end
      at 0x1100; the start of `data` is left to be adjusted later. */
  lemma DocumentedScript()
    ensures ReadScript([Period, Number(0x1000), Eol, Ident("text"), Eol, Ident("data"), Number(0x100), Eol])
      == Ok([RelocGroup(["text"], 0x1000, None), RelocGroup(["data"], 0x1000, Some(0x1100))])
  {
    var last := [Ident("data"), Number(0x100), Eol];
    var body := [Ident("text"), Eol] + last;
    var c2 := Cursor(0x1000, 2, {});
    var c3 := Cursor(0x1000, 2, {"text"});
    var g1 := RelocGroup(["text"], 0x1000, None);
    var g2 := RelocGroup(["data"], 0x1000, Some(0x1100));
    assert Script(last, c3) == Ok([g2]) by {
      assert "data" !in c3.names by {
        assert "data"[0] != "text"[0];
      }
      LimitedGroupLine("data", 0x100, c3);
    }
    assert Script(body, c2) == Ok([g1, g2]) by {
      NameLine("text", last, c2);
      assert c2.(names := c2.names + {"text"}) == c3;
      assert [g1] + [g2] == [g1, g2];
    }
    assert Script([Eol] + body, Cursor(0x1000, 1, {})) == Ok([g1, g2]) by {
      assert ([Eol] + body)[1..] == body;
    }
    assert [Period, Number(0x1000), Eol, Ident("text"), Eol, Ident("data"), Number(0x100), Eol]
      == [Period, Number(0x1000)] + ([Eol] + body);
    SetOffsetThenRead(0x1000, [Eol] + body, Cursor(0, 1, {}));
  }

  /** The line count only moves on line ends read between groups: the end
      of a group's line is not counted, so a repetition on the third line is
      reported on line 2. */
  lemma LineEndOfGroupUncounted()
    ensures ReadScript([Eol, Ident("a"), Eol, Ident("a"), Eol]) == Err(ScriptFailure(2, ListedTwice("a")))
  {
    var ts := [Eol, Ident("a"), Eol, Ident("a"), Eol];
    assert ts[1..] == [Ident("a"), Eol, Ident("a"), Eol];
    assert ts[2..] == [Eol, Ident("a"), Eol];
    assert LineLength(ts[2..]) == 0;
    assert ts[2..][1..] == [Ident("a"), Eol];
  }
}

=== FILE: mnemonics.dfy ===
/** The mnemonic keyword handlers (`s502-as/src/callbacks/mnemonics.rs`): every
    keyword records its mnemonic through the one shared `insert_mnem`. */
module Mnemonics {
  import opened Wrappers
  import opened Ir

  /** `insert_mnem`: a line holds one mnemonic, and it comes before the
      operand. */
  function InsertMnem(p: Program, m: Mnemonic): (r: AsmResult<Program>)
    ensures p.ins.Some? ==> r == Err(MultipleMnemonics)
    ensures p.ins.None? && p.op.Some? ==> r == Err(MnemonicAfterOperand)
    ensures r.Ok? <==> p.ins.None? && p.op.None?
    ensures r.Ok? ==> r.value.ins == Some(m) && !r.value.startLine
    ensures r.Ok? ==> r.value.(ins := p.ins, startLine := p.startLine) == p
  {
    if p.ins.Some? then Err(MultipleMnemonics)
    else if p.op.Some? then Err(MnemonicAfterOperand)
    else Ok(p.(ins := Some(m), startLine := false))
  }
}

=== FILE: opcodes.dfy ===
/** The opcode table: for every mnemonic and address mode, the encoded
    opcode byte, or nothing for an invalid combination
    (`s502-as/src/opcodes.rs`). */
module Opcodes {
  import opened Wrappers
  import opened Bytes
  import opened Ir

  /** `OPCODES[m][mode]`, written column by column: for each address mode,
      the mnemonics valid in it and their opcode bytes; every other
      combination is invalid. */
  function Opcode(m: Mnemonic, mode: AddressMode): Option<byte> {
    match mode
    case Acc => AccColumn(m)
    case Abs => AbsColumn(m)
    case AbsX => AbsXColumn(m)
    case AbsY => AbsYColumn(m)
    case Imme => ImmeColumn(m)
    case Impl => ImplColumn(m)
    case Ind => IndColumn(m)
    case Xind => XindColumn(m)
    case IndY => IndYColumn(m)
    case Zpg => ZpgColumn(m)
    case ZpgX => ZpgXColumn(m)
    case ZpgY => ZpgYColumn(m)
  }

  /** The columns of the table, one per address mode. */
  function AccColumn(m: Mnemonic): Option<byte> {
    match m
    case Asl => Some(0x0a)
    case Lsr => Some(0x4a)
    case Rol => Some(0x2a)
    case Ror => Some(0x6a)
    case _ => None
  }

  function AbsColumn(m: Mnemonic): Option<byte> {
    match m
    case Adc => Some(0x6d)
    case And => Some(0x2d)
    case Asl => Some(0x0e)
    case Bit => Some(0x2c)
    case Cmp => Some(0xcd)
    case Cpx => Some(0xec)
    case Cpy => Some(0xcc)
    case Dec => Some(0xce)
    case Eor => Some(0x4d)
    case Inc => Some(0xee)
    case Jmp => Some(0x4c)
    case Jsr => Some(0x20)
    case Lda => Some(0xad)
    case Ldx => Some(0xae)
    case Ldy => Some(0xac)
    case Lsr => Some(0x4e)
    case Ora => Some(0x0d)
    case Rol => Some(0x2e)
    case Ror => Some(0x6e)
    case Sbc => Some(0xed)
    case Sta => Some(0x8d)
    case Stx => Some(0x8e)
    case Sty => Some(0x8c)
    case _ => None
  }

  function AbsXColumn(m: Mnemonic): Option<byte> {
    match m
    case Adc => Some(0x7d)
    case And => Some(0x3d)
    case Asl => Some(0x1e)
    case Cmp => Some(0xdd)
    case Dec => Some(0xde)
    case Eor => Some(0x5d)
    case Inc => Some(0xfe)
    case Lda => Some(0xbd)
    case Ldx => Some(0xbe)
    case Ldy => Some(0xbc)
    case Lsr => Some(0x5e)
    case Ora => Some(0x1d)
    case Rol => Some(0x3e)
    case Ror => Some(0x7e)
    case Sbc => Some(0xfd)
    case Sta => Some(0x9d)
    case _ => None
  }

  function AbsYColumn(m: Mnemonic): Option<byte> {
    match m
    case Adc => Some(0x79)
    case And => Some(0x39)
    case Cmp => Some(0xd9)
    case Eor => Some(0x59)
    case Lda => Some(0xb9)
    case Ora => Some(0x19)
    case Sbc => Some(0xf9)
    case Sta => Some(0x99)
    case _ => None
  }

  function ImmeColumn(m: Mnemonic): Option<byte> {
    match m
    case Adc => Some(0x69)
    case And => Some(0x29)
    case Cmp => Some(0xc9)
    case Cpx => Some(0xe0)
    case Cpy => Some(0xc0)
    case Eor => Some(0x49)
    case Lda => Some(0xa9)
    case Ldx => Some(0xa2)
    case Ldy => Some(0xa0)
    case Ora => Some(0x09)
    case Sbc => Some(0xe9)
    case _ => None
  }

  function ImplColumn(m: Mnemonic): Option<byte> {
    match m
    case Brk => Some(0x00)
    case Clc => Some(0x18)
    case Cld => Some(0xd8)
    case Cli => Some(0x58)
    case Clv => Some(0xb8)
    case Dex => Some(0xca)
    case Dey => Some(0x88)
    case Inx => Some(0xe8)
    case Iny => Some(0xc8)
    case Nop => Some(0xea)
    case Pha => Some(0x48)
    case Php => Some(0x08)
    case Pla => Some(0x68)
    case Plp => Some(0x28)
    case Rti => Some(0x40)
    case Rts => Some(0x60)
    case Sec => Some(0x38)
    case Sed => Some(0xf8)
    case Sei => Some(0x78)
    case Tax => Some(0xaa)
    case Tay => Some(0xa8)
    case Tsx => Some(0xba)
    case Txa => Some(0x8a)
    case Txs => Some(0x9a)
    case Tya => Some(0x98)
    case _ => None
  }

  function IndColumn(m: Mnemonic): Option<byte> {
    match m
    case Jmp => Some(0x6c)
    case _ => None
  }

  function XindColumn(m: Mnemonic): Option<byte> {
    match m
    case Adc => Some(0x61)
    case And => Some(0x21)
    case Cmp => Some(0xc1)
    case Eor => Some(0x41)
    case Lda => Some(0xa1)
    case Ora => Some(0x01)
    case Sbc => Some(0xe1)
    case Sta => Some(0x81)
    case _ => None
  }

  function IndYColumn(m: Mnemonic): Option<byte> {
    match m
    case Adc => Some(0x71)
    case And => Some(0x31)
    case Cmp => Some(0xd1)
    case Eor => Some(0x51)
    case Lda => Some(0xb1)
    case Ora => Some(0x11)
    case Sbc => Some(0xf1)
    case Sta => Some(0x91)
    case _ => None
  }

  function ZpgColumn(m: Mnemonic): Option<byte> {
    match m
    case Adc => Some(0x65)
    case And => Some(0x25)
    case Asl => Some(0x06)
    case Bcc => Some(0x90)
    case Bcs => Some(0xb0)
    case Beq => Some(0xf0)
    case Bit => Some(0x24)
    case Bmi => Some(0x30)
    case Bne => Some(0xd0)
    case Bpl => Some(0x10)
    case Bvc => Some(0x50)
    case Bvs => Some(0x70)
    case Cmp => Some(0xc5)
    case Cpx => Some(0xe4)
    case Cpy => Some(0xc4)
    case Dec => Some(0xc6)
    case Eor => Some(0x45)
    case Inc => Some(0xe6)
    case Lda => Some(0xa5)
    case Ldx => Some(0xa6)
    case Ldy => Some(0xa4)
    case Lsr => Some(0x46)
    case Ora => Some(0x05)
    case Rol => Some(0x26)
    case Ror => Some(0x66)
    case Sbc => Some(0xe5)
    case Sta => Some(0x85)
    case Stx => Some(0x86)
    case Sty => Some(0x84)
    case _ => None
  }

  function ZpgXColumn(m: Mnemonic): Option<byte> {
    match m
    case Adc => Some(0x75)
    case And => Some(0x35)
    case Asl => Some(0x16)
    case Cmp => Some(0xd5)
    case Dec => Some(0xd6)
    case Eor => Some(0x55)
    case Inc => Some(0xf6)
    case Lda => Some(0xb5)
    case Ldx => Some(0xb6)
    case Ldy => Some(0xb4)
    case Lsr => Some(0x56)
    case Ora => Some(0x15)
    case Rol => Some(0x36)
    case Ror => Some(0x76)
    case Sbc => Some(0xf5)
    case Sta => Some(0x95)
    case Sty => Some(0x94)
    case _ => None
  }

  function ZpgYColumn(m: Mnemonic): Option<byte> {
    match m
    case Ldx => Some(0xb6)
    case Stx => Some(0x96)
    case _ => None
  }

  /** The inverse table, laid out as the 16 x 16 opcode matrix a
      disassembler uses: for each opcode byte, the one instruction and mode it
      encodes. */
  function Disassemble(b: byte): Option<(Mnemonic, AddressMode)> {
    match b / 0x10
    case 0x0 => (
      match b % 0x10
      case 0x0 => Some((Brk, AddressMode.Impl))
      case 0x1 => Some((Ora, AddressMode.Xind))
      case 0x5 => Some((Ora, AddressMode.Zpg))
      case 0x6 => Some((Asl, AddressMode.Zpg))
      case 0x8 => Some((Php, AddressMode.Impl))
      case 0x9 => Some((Ora, AddressMode.Imme))
      case 0xa => Some((Asl, AddressMode.Acc))
      case 0xd => Some((Ora, AddressMode.Abs))
      case 0xe => Some((Asl, AddressMode.Abs))
      case _ => None)
    case 0x1 => (
      match b % 0x10
      case 0x0 => Some((Bpl, AddressMode.Zpg))
      case 0x1 => Some((Ora, AddressMode.IndY))
      case 0x5 => Some((Ora, AddressMode.ZpgX))
      case 0x6 => Some((Asl, AddressMode.ZpgX))
      case 0x8 => Some((Clc, AddressMode.Impl))
      case 0x9 => Some((Ora, AddressMode.AbsY))
      case 0xd => Some((Ora, AddressMode.AbsX))
      case 0xe => Some((Asl, AddressMode.AbsX))
      case _ => None)
    case 0x2 => (
      match b % 0x10
      case 0x0 => Some((Jsr, AddressMode.Abs))
      case 0x1 => Some((And, AddressMode.Xind))
      case 0x4 => Some((Bit, AddressMode.Zpg))
      case 0x5 => Some((And, AddressMode.Zpg))
      case 0x6 => Some((Rol, AddressMode.Zpg))
      case 0x8 => Some((Plp, AddressMode.Impl))
      case 0x9 => Some((And, AddressMode.Imme))
      case 0xa => Some((Rol, AddressMode.Acc))
      case 0xc => Some((Bit, AddressMode.Abs))
      case 0xd => Some((And, AddressMode.Abs))
      case 0xe => Some((Rol, AddressMode.Abs))
      case _ => None)
    case 0x3 => (
      match b % 0x10
      case 0x0 => Some((Bmi, AddressMode.Zpg))
      case 0x1 => Some((And, AddressMode.IndY))
      case 0x5 => Some((And, AddressMode.ZpgX))
      case 0x6 => Some((Rol, AddressMode.ZpgX))
      case 0x8 => Some((Sec, AddressMode.Impl))
      case 0x9 => Some((And, AddressMode.AbsY))
      case 0xd => Some((And, AddressMode.AbsX))
      case 0xe => Some((Rol, AddressMode.AbsX))
      case _ => None)
    case 0x4 => (
      match b % 0x10
      case 0x0 => Some((Rti, AddressMode.Impl))
      case 0x1 => Some((Eor, AddressMode.Xind))
      case 0x5 => Some((Eor, AddressMode.Zpg))
      case 0x6 => Some((Lsr, AddressMode.Zpg))
      case 0x8 => Some((Pha, AddressMode.Impl))
      case 0x9 => Some((Eor, AddressMode.Imme))
      case 0xa => Some((Lsr, AddressMode.Acc))
      case 0xc => Some((Jmp, AddressMode.Abs))
      case 0xd => Some((Eor, AddressMode.Abs))
      case 0xe => Some((Lsr, AddressMode.Abs))
      case _ => None)
    case 0x5 => (
      match b % 0x10
      case 0x0 => Some((Bvc, AddressMode.Zpg))
      case 0x1 => Some((Eor, AddressMode.IndY))
      case 0x5 => Some((Eor, AddressMode.ZpgX))
      case 0x6 => Some((Lsr, AddressMode.ZpgX))
      case 0x8 => Some((Cli, AddressMode.Impl))
      case 0x9 => Some((Eor, AddressMode.AbsY))
      case 0xd => Some((Eor, AddressMode.AbsX))
      case 0xe => Some((Lsr, AddressMode.AbsX))
      case _ => None)
    case 0x6 => (
      match b % 0x10
      case 0x0 => Some((Rts, AddressMode.Impl))
      case 0x1 => Some((Adc, AddressMode.Xind))
      case 0x5 => Some((Adc, AddressMode.Zpg))
      case 0x6 => Some((Ror, AddressMode.Zpg))
      case 0x8 => Some((Pla, AddressMode.Impl))
      case 0x9 => Some((Adc, AddressMode.Imme))
      case 0xa => Some((Ror, AddressMode.Acc))
      case 0xc => Some((Jmp, AddressMode.Ind))
      case 0xd => Some((Adc, AddressMode.Abs))
      case 0xe => Some((Ror, AddressMode.Abs))
      case _ => None)
    case 0x7 => (
      match b % 0x10
      case 0x0 => Some((Bvs, AddressMode.Zpg))
      case 0x1 => Some((Adc, AddressMode.IndY))
      case 0x5 => Some((Adc, AddressMode.ZpgX))
      case 0x6 => Some((Ror, AddressMode.ZpgX))
      case 0x8 => Some((Sei, AddressMode.Impl))
      case 0x9 => Some((Adc, AddressMode.AbsY))
      case 0xd => Some((Adc, AddressMode.AbsX))
      case 0xe => Some((Ror, AddressMode.AbsX))
      case _ => None)
    case 0x8 => (
      match b % 0x10
      case 0x1 => Some((Sta, AddressMode.Xind))
      case 0x4 => Some((Sty, AddressMode.Zpg))
      case 0x5 => Some((Sta, AddressMode.Zpg))
      case 0x6 => Some((Stx, AddressMode.Zpg))
      case 0x8 => Some((Dey, AddressMode.Impl))
      case 0xa => Some((Txa, AddressMode.Impl))
      case 0xc => Some((Sty, AddressMode.Abs))
      case 0xd => Some((Sta, AddressMode.Abs))
      case 0xe => Some((Stx, AddressMode.Abs))
      case _ => None)
    case 0x9 => (
      match b % 0x10
      case 0x0 => Some((Bcc, AddressMode.Zpg))
      case 0x1 => Some((Sta, AddressMode.IndY))
      case 0x4 => Some((Sty, AddressMode.ZpgX))
      case 0x5 => Some((Sta, AddressMode.ZpgX))
      case 0x6 => Some((Stx, AddressMode.ZpgY))
      case 0x8 => Some((Tya, AddressMode.Impl))
      case 0x9 => Some((Sta, AddressMode.AbsY))
      case 0xa => Some((Txs, AddressMode.Impl))
      case 0xd => Some((Sta, AddressMode.AbsX))
      case _ => None)
    case 0xa => (
      match b % 0x10
      case 0x0 => Some((Ldy, AddressMode.Imme))
      case 0x1 => Some((Lda, AddressMode.Xind))
      case 0x2 => Some((Ldx, AddressMode.Imme))
      case 0x4 => Some((Ldy, AddressMode.Zpg))
      case 0x5 => Some((Lda, AddressMode.Zpg))
      case 0x6 => Some((Ldx, AddressMode.Zpg))
      case 0x8 => Some((Tay, AddressMode.Impl))
      case 0x9 => Some((Lda, AddressMode.Imme))
      case 0xa => Some((Tax, AddressMode.Impl))
      case 0xc => Some((Ldy, AddressMode.Abs))
      case 0xd => Some((Lda, AddressMode.Abs))
      case 0xe => Some((Ldx, AddressMode.Abs))
      case _ => None)
    case 0xb => (
      match b % 0x10
      case 0x0 => Some((Bcs, AddressMode.Zpg))
      case 0x1 => Some((Lda, AddressMode.IndY))
      case 0x4 => Some((Ldy, AddressMode.ZpgX))
      case 0x5 => Some((Lda, AddressMode.ZpgX))
      case 0x6 => Some((Ldx, AddressMode.ZpgY))
      case 0x8 => Some((Clv, AddressMode.Impl))
      case 0x9 => Some((Lda, AddressMode.AbsY))
      case 0xa => Some((Tsx, AddressMode.Impl))
      case 0xc => Some((Ldy, AddressMode.AbsX))
      case 0xd => Some((Lda, AddressMode.AbsX))
      case 0xe => Some((Ldx, AddressMode.AbsX))
      case _ => None)
    case 0xc => (
      match b % 0x10
      case 0x0 => Some((Cpy, AddressMode.Imme))
      case 0x1 => Some((Cmp, AddressMode.Xind))
      case 0x4 => Some((Cpy, AddressMode.Zpg))
      case 0x5 => Some((Cmp, AddressMode.Zpg))
      case 0x6 => Some((Dec, AddressMode.Zpg))
      case 0x8 => Some((Iny, AddressMode.Impl))
      case 0x9 => Some((Cmp, AddressMode.Imme))
      case 0xa => Some((Dex, AddressMode.Impl))
      case 0xc => Some((Cpy, AddressMode.Abs))
      case 0xd => Some((Cmp, AddressMode.Abs))
      case 0xe => Some((Dec, AddressMode.Abs))
      case _ => None)
    case 0xd => (
      match b % 0x10
      case 0x0 => Some((Bne, AddressMode.Zpg))
      case 0x1 => Some((Cmp, AddressMode.IndY))
      case 0x5 => Some((Cmp, AddressMode.ZpgX))
      case 0x6 => Some((Dec, AddressMode.ZpgX))
      case 0x8 => Some((Cld, AddressMode.Impl))
      case 0x9 => Some((Cmp, AddressMode.AbsY))
      case 0xd => Some((Cmp, AddressMode.AbsX))
      case 0xe => Some((Dec, AddressMode.AbsX))
      case _ => None)
    case 0xe => (
      match b % 0x10
      case 0x0 => Some((Cpx, AddressMode.Imme))
      case 0x1 => Some((Sbc, AddressMode.Xind))
      case 0x4 => Some((Cpx, AddressMode.Zpg))
      case 0x5 => Some((Sbc, AddressMode.Zpg))
      case 0x6 => Some((Inc, AddressMode.Zpg))
      case 0x8 => Some((Inx, AddressMode.Impl))
      case 0x9 => Some((Sbc, AddressMode.Imme))
      case 0xa => Some((Nop, AddressMode.Impl))
      case 0xc => Some((Cpx, AddressMode.Abs))
      case 0xd => Some((Sbc, AddressMode.Abs))
      case 0xe => Some((Inc, AddressMode.Abs))
      case _ => None)
    case 0xf => (
      match b % 0x10
      case 0x0 => Some((Beq, AddressMode.Zpg))
      case 0x1 => Some((Sbc, AddressMode.IndY))
      case 0x5 => Some((Sbc, AddressMode.ZpgX))
      case 0x6 => Some((Inc, AddressMode.ZpgX))
      case 0x8 => Some((Sed, AddressMode.Impl))
      case 0x9 => Some((Sbc, AddressMode.AbsY))
      case 0xd => Some((Sbc, AddressMode.AbsX))
      case 0xe => Some((Inc, AddressMode.AbsX))
      case _ => None)
    case _ => None
  }

  /** Every valid entry decodes back to its own row and column, except the
      duplicated `ldx` zero-page-X entry, which decodes as zero-page-Y. */
  lemma OpcodeDisassembles(m: Mnemonic, mode: AddressMode)
    requires Opcode(m, mode).Some?
    ensures (m, mode) != (Ldx, AddressMode.ZpgX) ==> Disassemble(Opcode(m, mode).value) == Some((m, mode))
    ensures (m, mode) == (Ldx, AddressMode.ZpgX) ==> Disassemble(Opcode(m, mode).value) == Some((Ldx, AddressMode.ZpgY))
  {
    match mode
    case Acc => AccDisassembles(m);
    case Abs => AbsDisassembles(m);
    case AbsX => AbsXDisassembles(m);
    case AbsY => AbsYDisassembles(m);
    case Imme => ImmeDisassembles(m);
    case Impl => ImplDisassembles(m);
    case Ind => IndDisassembles(m);
    case Xind => XindDisassembles(m);
    case IndY => IndYDisassembles(m);
    case Zpg => ZpgDisassembles(m);
    case ZpgX => ZpgXDisassembles(m);
    case ZpgY => ZpgYDisassembles(m);
  }

  /** One lemma per column: each valid entry of the column decodes back to
      its mnemonic and the column's mode. */
  lemma AccDisassembles(m: Mnemonic)
    requires AccColumn(m).Some?
    ensures Disassemble(AccColumn(m).value) == Some((m, AddressMode.Acc))
  {
  }

  lemma AbsDisassembles(m: Mnemonic)
    requires AbsColumn(m).Some?
    ensures Disassemble(AbsColumn(m).value) == Some((m, AddressMode.Abs))
  {
  }

  lemma AbsXDisassembles(m: Mnemonic)
    requires AbsXColumn(m).Some?
    ensures Disassemble(AbsXColumn(m).value) == Some((m, AddressMode.AbsX))
  {
  }

  lemma AbsYDisassembles(m: Mnemonic)
    requires AbsYColumn(m).Some?
    ensures Disassemble(AbsYColumn(m).value) == Some((m, AddressMode.AbsY))
  {
  }

  lemma ImmeDisassembles(m: Mnemonic)
    requires ImmeColumn(m).Some?
    ensures Disassemble(ImmeColumn(m).value) == Some((m, AddressMode.Imme))
  {
  }

  lemma ImplDisassembles(m: Mnemonic)
    requires ImplColumn(m).Some?
    ensures Disassemble(ImplColumn(m).value) == Some((m, AddressMode.Impl))
  {
  }

  lemma IndDisassembles(m: Mnemonic)
    requires IndColumn(m).Some?
    ensures Disassemble(IndColumn(m).value) == Some((m, AddressMode.Ind))
  {
  }

  lemma XindDisassembles(m: Mnemonic)
    requires XindColumn(m).Some?
    ensures Disassemble(XindColumn(m).value) == Some((m, AddressMode.Xind))
  {
  }

  lemma IndYDisassembles(m: Mnemonic)
    requires IndYColumn(m).Some?
    ensures Disassemble(IndYColumn(m).value) == Some((m, AddressMode.IndY))
  {
  }

  lemma ZpgDisassembles(m: Mnemonic)
    requires ZpgColumn(m).Some?
    ensures Disassemble(ZpgColumn(m).value) == Some((m, AddressMode.Zpg))
  {
  }

  lemma ZpgXDisassembles(m: Mnemonic)
    requires ZpgXColumn(m).Some?
    ensures m != Ldx ==> Disassemble(ZpgXColumn(m).value) == Some((m, AddressMode.ZpgX))
    ensures m == Ldx ==> Disassemble(ZpgXColumn(m).value) == Some((Ldx, AddressMode.ZpgY))
  {
  }

  lemma ZpgYDisassembles(m: Mnemonic)
    requires ZpgYColumn(m).Some?
    ensures Disassemble(ZpgYColumn(m).value) == Some((m, AddressMode.ZpgY))
  {
  }

  /** Apart from `ldx`'s duplicated 0xb6, no two valid combinations share an
      opcode byte. */
  lemma OpcodeInjective(m1: Mnemonic, mode1: AddressMode, m2: Mnemonic, mode2: AddressMode)
    requires Opcode(m1, mode1).Some? && Opcode(m1, mode1) == Opcode(m2, mode2)
    requires (m1, mode1) != (Ldx, AddressMode.ZpgX) && (m2, mode2) != (Ldx, AddressMode.ZpgX)
    ensures m1 == m2 && mode1 == mode2
  {
    OpcodeDisassembles(m1, mode1);
    OpcodeDisassembles(m2, mode2);
  }

  /** `ldx` encodes zero-page-X and zero-page-Y as the same byte. */
  lemma LdxZeroPageDuplicate()
    ensures Opcode(Ldx, AddressMode.ZpgX) == Opcode(Ldx, AddressMode.ZpgY) == Some(0xb6)
  {
  }

  /** The modes a mnemonic can be encoded with. */
  function ValidModes(m: Mnemonic): (r: set<AddressMode>)
    ensures forall mode :: mode in r <==> Opcode(m, mode).Some?
  {
    set mode: AddressMode | Opcode(m, mode).Some?
  }

  /** The branches are exactly the mnemonics whose one valid mode is zero
      page, which the branch's relative operand parses as. */
  lemma BranchesAreZeroPageOnly(m: Mnemonic)
    ensures IsBranch(m) <==> ValidModes(m) == {AddressMode.Zpg}
  {
    if IsBranch(m) {
      BranchColumns(m);
      OnlyMode(m, AddressMode.Zpg);
    } else if Opcode(m, AddressMode.Zpg).Some? {
      // every other mnemonic with a zero-page form also has an absolute one
      ZeroPageHasAbsolute(m);
      assert AddressMode.Abs in ValidModes(m);
    } else {
      assert AddressMode.Zpg !in ValidModes(m);
    }
  }

  /** A mnemonic valid in one mode and no other. */
  lemma OnlyMode(m: Mnemonic, only: AddressMode)
    requires Opcode(m, only).Some?
    requires forall mode: AddressMode | mode != only :: Opcode(m, mode).None?
    ensures ValidModes(m) == {only}
  {
  }

  /** A branch is valid as zero page and nothing else. */
  lemma BranchColumns(m: Mnemonic)
    requires IsBranch(m)
    ensures Opcode(m, AddressMode.Zpg).Some?
    ensures forall mode: AddressMode | mode != AddressMode.Zpg :: Opcode(m, mode).None?
  {
  }

  /** Every non-branch with a zero-page form has an absolute one too. */
  lemma ZeroPageHasAbsolute(m: Mnemonic)
    requires !IsBranch(m) && ZpgColumn(m).Some?
    ensures AbsColumn(m).Some?
  {
  }

  /** The directive rows hold no opcode at all. */
  lemma DirectivesHaveNoOpcode(m: Mnemonic, mode: AddressMode)
    requires IsDirective(m)
    ensures Opcode(m, mode).None?
  {
  }

  /** `lda #` is 0xa9 and `lda` absolute is 0xad. */
  lemma LdaEncodings()
    ensures Opcode(Lda, AddressMode.Imme) == Some(0xa9)
    ensures Opcode(Lda, AddressMode.Abs) == Some(0xad)
  {
  }

  /** The accumulator mode is valid only for the four shift and rotate
      instructions. */
  lemma AccumulatorOnlyForShifts(m: Mnemonic)
    ensures Opcode(m, AddressMode.Acc).Some? <==> m in {Asl, Lsr, Rol, Ror}
  {
  }

  /** Indirect is valid only for `jmp`, as 0x6c; `jsr` is valid only as
      absolute, 0x20. */
  lemma IndirectOnlyForJmp(m: Mnemonic)
    ensures Opcode(m, AddressMode.Ind).Some? <==> m == Jmp
    ensures Opcode(Jmp, AddressMode.Ind) == Some(0x6c)
    ensures ValidModes(Jsr) == {AddressMode.Abs} && Opcode(Jsr, AddressMode.Abs) == Some(0x20)
  {
  }

  /** Zero-page-Y is valid only for `ldx` (0xb6) and `stx` (0x96). */
  lemma ZeroPageYOnlyForLdxStx(m: Mnemonic)
    ensures Opcode(m, AddressMode.ZpgY).Some? <==> m == Ldx || m == Stx
    ensures Opcode(Stx, AddressMode.ZpgY) == Some(0x96)
  {
  }

  /** The instructions that take no operand. */
  predicate ImpliedOnly(m: Mnemonic) {
    match m
    case Brk | Clc | Cld | Cli | Clv | Dex | Dey | Inx | Iny | Nop | Pha | Php | Pla | Plp
       | Rti | Rts | Sec | Sed | Sei | Tax | Tay | Tsx | Txa | Txs | Tya => true
    case _ => false
  }

  /** Implied is valid exactly for the operand-less instructions, and that is
      their one valid mode; `sta` has no immediate form. */
  lemma ImpliedInstructions(m: Mnemonic)
    ensures Opcode(m, AddressMode.Impl).Some? <==> ImpliedOnly(m)
    ensures ImpliedOnly(m) ==> ValidModes(m) == {AddressMode.Impl}
    ensures Opcode(Sta, AddressMode.Imme).None?
  {
    if ImpliedOnly(m) {
      ImpliedColumns(m);
      OnlyMode(m, AddressMode.Impl);
    }
  }

  /** An operand-less instruction is valid as implied and nothing else. */
  lemma ImpliedColumns(m: Mnemonic)
    requires ImpliedOnly(m)
    ensures Opcode(m, AddressMode.Impl).Some?
    ensures forall mode: AddressMode | mode != AddressMode.Impl :: Opcode(m, mode).None?
  {
  }
}

=== FILE: operands.dfy ===
/** The handlers of the tokens that build an operand: byte selectors,
    registers, `#`, `(`, `)`, `,` and numeric literals
    (`s502-as/src/callbacks/operands.rs`). Each takes the assembly context and
    gives the next one or the error the source reports. */
module Operands {
  import opened Wrappers
  import opened Bytes
  import opened Radix
  import opened Ir

  /** The states `<` and `>` act on: a plain, immediate or parenthesised
      operand that is a reference to a whole address. */
  predicate HoldsWholeRef(st: OpState) {
    match st
    case Plain(Ref(rf)) => rf.whichByte == Both
    case Imme(Ref(rf)) => rf.whichByte == Both
    case MaybeInd(Other(Ref(rf))) => rf.whichByte == Both
    case _ => false
  }

  /** `byte_high` and `byte_low`: narrow the last reference of the active
      section to one byte. The operand keeps its own copy of the reference
      with both bytes selected. */
  function SelectByte(p: Program, sel: ByteSelect): (r: AsmResult<Program>)
    requires sel != Both
    ensures !(p.op.Some? && HoldsWholeRef(p.op.value)) ==> r == Err(InvalidByteSelector)
    ensures p.op.Some? && HoldsWholeRef(p.op.value) && r.Err? ==> r.error == Panic
    ensures r.Ok? <==>
      p.op.Some? && HoldsWholeRef(p.op.value) && p.active in p.sections
      && |p.sections[p.active].references| > 0
    ensures r.Ok? ==> r.value.sections.Keys == p.sections.Keys
    ensures r.Ok? ==>
      var old_ := p.sections[p.active];
      var new_ := r.value.sections[p.active];
      && r.value.(sections := p.sections) == p
      && (forall n :: n in p.sections && n != p.active ==> r.value.sections[n] == p.sections[n])
      && new_.(references := old_.references) == old_
      && |new_.references| == |old_.references|
      && new_.references[|new_.references| - 1] == old_.references[|old_.references| - 1].(whichByte := sel)
      && new_.references[..|new_.references| - 1] == old_.references[..|old_.references| - 1]
  {
    if p.op.Some? && HoldsWholeRef(p.op.value) then
      var s :- ActiveSection(p);
      if |s.references| == 0 then Err(Panic)
      else
        var last := |s.references| - 1;
        Ok(UpdateActive(p, s.(references := s.references[last := s.references[last].(whichByte := sel)])))
    else
      Err(InvalidByteSelector)
  }

  function ByteHigh(p: Program): AsmResult<Program> { SelectByte(p, High) }

  function ByteLow(p: Program): AsmResult<Program> { SelectByte(p, Low) }

  /** `acc`: the accumulator operand must be the whole operand. */
  function AccReg(p: Program): (r: AsmResult<Program>)
    ensures r.Ok? <==> p.op.None?
    ensures r.Ok? ==> r.value.op == Some(OpState.Acc) && r.value.(op := p.op) == p
    ensures r.Err? ==> r.error == AccNotAlone
  {
    if p.op.Some? then Err(AccNotAlone) else Ok(p.(op := Some(OpState.Acc)))
  }

  /** `imme`: `#` must open the operand. */
  function ImmeSign(p: Program): (r: AsmResult<Program>)
    ensures r.Ok? <==> p.op.None?
    ensures r.Ok? ==> r.value.op == Some(StartImme) && r.value.(op := p.op) == p
    ensures r.Err? ==> r.error == ImmeNotFirst
  {
    if p.op.Some? then Err(ImmeNotFirst) else Ok(p.(op := Some(StartImme)))
  }

  /** `lparen`: `(` must open the operand. */
  function LParen(p: Program): (r: AsmResult<Program>)
    ensures r.Ok? <==> p.op.None?
    ensures r.Ok? ==> r.value.op == Some(StartInd) && r.value.(op := p.op) == p
    ensures r.Err? ==> r.error == LParenNotFirst
  {
    if p.op.Some? then Err(LParenNotFirst) else Ok(p.(op := Some(StartInd)))
  }

  /** Indexed by X or Y: the absolute form for a word-width value, zero page
      for a byte-width one. */
  function IndexedBy(v: OpVal, byX: bool): (st: OpState)
    ensures WidthConsistent(st) && Payload(st) == Some(v)
    ensures byX ==> (if IsByteWidth(v) then st.ZpgX? else st.AbsX?)
    ensures !byX ==> (if IsByteWidth(v) then st.ZpgY? else st.AbsY?)
  {
    if byX then (if IsByteWidth(v) then OpState.ZpgX(v) else OpState.AbsX(v))
    else (if IsByteWidth(v) then OpState.ZpgY(v) else OpState.AbsY(v))
  }

  /** `xreg`: `x` completes `val,` or `(val,`. */
  function XReg(p: Program): (r: AsmResult<Program>)
    ensures r.Ok? <==> p.op.Some? && (p.op.value.Idx? || (p.op.value.MaybeInd? && p.op.value.i.XindComma?))
    ensures r.Ok? && p.op.value.Idx? ==> r.value.op == Some(IndexedBy(p.op.value.v, true))
    ensures r.Ok? && p.op.value.MaybeInd? ==> r.value.op == Some(MaybeInd(IndOp.Xind(p.op.value.i.v)))
    ensures r.Ok? ==> r.value.(op := p.op) == p
    ensures r.Ok? && OptWidthConsistent(p.op) ==> OptWidthConsistent(r.value.op)
    ensures r.Err? ==> r.error == InvalidX
  {
    match p.op
    case Some(Idx(v)) => Ok(p.(op := Some(IndexedBy(v, true))))
    case Some(MaybeInd(XindComma(v))) => Ok(p.(op := Some(MaybeInd(IndOp.Xind(v)))))
    case _ => Err(InvalidX)
  }

  /** `yreg`: `y` completes `val,` or `(val),`; the latter needs a
      byte-width value. */
  function YReg(p: Program): (r: AsmResult<Program>)
    ensures r.Ok? <==> (p.op.Some? &&
      (p.op.value.Idx? || (p.op.value.MaybeInd? && p.op.value.i.IndYComma? && IsByteWidth(p.op.value.i.v))))
    ensures r.Ok? && p.op.value.Idx? ==> r.value.op == Some(IndexedBy(p.op.value.v, false))
    ensures r.Ok? && p.op.value.MaybeInd? ==> r.value.op == Some(OpState.IndY(p.op.value.i.v))
    ensures r.Ok? ==> r.value.(op := p.op) == p
    ensures r.Ok? ==> OptWidthConsistent(r.value.op)
    ensures r.Err? ==> r.error == InvalidY
  {
    match p.op
    case Some(Idx(v)) => Ok(p.(op := Some(IndexedBy(v, false))))
    case Some(MaybeInd(IndYComma(v))) =>
      if IsByteWidth(v) then Ok(p.(op := Some(OpState.IndY(v)))) else Err(InvalidY)
    case _ => Err(InvalidY)
  }

  /** `rparen`: `)` closes `(val` as indirect for a word-width value and as
      the first half of `(val),y` for a byte-width one, and closes `(val,x`. */
  function RParen(p: Program): (r: AsmResult<Program>)
    ensures r.Ok? <==> p.op.Some? && p.op.value.MaybeInd? && (p.op.value.i.Other? || p.op.value.i.Xind?)
    ensures r.Ok? && p.op.value.i.Other? ==>
      r.value.op == Some(if IsByteWidth(p.op.value.i.v) then MaybeInd(IndOp.IndY(p.op.value.i.v)) else OpState.Ind(p.op.value.i.v))
    ensures r.Ok? && p.op.value.i.Xind? ==> r.value.op == Some(OpState.Xind(p.op.value.i.v))
    ensures r.Ok? ==> r.value.(op := p.op) == p
    ensures r.Ok? && OptWidthConsistent(p.op) ==> OptWidthConsistent(r.value.op)
    ensures r.Err? ==> r.error == InvalidRParen
  {
    match p.op
    case Some(MaybeInd(Other(v))) =>
      Ok(p.(op := Some(if IsByteWidth(v) then MaybeInd(IndOp.IndY(v)) else OpState.Ind(v))))
    case Some(MaybeInd(Xind(v))) => Ok(p.(op := Some(OpState.Xind(v))))
    case _ => Err(InvalidRParen)
  }

  /** `comma`: `val,` starts an indexed operand, `(val,` needs a byte-width
      value, and `(val),` continues towards `(val),y`. */
  function Comma(p: Program): (r: AsmResult<Program>)
    ensures r.Ok? <==> (p.op.Some? &&
      (p.op.value.Plain?
       || (p.op.value.MaybeInd? && p.op.value.i.Other? && IsByteWidth(p.op.value.i.v))
       || (p.op.value.MaybeInd? && p.op.value.i.IndY?)))
    ensures r.Ok? && p.op.value.Plain? ==> r.value.op == Some(Idx(p.op.value.v))
    ensures r.Ok? && p.op.value.MaybeInd? && p.op.value.i.Other? ==> r.value.op == Some(MaybeInd(XindComma(p.op.value.i.v)))
    ensures r.Ok? && p.op.value.MaybeInd? && p.op.value.i.IndY? ==> r.value.op == Some(MaybeInd(IndYComma(p.op.value.i.v)))
    ensures r.Ok? ==> r.value.(op := p.op) == p
    ensures r.Ok? && OptWidthConsistent(p.op) ==> OptWidthConsistent(r.value.op)
    ensures r.Err? ==> r.error == InvalidComma
  {
    match p.op
    case Some(Plain(v)) => Ok(p.(op := Some(Idx(v))))
    case Some(MaybeInd(Other(v))) =>
      if IsByteWidth(v) then Ok(p.(op := Some(MaybeInd(XindComma(v))))) else Err(InvalidComma)
    case Some(MaybeInd(IndY(v))) => Ok(p.(op := Some(MaybeInd(IndYComma(v)))))
    case _ => Err(InvalidComma)
  }

  /** How a value opens an operand, as a label or a literal does: alone,
      after `#`, or after `(`; anything else already under way rejects it. */
  function OpenWith(op: Option<OpState>, v: OpVal): (r: Option<OpState>)
    ensures r.Some? <==> (op.None? || op == Some(StartImme) || op == Some(StartInd))
    ensures op.None? ==> r == Some(Plain(v))
    ensures op == Some(StartImme) ==> r == Some(OpState.Imme(v))
    ensures op == Some(StartInd) ==> r == Some(MaybeInd(Other(v)))
  {
    match op
    case None => Some(Plain(v))
    case Some(StartImme) => Some(OpState.Imme(v))
    case Some(StartInd) => Some(MaybeInd(Other(v)))
    case _ => None
  }

  /** The radix a literal's first character selects. */
  function LiteralBase(c: char): (b: nat)
    ensures b in {2, 8, 10, 16}
    ensures b == 2 <==> c == '%'
    ensures b == 8 <==> c == '@'
    ensures b == 16 <==> c == '$'
  {
    if c == '%' then 2 else if c == '@' then 8 else if c == '$' then 16 else 10
  }

  /** The most digits a literal may have and still be a byte. */
  function MaxByteDigits(base: nat): nat {
    if base == 10 then 3 else if base == 2 then 8 else if base == 8 then 3 else if base == 16 then 2 else 0
  }

  /** The digits of a literal: all of it in decimal, all but the prefix
      character otherwise. */
  function LiteralDigits(slice: string): string
    requires |slice| > 0
  {
    if LiteralBase(slice[0]) == 10 then slice else slice[1..]
  }

  /** The value a numeric literal denotes, as a byte or a word. It is a word
      when it exceeds 255 or has more digits than a byte needs in its radix,
      so `$00ff` stays a word. */
  function LiteralValue(slice: string): (r: AsmResult<OpVal>)
    ensures |slice| == 0 ==> r == Err(Panic)
    ensures |slice| > 0 ==>
      var base := LiteralBase(slice[0]);
      var digits := LiteralDigits(slice);
      && (r.Ok? <==> FromStrRadix(digits, base).Some?)
      && (r.Err? ==> r.error == InvalidNumber)
      && (r.Ok? ==>
            var n := FromStrRadix(digits, base).value;
            && (r.value.Word? <==> (n > 255 || |digits| > MaxByteDigits(base)))
            && !r.value.Ref?
            && (if r.value.Word? then r.value.w == n else r.value.b == n))
  {
    if |slice| == 0 then Err(Panic)
    else
      var base := LiteralBase(slice[0]);
      var digits := LiteralDigits(slice);
      match FromStrRadix(digits, base)
      case None => Err(InvalidNumber)
      case Some(n) =>
        if n > 255 || |digits| > MaxByteDigits(base) then Ok(Word(n)) else Ok(Byte(n))
  }

  /** `number`: a literal opens a plain operand, completes `#` when it is a
      byte, or follows `(`. */
  function Number(p: Program, slice: string): (r: AsmResult<Program>)
    ensures LiteralValue(slice).Err? ==> r == Err(LiteralValue(slice).error)
    ensures LiteralValue(slice).Ok? ==>
      var v := LiteralValue(slice).value;
      && (r.Ok? <==> (p.op.None? || p.op == Some(StartInd) || (p.op == Some(StartImme) && v.Byte?)))
      && (r.Err? ==> r.error == InvalidNumberPlacement)
      && (r.Ok? && p.op.None? ==> r.value.op == Some(Plain(v)))
      && (r.Ok? && p.op == Some(StartImme) ==> r.value.op == Some(OpState.Imme(v)))
      && (r.Ok? && p.op == Some(StartInd) ==> r.value.op == Some(MaybeInd(Other(v))))
    ensures r.Ok? ==> r.value.(op := p.op) == p && OptWidthConsistent(r.value.op)
  {
    var v :- LiteralValue(slice);
    match p.op
    case None => Ok(p.(op := Some(Plain(v))))
    case Some(StartImme) => if v.Byte? then Ok(p.(op := Some(OpState.Imme(v)))) else Err(InvalidNumberPlacement)
    case Some(StartInd) => Ok(p.(op := Some(MaybeInd(Other(v)))))
    case _ => Err(InvalidNumberPlacement)
  }
}

=== FILE: output.dfy ===
/** `create_object` (`s502-as/src/output.rs`): the byte image of an object
    file. A little-endian section count, then per section a 44-byte header,
    the flattened label tree, the reference records and the payload padded
    to a multiple of four bytes. */
module Output {
  import opened Wrappers
  import opened Bytes
  import opened Ir
  import opened Labels

  const SectionHeaderLen: nat := 44
  const ParentRecordLen: nat := 44
  const ChildRecordLen: nat := 40
  const ReferenceRecordLen: nat := 72
  const ReferredLen: nat := 64

  /** `vis as u32`: the declaration order of the variants. */
  function VisCode(v: Visibility): (r: nat)
    ensures r < 3
  {
    match v
    case Hidden => 0
    case Object => 1
    case Global => 2
  }

  /** `which_byte as u16`: the declaration order of the variants. */
  function SelectCode(b: ByteSelect): (r: u16)
    ensures r < 3
  {
    match b
    case Both => 0
    case High => 1
    case Low => 2
  }

  /** `branch as u16` */
  function BranchCode(b: bool): (r: u16)
    ensures r == 1 <==> b
  {
    if b then 1 else 0
  }

  /** A parent label record: its name, its child count, its offset and its
      visibility. */
  function ParentRecord(l: Label): (r: seq<byte>)
    ensures |r| == ParentRecordLen
  {
    l.name + LeU32(l.numChildren) + LeU32(l.offset) + LeU32(VisCode(l.vis))
  }

  /** A child label record: the child's name, then the offset and the
      visibility of its parent. */
  function ChildRecord(child: Label, parent: Label): (r: seq<byte>)
    ensures |r| == ChildRecordLen
  {
    child.name + LeU32(parent.offset) + LeU32(VisCode(parent.vis))
  }

  function ChildRecords(children: seq<Label>, parent: Label): (r: seq<byte>)
    ensures |r| == ChildRecordLen * |children|
    decreases |children|
  {
    if |children| == 0 then []
    else ChildRecord(children[0], parent) + ChildRecords(children[1..], parent)
  }

  /** The label block: `count` times, the next label is a parent whose
      children follow it. The source unwraps the label iterator, so running
      out of labels is a panic. */
  function LabelBlock(labels: seq<Label>, count: nat): (r: Option<seq<byte>>)
    ensures count == 0 ==> r == Some([])
    ensures r.Some? && count > 0 ==> |labels| > 0 && |labels| > labels[0].numChildren
    decreases count
  {
    if count == 0 then Some([])
    else if |labels| == 0 || labels[0].numChildren >= |labels| then None
    else
      var n := labels[0].numChildren;
      var rest :- LabelBlock(labels[n + 1..], count - 1);
      Some(ParentRecord(labels[0]) + ChildRecords(labels[1..n + 1], labels[0]) + rest)
  }

  /** The number of roots of a flattened forest. */
  function Roots(ls: seq<Label>): nat
    requires Forest(ls)
    decreases |ls|
  {
    if |ls| == 0 then 0 else 1 + Roots(ls[ls[0].numChildren + 1..])
  }

  /** Over a forest with as many roots as the header claims, the label walk
      never runs out: it writes one 44-byte record per root and one 40-byte
      record per child. */
  lemma {:induction false} LabelBlockOfForest(ls: seq<Label>)
    requires Forest(ls)
    ensures LabelBlock(ls, Roots(ls)).Some?
    ensures |LabelBlock(ls, Roots(ls)).value| == ParentRecordLen * Roots(ls) + ChildRecordLen * (|ls| - Roots(ls))
    decreases |ls|
  {
    if |ls| > 0 {
      var n := ls[0].numChildren;
      LabelBlockOfForest(ls[n + 1..]);
      RootsBound(ls[n + 1..]);
    }
  }

  lemma {:induction false} RootsBound(ls: seq<Label>)
    requires Forest(ls)
    ensures Roots(ls) <= |ls|
    decreases |ls|
  {
    if |ls| > 0 {
      RootsBound(ls[ls[0].numChildren + 1..]);
    }
  }

  /** Child record `j` of a parent carries the child's own name but the
      parent's offset and visibility. */
  lemma {:induction false} ChildRecordAt(children: seq<Label>, parent: Label, j: nat)
    requires j < |children|
    ensures ChildRecords(children, parent)[ChildRecordLen * j..ChildRecordLen * (j + 1)]
      == children[j].name + LeU32(parent.offset) + LeU32(VisCode(parent.vis))
    decreases j
  {
    var r := ChildRecords(children, parent);
    if j > 0 {
      ChildRecordAt(children[1..], parent, j - 1);
      var tail := ChildRecords(children[1..], parent);
      assert r == ChildRecord(children[0], parent) + tail;
      assert r[ChildRecordLen * j..ChildRecordLen * (j + 1)]
        == tail[ChildRecordLen * (j - 1)..ChildRecordLen * j];
    }
  }

  /** The position of the first NUL byte, which ends a name. */
  function FirstNul(name: seq<byte>): (r: Option<nat>)
    ensures r.Some? ==> r.value < |name| && name[r.value] == 0
    ensures r.Some? ==> forall i :: 0 <= i < r.value ==> name[i] != 0
    ensures r.None? ==> forall i :: 0 <= i < |name| ==> name[i] != 0
    decreases |name|
  {
    if |name| == 0 then None
    else if name[0] == 0 then Some(0)
    else
      var k :- FirstNul(name[1..]);
      Some(k + 1)
  }

  /** The 64-byte referred name of a reference: the parent up to its first
      NUL, then, for a child, a period and the child's first 31 bytes, the
      rest zero. A parent without a NUL panics at the `unwrap`. */
  function ReferredBuffer(rf: Reference): (r: Option<seq<byte>>)
    ensures r.Some? <==> FirstNul(rf.parent).Some?
    ensures r.Some? ==> |r.value| == ReferredLen
    ensures r.Some? ==>
      var k := FirstNul(rf.parent).value;
      && r.value[..k] == rf.parent[..k]
      && (rf.child.None? ==> forall i :: k <= i < ReferredLen ==> r.value[i] == 0)
      && (rf.child.Some? ==>
            && r.value[k] == '.' as byte
            && r.value[k + 1..k + 32] == rf.child.value[..31]
            && forall i :: k + 32 <= i < ReferredLen ==> r.value[i] == 0)
  {
    var k :- FirstNul(rf.parent);
    match rf.child
    case None => Some(rf.parent[..k] + Zeros(ReferredLen - k))
    case Some(c) =>
      var r := rf.parent[..k] + ['.' as byte] + c[..31] + Zeros(ReferredLen - k - 32);
      assert r[k + 1..k + 32] == c[..31];
      Some(r)
  }

  /** The source writes the period at the parent's length and the child's
      bytes right after it; every index stays below 64, because a NUL ends the
      parent within its 32 bytes. */
  lemma ReferredWritesInBounds(rf: Reference)
    requires FirstNul(rf.parent).Some?
    ensures FirstNul(rf.parent).value + 1 + 30 < ReferredLen
  {
  }

  /** A reference record: the referred name, the offset, the byte selector
      and the branch flag. */
  function ReferenceRecord(rf: Reference): (r: Option<seq<byte>>)
    ensures r.Some? <==> FirstNul(rf.parent).Some?
    ensures r.Some? ==> |r.value| == ReferenceRecordLen
  {
    var buf :- ReferredBuffer(rf);
    Some(buf + LeU32(rf.offset) + LeU16(SelectCode(rf.whichByte)) + LeU16(BranchCode(rf.branch)))
  }

  function ReferenceBlock(refs: seq<Reference>): (r: Option<seq<byte>>)
    ensures r.Some? <==> forall i :: 0 <= i < |refs| ==> FirstNul(refs[i].parent).Some?
    ensures r.Some? ==> |r.value| == ReferenceRecordLen * |refs|
    decreases |refs|
  {
    if |refs| == 0 then Some([])
    else
      var head :- ReferenceRecord(refs[0]);
      var rest :- ReferenceBlock(refs[1..]);
      assert forall i :: 1 <= i < |refs| ==> refs[i] == refs[1..][i - 1];
      Some(head + rest)
  }

  /** The payload: the code and the zero bytes past it up to a multiple of
      four. The code buffer has 65536 bytes, so a longer slice panics. */
  function Payload(code: seq<byte>): (r: Option<seq<byte>>)
    ensures r.Some? <==> PaddedLen(|code|) <= 0x1_0000
    ensures r.Some? ==> |r.value| == PaddedLen(|code|) && |r.value| % 4 == 0
    ensures r.Some? ==> r.value[..|code|] == code && forall i :: |code| <= i < |r.value| ==> r.value[i] == 0
  {
    if PaddedLen(|code|) > 0x1_0000 then None
    else Some(code + Zeros(PadAmount(|code|)))
  }

  /** One section: header, label block, reference block, payload. */
  function SectionBytes(name: Name, s: Section): (r: Option<seq<byte>>)
    ensures r.Some? <==>
      && LabelBlock(s.labels, s.numParents).Some?
      && ReferenceBlock(s.references).Some?
      && Payload(s.code).Some?
    ensures r.Some? ==>
      && |r.value| == SectionHeaderLen + |LabelBlock(s.labels, s.numParents).value|
                      + ReferenceRecordLen * |s.references| + PaddedLen(|s.code|)
      && r.value[..32] == name
      && r.value[32..44] == LeU32(|s.code|) + LeU32(s.numParents) + LeU32(|s.references|)
  {
    var labels :- LabelBlock(s.labels, s.numParents);
    var refs :- ReferenceBlock(s.references);
    var payload :- Payload(s.code);
    var header := name + LeU32(|s.code|) + LeU32(s.numParents) + LeU32(|s.references|);
    var r := header + labels + refs + payload;
    assert r[..32] == name && r[32..44] == header[32..44];
    Some(r)
  }

  /** The section records in the order the map is walked. */
  function SectionsBytes(sections: map<Name, Section>, order: seq<Name>): (r: Option<seq<byte>>)
    requires forall i :: 0 <= i < |order| ==> order[i] in sections
    ensures r.Some? <==> forall i :: 0 <= i < |order| ==> SectionBytes(order[i], sections[order[i]]).Some?
    decreases |order|
  {
    if |order| == 0 then Some([])
    else
      var head :- SectionBytes(order[0], sections[order[0]]);
      var rest :- SectionsBytes(sections, order[1..]);
      assert forall i :: 1 <= i < |order| ==> order[i] == order[1..][i - 1];
      Some(head + rest)
  }

  /** An order that visits every section exactly once, as iterating the map
      does. */
  predicate Enumerates(sections: map<Name, Section>, order: seq<Name>) {
    && sections.Keys == (set i | 0 <= i < |order| :: order[i])
    && (forall i, j :: 0 <= i < j < |order| ==> order[i] != order[j])
  }

  /** `create_object`: the section count, then every section in the
      iteration order `order`. No object results when a section's label walk
      runs out of labels, a referred parent lacks its NUL, or the padded code
      exceeds the 65536-byte buffer: the source panics there, after the file
      has been created and possibly partly written. */
  function CreateObject(sections: map<Name, Section>, order: seq<Name>): (r: Option<seq<byte>>)
    requires Enumerates(sections, order)
    ensures r.Some? <==> forall n :: n in sections ==> SectionBytes(n, sections[n]).Some?
    ensures r.Some? ==> |r.value| >= 4 && r.value[..4] == LeU32(|order|)
  {
    EnumerationCount(sections, order);
    var body :- SectionsBytes(sections, order);
    Some(LeU32(|sections|) + body)
  }

  /** The count written is the number of sections the walk then visits. */
  lemma EnumerationCount(sections: map<Name, Section>, order: seq<Name>)
    requires Enumerates(sections, order)
    ensures |sections| == |order|
  {
    DistinctCard(order);
  }

  lemma {:induction false} DistinctCard(order: seq<Name>)
    requires forall i, j :: 0 <= i < j < |order| ==> order[i] != order[j]
    ensures |set i | 0 <= i < |order| :: order[i]| == |order|
    decreases |order|
  {
    if |order| > 0 {
      var last := |order| - 1;
      DistinctCard(order[..last]);
      var prefix := set i | 0 <= i < last :: order[..last][i];
      assert (set i | 0 <= i < |order| :: order[i]) == prefix + {order[last]};
      assert order[last] !in prefix;
    }
  }

  /** A section of `s` bytes with `p` parents, `c` children and `f`
      references takes 44 + 44p + 40c + 72f bytes plus its padded payload. */
  lemma SectionLength(name: Name, s: Section)
    requires Forest(s.labels) && s.numParents == Roots(s.labels)
    requires ReferenceBlock(s.references).Some? && Payload(s.code).Some?
    ensures SectionBytes(name, s).Some?
    ensures |SectionBytes(name, s).value| ==
      SectionHeaderLen + ParentRecordLen * s.numParents + ChildRecordLen * (|s.labels| - s.numParents)
      + ReferenceRecordLen * |s.references| + PaddedLen(|s.code|)
  {
    LabelBlockOfForest(s.labels);
  }
}

=== FILE: radix.dfy ===
/** Parsing of unsigned 16-bit numbers in a given radix, as Rust's
    `u16::from_str_radix` does it; both the assembler's literals and the
    linker script's numbers go through it. */
module Radix {
  import opened Wrappers
  import opened Bytes

  /** `char::to_digit`: the value of an ASCII digit or letter (either case),
      if it is below `base`. */
  function DigitValue(c: char, base: nat): (r: Option<nat>)
    ensures r.Some? ==> r.value < base
  {
    var d :=
      if '0' <= c <= '9' then (c as int) - ('0' as int)
      else if 'a' <= c <= 'z' then (c as int) - ('a' as int) + 10
      else if 'A' <= c <= 'Z' then (c as int) - ('A' as int) + 10
      else 36;
    if d < base then Some(d) else None
  }

  /** The value of a digit string, most significant digit first; nothing if
      some character is not a digit of `base`. */
  function DigitsValue(s: string, base: nat): Option<nat>
    decreases |s|
  {
    if |s| == 0 then Some(0)
    else
      var prefix :- DigitsValue(s[..|s| - 1], base);
      var d :- DigitValue(s[|s| - 1], base);
      Some(prefix * base + d)
  }

  /** `u16::from_str_radix`: an empty string, a lone sign, a character that
      is not a digit of `base`, or a value above 0xffff is an error; one
      leading `+` is allowed. The source checks overflow digit by digit, which
      fails exactly when the whole value exceeds 0xffff, since each prefix is
      worth no more than the whole. */
  function FromStrRadix(s: string, base: nat): (r: Option<u16>)
    ensures r.Some? ==> |s| > 0
    ensures r.Some? && s[0] != '+' ==> DigitsValue(s, base) == Some(r.value)
    ensures r.Some? && s[0] == '+' ==> DigitsValue(s[1..], base) == Some(r.value)
    ensures var digits := if |s| > 0 && s[0] == '+' then s[1..] else s;
      r.Some? <==> (|s| > 0 && s != "+" && DigitsValue(digits, base).Some? && DigitsValue(digits, base).value <= 0xffff)
  {
    if |s| == 0 then None
    else if s[0] == '+' && |s| == 1 then None
    else
      var digits := if s[0] == '+' then s[1..] else s;
      var v :- DigitsValue(digits, base);
      if v <= 0xffff then Some(v) else None
  }

  /** The digit character for a value below 16, lower case. */
  function DigitChar(d: nat): (c: char)
    requires d < 16
    ensures c != '+'
  {
    if d < 10 then (('0' as int) + d) as char else (('a' as int) + d - 10) as char
  }

  /** A digit character reads back as its value in any larger base. */
  lemma DigitCharValue(d: nat, base: nat)
    requires d < 16 && d < base
    ensures DigitValue(DigitChar(d), base) == Some(d)
  {
  }

  /** The shortest digit string of `v` in `base`. */
  function Format(v: nat, base: nat): (s: string)
    requires 2 <= base <= 16
    ensures |s| > 0 && s[0] != '+'
    decreases v
  {
    if v < base then [DigitChar(v)] else Format(v / base, base) + [DigitChar(v % base)]
  }

  /** Formatting then parsing gives the number back. */
  lemma {:induction false} FormatParses(v: nat, base: nat)
    requires 2 <= base <= 16
    ensures DigitsValue(Format(v, base), base) == Some(v)
    decreases v
  {
    if v < base {
      assert Format(v, base)[..0] == [];
      DigitCharValue(v, base);
    } else {
      FormatParses(v / base, base);
      DigitsValueSnoc(Format(v / base, base), v / base, v % base, base);
      DivMod(v, base);
    }
  }

  /** Appending one digit multiplies by the base and adds the digit. */
  lemma DigitsValueSnoc(pre: string, p: nat, d: nat, base: nat)
    requires 2 <= base <= 16 && d < base
    requires DigitsValue(pre, base) == Some(p)
    ensures DigitsValue(pre + [DigitChar(d)], base) == Some(p * base + d)
  {
    var s := pre + [DigitChar(d)];
    assert s[..|s| - 1] == pre;
    DigitCharValue(d, base);
  }

  lemma DivMod(v: nat, base: nat)
    requires base > 0
    ensures (v / base) * base + v % base == v
  {
  }

  /** Every 16-bit number survives `FromStrRadix` after `Format`. */
  lemma FromStrRadixOfFormat(v: u16, base: nat)
    requires 2 <= base <= 16
    ensures FromStrRadix(Format(v, base), base) == Some(v)
  {
    FormatParses(v, base);
  }

  /** Leading zeros and one leading `+` are accepted. */
  lemma PaddedAndSigned()
    ensures FromStrRadix("00ff", 16) == Some(0xff)
    ensures FromStrRadix("+7", 10) == Some(7)
    ensures FromStrRadix("+", 10) == None
  {
    assert DigitValue('0', 16) == Some(0) && DigitValue('f', 16) == Some(15);
    assert "0"[..0] == [];
    assert DigitsValue("0", 16) == Some(0);
    assert "00"[..1] == "0";
    assert DigitsValue("00", 16) == Some(0);
    assert "00f"[..2] == "00";
    assert DigitsValue("00f", 16) == Some(15);
    assert "00ff"[..3] == "00f";
    assert DigitsValue("00ff", 16) == Some(0xff);
    assert "+7"[1..] == "7" && "7"[..0] == [];
    assert DigitValue('7', 10) == Some(7);
    assert DigitsValue("7", 10) == Some(7);
  }

  /** A value above 0xffff is rejected, however it is written. */
  lemma OverflowRejected(s: string, base: nat)
    requires |s| > 0 && s[0] != '+'
    requires DigitsValue(s, base).Some? && DigitsValue(s, base).value > 0xffff
    ensures FromStrRadix(s, base).None?
  {
  }
}

=== FILE: wrappers.dfy ===
/** Failure-compatible Option and Result types shared by the assembler and
    linker models. Every fallible step of the toolchain returns one of these
    instead of setting an error string or panicking. */
module Wrappers {

  datatype Option<+T> = None | Some(value: T) {
    predicate IsFailure() { None? }

    function PropagateFailure<U>(): Option<U>
      requires None?
    {
      None
    }

    function Extract(): T
      requires Some?
    {
      value
    }

    /** `Option::unwrap_or` */
    function GetOr(default: T): T {
      match this
      case Some(v) => v
      case None => default
    }
  }

  datatype Result<+T, +E> = Ok(value: T) | Err(error: E) {
    predicate IsFailure() { Err? }

    function PropagateFailure<U>(): Result<U, E>
      requires Err?
    {
      Err(error)
    }

    function Extract(): T
      requires Ok?
    {
      value
    }
  }
}
